=== FILE: README.md ===
# telegram-verify-bot, modelled in Dafny

telegram-verify-bot is a Telegram relay bot that runs as a Cloudflare
Worker. A guest writing to the bot first has to solve a small arithmetic
puzzle built from the current clock. They answer it by pressing one of six
inline buttons. Once verified, their messages are forwarded to the
operator (`ADMIN_UID`), and the operator answers by replying to the
forwarded copy. The operator can also block and unblock guests and keep a
whitelist of guests who skip verification. Ten wrong answers block a guest.

The repository has two workers with the same behaviour. `worker-D1.js`
keeps its state in an SQL database (the `Database` class).
`worker-KV.js` keeps it in a key-value namespace under per-user keys with
expiry times. This project models both.

- `wrappers.dfy`: `Option`.
- `strings.dfy`: the JavaScript string behaviour the workers rely on:
  - decimal rendering and `parseInt`;
  - `split` and `join`;
  - `filter(v => v)`;
  - the `\d`, `\w` and `\s` classes.
- `puzzle.dfy`: `generateMathProblem`, `generateOptions`, the inline
  keyboard and the parsing of callback payloads `verify_<option>_<answer>`.
  The clock and every `Math.random` draw are injected as a `Draw`.
- `bot.dfy`: what both workers share:
  - configuration, updates and the emitted Telegram calls;
  - `handleNotify` and `isFraud`;
  - the operator command patterns and `getTargetUserId`.
- `d1_store.dfy`: the `Database` class of the SQL worker, as an immutable
  record of tables.
- `d1_worker.dfy`: the SQL worker's handlers: `handleGuestMessage`,
  `onCallbackQuery`, `onMessage` with the operator commands, and
  `onUpdate`. It also holds the properties that span several updates.
- `kv_store.dfy`: the key-value namespace:
  - `get`, `put` with `expirationTtl`, and `delete`;
  - the key families `whitelist-`, `isblocked-`, `verified-`, `verify-`,
    `verify-attempts-` and `msg-map-`;
  - the comma-joined `whitelist-data` list.
- `kv_worker.dfy`: the key-value worker's handlers and its properties
  across updates.

Each handler is a pure function. It takes:
- the store;
- the update;
- the time `now` in milliseconds (one reading per update);
- an `Oracle` holding what the outside world answers: the puzzle draws,
  the text of the fraud list, and the id of the forwarded copy when
  `forwardMessage` succeeds.

It returns the new store and the list of Telegram calls made. Message
texts are named by meaning (`Notice`) rather than spelled out.

Where the code and its description disagree, the model follows the code:
- **The SQL worker's question prints the answer.** It shows each digit,
  the sum and the result modulo 10 (`Revealed(question) == Some(answer)`).
  The key-value worker prints only the positions and the add value.
- **Whitelisted guests are still fraud-checked.** `handleNotify` checks
  them after their message has been forwarded, and the check only sends a
  second alert to the operator.
- **A reply with no mapping is still copied.** When the operator's reply
  points at a message with no mapping, the worker calls `copyMessage` with
  a null `chat_id` (`Copy(None, …)`). No explanatory message is sent.
- **The SQL worker's listing is unordered here.** The query sorts it by
  `created_at DESC`; the model lists it as a set.

## Model

| member | source | states |
|---|---|---|
| Strings.NatToString | worker-D1.js:46 | the decimal rendering is all digits, and starts with '0' exactly for 0 |
| Strings.IntToString | worker-D1.js:505 | `toString()` of a chat id gives an id-shaped string: digits with at most a leading '-' |
| Strings.ParseIntOfNatToString | worker-KV.js:404 | `parseInt` reads back every counter the worker has written as a decimal |
| Strings.IntToStringInjective | worker-D1.js:577 | two different chat ids never render to the same string, so each user has their own rows and keys |
| Strings.Split | worker-KV.js:295 | `split(',')` gives at least one piece and no piece contains the separator; there are two or more pieces exactly when the separator occurs, and the first piece is the text before its first occurrence (the whole text when it does not occur) |
| Strings.SplitRest | worker-KV.js:295 | the pieces after the first are the split of the text after the first separator |
| Strings.Join | worker-KV.js:298 | joining no pieces gives ""; a join starts with its first piece; with separator-free pieces the separator occurs exactly when there are two or more |
| Strings.ParseInt | worker-KV.js:404 | `parseInt` gives a number exactly when the text starts with a digit, and the value of the digits when the whole text is digits |
| Strings.JoinOfSplit | worker-KV.js:298 | joining the pieces of a split restores the string |
| Strings.SplitOfJoin | worker-KV.js:295-298 | splitting a join of separator-free pieces gives back those pieces |
| Strings.Filtered | worker-KV.js:324 | `filter(v => v && v !== id)`: an element is kept exactly when it is non-empty and not `id`; the result is never longer |
| Strings.FilteredOfClean | worker-KV.js:359 | filtering a list with no empty or dropped entries changes nothing |
| Strings.FilteredAfterNonEmpty | worker-KV.js:324 | dropping empties first and then the id is the same as one combined filter |
| Strings.FilteredAppend | worker-KV.js:324 | filtering a concatenation gives the concatenation of the filtered parts |
| Puzzle.ShiftedDigit | worker-D1.js:43-44 | each result digit is `(digit + addValue) % 10`, below 10 |
| Puzzle.GenerateMathProblem | worker-D1.js:6-55 | the answer is two digits, `(d[pos1]+v)%10` then `(d[pos2]+v)%10`; the question lets a reader solve it; only the SQL worker's style reveals the answer |
| Puzzle.ExampleAnswer | worker-KV.js:6-55 | 14:05:09 with positions 1 and 6 (counted from one, as the question shows them; indices 0 and 5) and add value 7 gives the answer "86" |
| Puzzle.AnswerValue | worker-D1.js:615 | `parseInt(answer)` is below 100 and renders back to the answer exactly when there is no leading zero |
| Puzzle.CollectOptions | worker-D1.js:672-681 | the option loop keeps the answer first, then only distinct, positive candidates from [c-10, c+9] that differ from c, at most six; while fewer than six exist, a draw giving a new acceptable candidate is appended next, and a result short of six holds every acceptable candidate drawn |
| Puzzle.KeptCandidates | worker-D1.js:674-680 | one loop step: the acceptable candidates of the later draws, kept by the rest of the loop, together with the current draw's are all kept unless six options were reached |
| Puzzle.Permute | worker-D1.js:683 | the shuffle places option `order[k]` at position k |
| Puzzle.PermutePreserves | worker-KV.js:560 | shuffling by a permutation keeps the options distinct and keeps exactly the same values |
| Puzzle.GenerateOptions | worker-KV.js:546-561 | six distinct options, the answer among them, every other one a positive decoy in [c-10, c+9] |
| Puzzle.Keyboard | worker-D1.js:617-631 | two rows of three buttons, in option order, each carrying `verify_<option>_<answer>` |
| Puzzle.ParseTriple | worker-D1.js:514 | `data.split('_')` of `verify_x_a` destructures to `x` and `a` |
| Puzzle.ParseButtonData | worker-D1.js:620-627 | a button's payload `verify_<option>_<answer>` destructures back to its rendered option and the raw answer |
| Puzzle.ParsePayload | worker-D1.js:510-514 | a payload is handled exactly when it starts with `verify_`; the chosen part is the '_'-free text after the prefix, running up to the next '_' or the end; a correct part is present exactly when a second '_' follows, and it runs up to the next '_' or the end; both are read in place from the payload |
| Puzzle.CorrectChoiceShape | worker-D1.js:510-516 | a press passes exactly when the payload is `verify_x_x`, alone or followed by `_` and more, for some '_'-free x; so `verify_5_55` and a payload with no second part never pass |
| Puzzle.ButtonAcceptedIff | worker-D1.js:516 | a keyboard button passes exactly when it carries the numeric answer and the answer has no leading zero |
| Puzzle.LeadingZeroAnswerUnsolvable | worker-KV.js:489-504 | with an answer starting with '0', no button of the keyboard passes |
| Puzzle.LeadingZeroExample | worker-D1.js:46 | 14:05:09 with positions 2 and 1 (counted from one; indices 1 and 0) and add value 6 gives "07", which no payload can match |
| Puzzle.FixedKeyboard | worker-D1.js:617-631 | the corrected keyboard: the same buttons, with the correct part rendered like the option |
| Puzzle.FixedButtonAcceptedIff | worker-D1.js:514-516 | with the corrected payload, a button passes exactly when its option equals the answer |
| Puzzle.FixedKeyboardAcceptsOnlyCorrect | worker-D1.js:615-631 | with the corrected keyboard, exactly the button showing the answer passes, whatever the answer's digits |
| Bot.ChallengeCalls | worker-D1.js:615-636 | the challenge goes to the guest with the question and the keyboard built from the generated options and the raw answer, so one of its buttons shows the answer; it is sent only once the options are complete |
| Bot.KeyboardOffersOptions | worker-KV.js:491-505 | every generated option appears on some button |
| Bot.Notify | worker-D1.js:689-712 | with notifications switched off, handleNotify makes at most one call; it alerts the operator exactly when the sender is on the fraud list, and does nothing else |
| Bot.MapKeyInjective | worker-D1.js:591 | different forwarded message ids give different `msg-map-` keys |
| Bot.Present | worker-KV.js:294 | the `or`-default idiom treats an empty value as missing, and keeps any other value |
| Bot.RenderCount | worker-KV.js:404-417 | a counter written with `toString()` reads back through `parseInt` as the same count, and a NaN counter reads back as NaN |
| Bot.Run | worker-D1.js:339 | a greedy `\s+`, `\w+` or `\d+` takes the longest run of its class |
| Bot.RunExact | worker-KV.js:265 | a run bounded by a character outside the class has exactly that length |
| Bot.TargetUserId | worker-D1.js:402-415 | a numeric argument in the text wins over the replied-to mapping; the argument is a non-empty string of digits |
| Bot.FirstArgIsLeftmost | worker-D1.js:404 | `match` takes the leftmost match: a capture is that of the first position where `\/\w+\s+(\d+)` fits, and no capture means it fits nowhere |
| Bot.FirstArgCaptures | worker-KV.js:265-268 | what `/\/\w+\s+(\d+)/` captures is a non-empty string of digits |
| Bot.NoSlashNoMatch | worker-D1.js:404 | text without a '/' yields no argument |
| Bot.CommandArg | worker-D1.js:345-355 | `/^\/name(?:\s+(\d+))?$/`: the bare command matches with no capture; a capture is a non-empty digit run ending the text, separated from the name by whitespace only |
| Bot.CommandArgOf | worker-D1.js:345 | the converse: the name, one or more whitespace characters and digits match and capture exactly those digits |
| Bot.ParseCommand | worker-D1.js:343-386 | a whitelist command is recognised only when its anchored pattern matches, with the pattern's capture as its argument; `/listwhite`, `/block`, `/unblock` and `/checkblock` are recognised exactly on those texts; a message without text is no command |
| Bot.CommandArgAgrees | worker-D1.js:339-351 | on texts the anchored whitelist patterns accept, getTargetUserId's pattern captures the same uid, or nothing for the bare command |
| Bot.BareCommandCapturesNothing | worker-KV.js:206 | a bare `/addwhite` yields no argument, so the target comes from the reply |
| Bot.CommandWithDigitsCaptures | worker-KV.js:206-208 | `/addwhite 123` yields the argument "123" |
| Bot.Trim | worker-D1.js:801-802 | `trim()` leaves no whitespace at either end, leaves a clean string unchanged, and trims an all-blank line to "" |
| Bot.TrimBounds | worker-D1.js:801-802 | the trimmed text is a slice of the input with only whitespace cut from either end |
| Bot.TrimDropsPadding | worker-KV.js:681 | padding around an entry, including a CRLF line ending, is ignored |
| Bot.FraudListMembership | worker-D1.js:797-807 | a list written one id per line flags exactly the ids on it |
| Bot.IsFraud | worker-D1.js:797-807 | a hit needs a fetched list and a non-empty id with no whitespace at either end; a failed fetch never flags anyone |
| Bot.FraudEntryWithPadding | worker-KV.js:676-686 | an id surrounded by blanks on a CRLF line is still flagged |
| Bot.EmptyIdNeverListed | worker-KV.js:680 | blank lines are skipped, so the empty id is never flagged |
| D1Store.AddWhitelist | worker-D1.js:109-113 | afterwards the id is whitelisted and no one else changes; re-adding changes nothing (INSERT OR IGNORE); other tables are untouched |
| D1Store.RemoveWhitelist | worker-D1.js:115-119 | only the id leaves the whitelist; other tables are untouched |
| D1Store.Whitelist | worker-D1.js:121-127 | the listing holds exactly the whitelisted ids |
| D1Store.AddWhitelistIdempotent | worker-D1.js:109-113 | adding twice is adding once, and the first `created_at` is kept |
| D1Store.GetVerificationState | worker-D1.js:130-137 | a row is returned exactly when the user has one and `now < created_at + 300000`, and it is the stored row |
| D1Store.SetVerification | worker-D1.js:139-143 | the new challenge is visible for exactly the next 300000 ms, whatever was there before; other users unaffected |
| D1Store.UpdateVerificationAttempts | worker-D1.js:145-149 | only `attempts` changes: the answer and `created_at` are kept, so the window is neither extended nor revived; no row is created |
| D1Store.DeleteVerification | worker-D1.js:151-155 | the user's challenge is gone at every time; other users unaffected |
| D1Store.CleanupExpiredVerifications | worker-D1.js:225-230 | exactly the rows with `created_at < now - 300000` are removed; kept rows are unchanged |
| D1Store.CleanupInvisible | worker-D1.js:130-137 | the cleanup never changes what getVerificationState returns from then on |
| D1Store.IsVerified | worker-D1.js:158-164 | a user is verified exactly when they have a grant whose `expiry_time` is later than now |
| D1Store.SetVerified | worker-D1.js:166-171 | the user is verified at time t exactly when `t < now + ttl*1000`; no other user changes |
| D1Store.BlockUser | worker-D1.js:182-186 | the id becomes blocked and no one else changes; re-blocking changes nothing |
| D1Store.UnblockUser | worker-D1.js:188-192 | only the id stops being blocked |
| D1Store.BlockUserIdempotent | worker-D1.js:182-186 | blocking twice is blocking once |
| D1Store.GetMessageMap | worker-D1.js:195-201 | a mapping is returned exactly when the key is stored with a non-empty value, and it is that value |
| D1Store.SetMessageMap | worker-D1.js:203-207 | the key reads back the value (null if it is empty); other keys are unaffected |
| D1Store.UnknownKeyIsNull | worker-D1.js:195-201 | an unknown mapping key reads as null |
| D1Worker.Relay | worker-D1.js:653-663 | the message is forwarded; the mapping and handleNotify follow only when the forward succeeds; no other mapping or table changes |
| D1Worker.IssueChallenge | worker-D1.js:608-636 | the challenge is stored with attempts 0 and `created_at` now; the question solves to the stored answer; a challenge is sent exactly when the options can be generated, and its keyboard is built from those options and that answer |
| D1Worker.HandleGuestMessage | worker-D1.js:575-667 | first match wins: whitelisted, blocked, unverified with or without a live challenge, fraud, verified; exactly the whitelisted and verified senders are forwarded; the other outcomes leave the store unchanged |
| D1Worker.PriorAttempts | worker-D1.js:528-529 | the stored count read as `verState?.attempts` or 0: 0 without a live row, the stored attempts with one |
| D1Worker.OnCallbackQuery | worker-D1.js:503-554 | see the callback rules after this table |
| D1Worker.WhitelistOutcome | worker-D1.js:420-478 | a missing target gives only the usage text; add, remove and check act on that target's whitelist row alone |
| D1Worker.ListOutcome | worker-D1.js:483-498 | an empty whitelist gives the "empty" text, otherwise the listing of every whitelisted id |
| D1Worker.BlockOutcome | worker-D1.js:717-792 | a missing mapping gives an error and no change; /block refuses the operator's own id; block and unblock change only the target; check reports the status |
| D1Worker.HandleAdmin | worker-D1.js:341-393 | the order of the operator branch: whitelist commands, the list, help when not replying, the block commands, else a copy to the mapped sender; it never touches challenges, grants or mappings |
| D1Worker.OnMessage | worker-D1.js:333-397 | `/start` is greeted first, then the operator's messages are commands, then everyone else is a guest |
| D1Worker.OnUpdate | worker-D1.js:559-569 | a message goes to onMessage; a callback goes to onCallbackQuery, which leaves the whitelist and the mappings alone and can block only the presser |
| D1Worker.WhitelistIgnoresOtherState | worker-D1.js:579-595 | a whitelisted sender gets the same calls whatever else the store holds, and only the mapping table changes |
| D1Worker.ChallengeIsNotReissued | worker-D1.js:606-642 | within five minutes of a challenge, the guest's next message only gets the reminder |
| D1Worker.PressesKeepBlocks | worker-D1.js:531-533 | no sequence of button presses unblocks anyone |
| D1Worker.WrongPressesCount | worker-D1.js:528-545 | below ten, each wrong answer on a live challenge adds exactly one to its counter and leaves the presser's block status unchanged |
| D1Worker.WrongPressesBlockNobody | worker-D1.js:528-545 | below ten, wrong answers on a live challenge block nobody: every user's block status is unchanged |
| D1Worker.CeilingBlocks | worker-D1.js:529-533 | the wrong answer that brings the counter to ten blocks the presser |
| D1Worker.FreshChallengeCeiling | worker-D1.js:503-554 | from a fresh challenge, wrong answers within its five minutes block the guest exactly when there are ten or more |
| D1Worker.PassedUnlocksRelay | worker-D1.js:516-518 | after a correct answer, an unblocked guest's messages for the next three days are forwarded or flagged, never challenged |
| D1Worker.BlockIsSticky | worker-D1.js:748-767 | a blocked user is unblocked only by the operator's /unblock replying to a message mapped to them |
| D1Worker.ReplyReachesSender | worker-D1.js:386-392 | the operator's plain reply to a forwarded message is copied to the guest who sent it |
| D1Worker.BlockByReply | worker-D1.js:717-743 | /block replying to a guest's forwarded message makes that guest's next message (unless whitelisted) get "You are blocked" |
| D1Worker.AddWhiteByArgument | worker-D1.js:420-436 | `/addwhite <uid>` whitelists the uid in the command and confirms it |
| KvStore.Put | worker-KV.js:486-487 | with a TTL of s seconds the key reads the value until `now + s*1000`, forever without a TTL; other keys are unaffected |
| KvStore.Delete | worker-KV.js:638 | the key reads as null at every time; other keys are unaffected |
| KvStore.Get | worker-KV.js:404 | a value is returned exactly when the key is stored and has not expired, and it is the stored value |
| KvStore.GetLater | worker-KV.js:404 | expiry only hides values: what is unreadable now stays unreadable later |
| KvStore.DifferAt | worker-KV.js:392-394 | a position inside both prefixes at which the keys of two different families differ, whatever id-shaped ids follow |
| KvStore.UserKeysDistinct | worker-KV.js:486-487 | two per-user keys are equal exactly when they have the same family and the same id |
| KvStore.UserKeyIsNotListKey | worker-KV.js:292-298 | no per-user key of an id-shaped user is `whitelist-data` |
| KvStore.UserKeyIsNotMapKey | worker-KV.js:464 | no per-user key is a `msg-map-` key |
| KvStore.Entries | worker-KV.js:358-359 | an id is listed exactly when it is a non-empty piece of the stored value split on commas; a missing key lists nothing; no listed id contains a comma |
| KvStore.SplitPiecesFiltered | worker-KV.js:324 | the entries kept from a split contain no comma |
| KvStore.AddEntry | worker-KV.js:294-299 | a new id is appended once and an id already present changes nothing; only `whitelist-data` is written |
| KvStore.RemoveEntry | worker-KV.js:323-325 | the list afterwards is the old entries minus every occurrence of the id, in order; only `whitelist-data` is written |
| KvStore.RemoveEntryKeeps | worker-KV.js:322-325 | reading back the list written on removal gives the filtered entries |
| KvStore.EntriesOfJoin | worker-KV.js:298 | a list written as the join of clean entries reads back as those entries |
| KvStore.JoinNonEmpty | worker-KV.js:298 | a join whose first entry is non-empty is non-empty |
| KvStore.AddEntryKeepsDistinct | worker-KV.js:296-299 | adding never creates a duplicate entry |
| KvStore.FilteredKeepsDistinct | worker-KV.js:324 | removal keeps the entries distinct |
| KvStore.RemoveEntryCount | worker-KV.js:322-325 | on a duplicate-free list, removal lowers the count `handleListWhitelist` shows by one exactly when the id was listed, and otherwise keeps it |
| KvStore.FilteredCount | worker-KV.js:324 | filtering one id out of distinct non-empty entries removes one entry exactly when the id is among them |
| KvStore.AddThenRemoveRestores | worker-KV.js:294-325 | adding an absent comma-free id and then removing it restores the listing |
| KvWorker.BlockedKeyIsOwnFamily | worker-KV.js:408 | no key of another family, and not `whitelist-data`, is an `isblocked-` key |
| KvWorker.BlockedKeyInjective | worker-KV.js:614 | two blocked flags share a key only for the same user |
| KvWorker.Relay | worker-KV.js:528-538 | the message is forwarded; the mapping is written without expiry and handleNotify runs only when the forward succeeds; no other key changes |
| KvWorker.IssueChallenge | worker-KV.js:484-511 | `verify-` holds the answer and `verify-attempts-` holds '0', both for 300 s; no other key changes; the question hides the results and solves to the answer; a challenge is sent exactly when the options can be generated, and its keyboard is built from those options and that answer |
| KvWorker.HandleGuestMessage | worker-KV.js:448-541 | the same first-match order, with the flags holding only for the exact value 'true' and the whitelist checked before the block; the other outcomes leave the store unchanged |
| KvWorker.NextAttempts | worker-KV.js:404 | a missing counter gives 1; a stored one gives NaN exactly when it does not start with a digit, and its value plus one when it is all digits |
| KvWorker.OnCallbackQuery | worker-KV.js:378-427 | see the callback rules after this table |
| KvWorker.PutKeepsBlocks | worker-KV.js:392 | writing a key outside the `isblocked-` family changes no blocked flag |
| KvWorker.DeleteKeepsBlocks | worker-KV.js:393-394 | deleting a key outside the `isblocked-` family changes no blocked flag |
| KvWorker.BlockAdds | worker-KV.js:408 | setting one user's flag blocks that user and no other |
| KvWorker.BlockedKeyFacts | worker-KV.js:404-416 | the keys a press writes are distinct from every blocked flag except the presser's own |
| KvWorker.WhitelistOutcome | worker-KV.js:281-352 | a missing target gives only the usage text; add sets the flag permanently and lists the id once; remove deletes the flag and filters the list; check reads the exact 'true'; nothing else changes |
| KvWorker.ListOutcome | worker-KV.js:357-373 | an empty list gives the "empty" text, otherwise the entries in stored order |
| KvWorker.BlockOutcome | worker-KV.js:596-671 | a missing mapping gives an error and no change; /block refuses the operator's own id and sets the flag with no TTL; /unblock deletes only `isblocked-<id>` |
| KvWorker.HandleAdmin | worker-KV.js:202-254 | the order of the operator branch, as in the SQL worker; an empty stored mapping counts as missing for the commands |
| KvWorker.OnMessage | worker-KV.js:194-258 | `/start` first, then the operator, then guests |
| KvWorker.OnUpdate | worker-KV.js:432-443 | a message goes to onMessage; a callback goes to onCallbackQuery, which changes only the presser's keys and can block only the presser |
| KvWorker.WhitelistIgnoresOtherState | worker-KV.js:453-468 | a whitelisted sender gets the same calls whatever else the store holds, and only the mapping key changes |
| KvWorker.ChallengeIsNotReissued | worker-KV.js:480-517 | while `verify-<id>` lives, the guest's next message only gets the reminder |
| KvWorker.PressSteps | worker-KV.js:385-416 | one press never lifts a permanent block; a wrong answer below ten adds one to the counter for five minutes and leaves the blocked flag; the wrong answer that reaches ten blocks the presser for good |
| KvWorker.PressesKeepBlocks | worker-KV.js:405-408 | a permanently blocked user stays blocked through any presses |
| KvWorker.WrongPressesCount | worker-KV.js:404-416 | below ten, wrong answers at most five minutes apart each add one to the counter, which reads the start count plus the number of presses until five minutes after the last; the presser's blocked flag is unchanged at every time |
| KvWorker.WrongPressesBlockNobody | worker-KV.js:404-416 | the same presses block nobody: every user's block status is unchanged at every time |
| KvWorker.CeilingBlocks | worker-KV.js:404-408 | the wrong answer that brings the counter to ten blocks the presser for good |
| KvWorker.FreshChallengeCeiling | worker-KV.js:378-427 | from a fresh challenge, wrong answers each within five minutes of the last block the guest exactly when there are ten or more |
| KvWorker.PassedUnlocksRelay | worker-KV.js:391-394 | after a correct answer, an unblocked guest's messages for the next three days are forwarded or flagged |
| KvWorker.BlockIsSticky | worker-KV.js:627-646 | a blocked user is unblocked only by the operator's /unblock replying to a message mapped to them |
| KvWorker.WhitelistKeepsBlocks | worker-KV.js:290-325 | the whitelist commands never touch a blocked flag |
| KvWorker.BlockByReply | worker-KV.js:596-622 | /block replying to a guest's forwarded message makes that guest's next message (unless whitelisted) get "You are blocked" |
| KvWorker.ReplyReachesSender | worker-KV.js:247-254 | the operator's plain reply to a forwarded message is copied to the guest who sent it, at any later time |
| KvWorker.AddWhiteByArgument | worker-KV.js:281-305 | `/addwhite <uid>` sets the flag and lists the uid, keeping the list free of duplicates |
| KvWorker.CommandArgIsIdLike | worker-KV.js:206 | the uid a whitelist command captures is id-shaped |

**Callback rules (both `OnCallbackQuery` rows).**
- A payload without the `verify_` prefix changes nothing and makes no
  call.
- **Correct answer.**
  - The SQL worker grants verification until `now + 259200*1000` and
    removes the challenge row.
  - The key-value worker sets `verified-` for 259200 s and deletes both
    challenge keys.
- **Wrong answer.** The count is the stored count plus one. The SQL worker
  reads the stored count as 0 when there is no live row. The key-value
  worker reads it with `parseInt(stored || '0')`, and a count that is
  `NaN` never reaches the ceiling.
  - At ten or more, the SQL worker blocks the user and removes the row;
    the user's grant is kept.
  - At ten or more, the key-value worker deletes `verify-`, sets
    `isblocked-` with no TTL and leaves the counter and `verified-` in
    place.
  - Below ten, the SQL worker changes only `attempts`.
  - Below ten, the key-value worker rewrites the counter for 300 s and
    changes no other key.
- **Who is blocked.** Only the presser can become blocked, and only at the
  ceiling.
- **Other users.** Nobody else's challenge, grant or key changes.

## Left out

- The Telegram Bot API and the network. Calls are emitted as `Call` values.
  The outcomes of `forwardMessage` and of fetching the fraud list are
  inputs.
- `Intl.DateTimeFormat` and `Math.random`. The clock reading, the
  positions, the add value, the decoy draws and the shuffle order are
  inputs. The shuffle is modelled as a permutation of the six options, not
  as `sort` with a random comparator.
- Puzzle.CollectOptions: the loop is fed a finite sequence of draws. If
  those run out before six options exist, `GenerateOptions` is `None` and
  the challenge message is not sent; the source would keep drawing. The
  challenge is still stored, because the source stores it before drawing.
- `Date.now()` is one `now` per update. The workers read the clock several
  times while handling one update.
- Webhook registration, the secret-token check, `initConfig` and
  `initDatabase` (the SQL schema) are not modelled.
- The notification path of `handleNotify`, together with
  `getLastMessageTime`/`setLastMessageTime` and `lastmsg-`. It runs only
  when `enable_notification` is true, and that constant is false.
- The `try`/`catch` wrappers. A failing store or API call is not modelled,
  and every store operation is assumed to succeed.
- Concurrency between updates and `ctx.waitUntil`. Updates are applied one
  at a time.
- The fraud list is fetched twice on the verified path (the check, then
  `handleNotify`). It is modelled as one list per update.
- `isFraud` on a fetch failure returns false. This is modelled as a list of
  `None`.
- D1Worker.ListOutcome: the `ORDER BY created_at DESC` order of the listing
  is not modelled. The listing is the set of whitelisted ids.
- D1Store.Whitelist: for the same reason, `getWhitelist` returns the set of
  whitelisted ids, not the ordered rows.
- KvWorker.WhitelistOutcome: the add, remove and check contracts hold only
  for targets made of digits and '-', which is the shape of a Telegram id.
  The source accepts any text. With other text, keys can collide: the
  target `data` has the flag key `whitelist-data`, which is the list key,
  so `/addwhite data` would write 'true' over the list.
- KvStore.AddEntry: the append-once contract holds only for non-empty ids
  without a comma. An id with a comma splits into several entries when the
  list is read back.
- KvStore.Put: the key-value store's eventual consistency and its 60-second
  minimum TTL are not modelled. A write is visible at once and expires
  exactly `ttl*1000` ms after the write.
- `parseInt` is modelled on leading decimal digits only. Leading
  whitespace, signs and other radixes are left out, because the worker only
  ever stores decimal counters.
- Message texts are `Notice` values that name their meaning. The Chinese
  texts themselves are not modelled.
- Operator replies are assumed to carry `reply_to_message.chat`. The
  source's `reply_to_message?.chat` test is modelled as "the message is a
  reply".
- The operator's own id is compared as a string (`ADMIN_UID`), exactly as
  in the source. Configuration loading is not modelled.

## Findings

| source | as written | input that shows it | evidently intended | confidence | as-written member | corrected member |
|---|---|---|---|---|---|---|
| worker-D1.js:615-631 (and worker-KV.js:489-505) | the button payload is `verify_${options[i]}_${answer}`: the option is rendered from `parseInt(answer)`, but the correct part is the raw two-digit answer, and the callback compares the two strings | clock 14:05:09, positions 2 and 1 (counted from one, as the question shows them), add value 6 give answer "07"; the correct button carries `verify_7_07`, and "7" ≠ "07", so no button passes: every press fails, and ten presses within the 300 s window block the guest (after the window a new puzzle is issued, with the same flaw whenever its answer starts with '0') | the button showing the correct number passes, whatever the answer's digits | not executed | Puzzle.LeadingZeroAnswerUnsolvable | Puzzle.FixedKeyboardAcceptsOnlyCorrect |

`Puzzle.Keyboard` and `Puzzle.LeadingZeroExample` show the code as
written. `Puzzle.FixedKeyboard` and `Puzzle.FixedButtonData` are the
correction. The corrected payload renders the correct part the same way
as the option. With it, exactly the button showing the answer passes
(`Puzzle.FixedButtonAcceptedIff`).

The handlers in `D1Worker` and `KvWorker` keep the as-written keyboard,
so that they describe the workers as deployed. Their contracts that
mention passing (`OnCallbackQuery`, `PassedUnlocksRelay`) are stated in
terms of the payload pressed. They therefore hold for either keyboard.

=== FILE: bot.dfy ===
/** What the two workers share: the configuration, the shape of incoming
    updates, the outbound Telegram calls they emit, the classification of a
    guest, the admin commands and how a command's target user is found. */
module Bot {
  import opened Wrappers
  import opened Strings
  import opened Puzzle

  const MaxVerifyAttempts := 10
  /** Lifetime of a challenge, in seconds. */
  const VerificationTtl := 300
  /** Lifetime of a verified grant, in seconds. */
  const VerifiedTtl := 259200
  const MsPerSecond := 1000

  /** The operator's chat id as configured (`ADMIN_UID`, a string). */
  datatype Config = Config(adminUid: string)

  /** A Telegram message: the chat it comes from, its id, its text (absent
      for media) and the id of the message it replies to, if any. */
  datatype Message = Message(chatId: int, messageId: nat, text: Option<string>, replyTo: Option<nat>)

  /** A button press: the query id, the presser, the button's payload and
      the id of the message holding the keyboard. */
  datatype CallbackQuery = CallbackQuery(id: string, fromId: int, data: string, promptId: nat)

  datatype Update = MessageUpdate(message: Message) | CallbackUpdate(query: CallbackQuery)

  /** What the outside world answers while an update is handled: the
      random puzzle draws, the text of the fraud list (`None` when fetching
      it fails) and the id of the forwarded copy when `forwardMessage`
      reports `ok`. */
  datatype Oracle = Oracle(draw: Draw, fraudList: Option<string>, forwarded: Option<nat>)

  predicate ValidOracle(o: Oracle) {
    ValidDraw(o.draw)
  }

  /** How a guest's message was handled, first match wins. */
  datatype Disposition = Whitelisted | Blocked | NeedsChallenge | AwaitingAnswer | FraudSuspected | Verified

  /** The outcome of a button press. `Retry(None)` is a counter that parsed
      to `NaN`. */
  datatype Verdict = Ignored | Passed | Retry(attempts: Option<int>) | AutoBlocked

  datatype WhitelistAction = AddAction | RemoveAction | CheckAction

  /** The texts the relay sends, by meaning. */
  datatype Notice =
    | Greeting
    | YouAreBlocked
    | UseTheButtons
    | FraudSuspect(uid: string)
    | FraudAfterForward(uid: string)
    | VerificationPassed
    | TooManyFailures
    | WrongAnswer(attempts: string)
    | Usage(action: WhitelistAction)
    | AdminHelp
    | NoTargetUid
    | CannotBlockSelf
    | BlockDone(uid: string)
    | UnblockDone(uid: string)
    | BlockStatus(uid: string, blocked: bool)
    | WhitelistAdded(uid: string)
    | WhitelistRemoved(uid: string)
    | WhitelistStatus(uid: string, listed: bool)
    | WhitelistEmpty
    | WhitelistListing(uids: seq<string>)
    | WhitelistRows(rows: set<string>)

  /** The Telegram Bot API calls the relay makes. `Copy` with no target is
      a `copyMessage` whose `chat_id` is null. */
  datatype Call =
    | Send(chat: string, notice: Notice)
    | SendChallenge(chat: string, question: Question, keyboard: seq<seq<Button>>)
    | Forward(to: string, from: string, messageId: nat)
    | Copy(target: Option<string>, from: string, messageId: nat)
    | Edit(chat: string, messageId: nat, notice: Notice)
    | AnswerAlert(queryId: string, notice: Notice)

  /** What handling a guest message produced. */
  datatype GuestOutcome<S> = GuestOutcome(disposition: Disposition, store: S, calls: seq<Call>)

  /** What handling a button press produced. */
  datatype CallbackOutcome<S> = CallbackOutcome(verdict: Verdict, store: S, calls: seq<Call>)

  /** What handling any update produced: the new store and the calls. */
  datatype Outcome<S> = Outcome(store: S, calls: seq<Call>)

  /** `message.chat.id.toString()` */
  function Sender(msg: Message): string {
    IntToString(msg.chatId)
  }

  /** Some button of the keyboard shows `x`. */
  predicate Offers(rows: seq<seq<Button>>, x: int) {
    exists i, j :: 0 <= i < |rows| && 0 <= j < |rows[i]| && rows[i][j].text == x
  }

  /** The challenge message for problem `p`, sent once generateOptions has
      its six options within the given draws (and not at all otherwise);
      one of its buttons shows the numeric answer. */
  function ChallengeCalls(chat: string, p: Problem, d: Draw): (calls: seq<Call>)
    requires |p.answer| == 2 && IsDigits(p.answer) && ValidDraw(d)
    ensures |calls| <= 1
    ensures calls != [] <==> GenerateOptions(AnswerValue(p.answer), d.decoys, d.order).Some?
    ensures calls != [] ==> calls[0].SendChallenge? && calls[0].chat == chat && calls[0].question == p.question
    ensures calls != [] ==> Offers(calls[0].keyboard, AnswerValue(p.answer))
    ensures calls != [] ==>
              calls[0].keyboard == Keyboard(GenerateOptions(AnswerValue(p.answer), d.decoys, d.order).value, p.answer)
  {
    var answer := AnswerValue(p.answer);
    var options := GenerateOptions(answer, d.decoys, d.order);
    if options.None? then []
    else
      KeyboardOffersOptions(options.value, p.answer, answer);
      [SendChallenge(chat, p.question, Keyboard(options.value, p.answer))]
  }

  lemma KeyboardOffersOptions(opts: seq<int>, answer: string, x: int)
    requires |opts| == OptionCount && x in opts
    ensures Offers(Keyboard(opts, answer), x)
  {
    var rows: seq<seq<Button>> := Keyboard(opts, answer);
    var k: int :| 0 <= k < |opts| && opts[k] == x;
    assert rows[k / 3][k % 3].text == x;
  }

  /** handleNotify with notifications switched off: only its fraud check
      is left, and it can only alert the operator. */
  function Notify(cfg: Config, chat: string, list: Option<string>): (calls: seq<Call>)
    ensures |calls| <= 1
    ensures calls != [] <==> IsFraud(list, chat)
    ensures forall c :: c in calls ==> c == Send(cfg.adminUid, FraudAfterForward(chat))
  {
    if IsFraud(list, chat) then [Send(cfg.adminUid, FraudAfterForward(chat))] else []
  }

  /** `'msg-map-' + messageId` */
  function MapKey(messageId: nat): string {
    "msg-map-" + NatToString(messageId)
  }

  lemma MapKeyInjective(m: nat, n: nat)
    ensures MapKey(m) == MapKey(n) <==> m == n
  {
    if MapKey(m) == MapKey(n) {
      assert MapKey(m)[8..] == NatToString(m);
      assert MapKey(n)[8..] == NatToString(n);
      NatToStringInjective(m, n);
    }
  }

  /** A looked-up value as a JavaScript truthiness test sees it: the empty
      string counts as missing. */
  function Present(o: Option<string>): (r: Option<string>)
    ensures r.Some? <==> o.Some? && o.value != ""
    ensures r.Some? ==> r == o
  {
    if o.Some? && o.value != "" then o else None
  }

  /** `${attempts}` for a counter that may be NaN: `parseInt` reads a
      rendered count back, and reads the rendered NaN as NaN again. */
  function RenderCount(n: Option<int>): (r: string)
    ensures n.Some? && n.value >= 0 ==> ParseInt(r) == Some(n.value)
    ensures n.None? ==> ParseInt(r).None?
  {
    match n
    case Some(k) =>
      assert k >= 0 ==> ParseInt(IntToString(k)) == Some(k) by {
        if k >= 0 {
          ParseIntOfNatToString(k);
        }
      }
      IntToString(k)
    case None => "NaN"
  }

  // ---------------------------------------------------------------------
  // Admin commands
  // ---------------------------------------------------------------------

  datatype Command =
    | WhitelistCommand(action: WhitelistAction, arg: Option<string>)
    | ListWhitelist
    | BlockCommand
    | UnblockCommand
    | CheckBlockCommand
    | NotACommand

  /** The character classes used by the command regular expressions. */
  datatype CharClass = Word | Space | Digit

  predicate InClass(c: char, cls: CharClass) {
    match cls
    case Word => IsWordChar(c)
    case Space => IsWhitespace(c)
    case Digit => IsDigit(c)
  }

  /** The length of the longest run of `cls` characters starting at `i`:
      what a greedy `\w+`, `\s+` or `\d+` consumes there. */
  function Run(s: string, i: nat, cls: CharClass): (k: nat)
    requires i <= |s|
    ensures i + k <= |s|
    ensures forall j :: i <= j < i + k ==> InClass(s[j], cls)
    ensures i + k < |s| ==> !InClass(s[i + k], cls)
    decreases |s| - i
  {
    if i == |s| || !InClass(s[i], cls) then 0 else 1 + Run(s, i + 1, cls)
  }

  lemma {:induction false} RunExact(s: string, i: nat, k: nat, cls: CharClass)
    requires i + k <= |s|
    requires forall j :: i <= j < i + k ==> InClass(s[j], cls)
    requires i + k < |s| ==> !InClass(s[i + k], cls)
    ensures Run(s, i, cls) == k
    decreases k
  {
    if k > 0 {
      RunExact(s, i + 1, k - 1, cls);
    }
  }

  /** `^\/name(?:\s+(\d+))?$` on `t`: `None` when it does not match,
      otherwise the captured digits if there are any. */
  function CommandArg(name: string, t: string): (r: Option<Option<string>>)
    ensures r.Some? ==> StartsWith(t, "/" + name)
    ensures r == Some(None) <==> t == "/" + name
    ensures r.Some? && r.value.Some? ==>
              var a := r.value.value;
              && |a| > 0 && IsDigits(a)
              && |name| + 1 < |t| - |a| && t[|t| - |a|..] == a
              && AllWhitespace(t[|name| + 1..|t| - |a|])
  {
    var p := "/" + name;
    if !StartsWith(t, p) then None
    else if |t| == |p| then
      assert t == t[..|p|];
      Some(None)
    else
      var w := Run(t, |p|, Space);
      if w > 0 && |p| + w < |t| && IsDigits(t[|p| + w..]) then
        assert forall k :: |p| <= k < |p| + w ==> t[|p|..|p| + w][k - |p|] == t[k];
        Some(Some(t[|p| + w..]))
      else None
  }

  /** The other direction: the command followed by blanks and digits is
      matched, and the digits are its argument. */
  lemma CommandArgOf(name: string, blanks: string, digits: string)
    requires |blanks| > 0 && AllWhitespace(blanks)
    requires |digits| > 0 && IsDigits(digits)
    ensures CommandArg(name, "/" + name + blanks + digits) == Some(Some(digits))
  {
    var p := "/" + name;
    var t := p + blanks + digits;
    assert t[..|p|] == p;
    forall j | |p| <= j < |p| + |blanks|
      ensures IsWhitespace(t[j])
    {
      assert t[j] == blanks[j - |p|];
    }
    assert !IsWhitespace(t[|p| + |blanks|]) by {
      assert t[|p| + |blanks|] == digits[0];
    }
    RunExact(t, |p|, |blanks|, Space);
    assert t[|p| + |blanks|..] == digits;
  }

  /** The name of each whitelist command. */
  function WhitelistCommandName(action: WhitelistAction): string {
    match action
    case AddAction => "addwhite"
    case RemoveAction => "removewhite"
    case CheckAction => "checkwhite"
  }

  /** The command tests of the admin branch of onMessage, over the text of
      the message (media messages have none). The block and listing
      commands match only their exact text; a whitelist command carries
      what its pattern captured. */
  function ParseCommand(text: Option<string>): (r: Command)
    ensures text.None? ==> r == NotACommand
    ensures r.WhitelistCommand? ==> text.Some? && CommandArg(WhitelistCommandName(r.action), text.value) == Some(r.arg)
    ensures r == ListWhitelist <==> text == Some("/listwhite")
    ensures r == BlockCommand <==> text == Some("/block")
    ensures r == UnblockCommand <==> text == Some("/unblock")
    ensures r == CheckBlockCommand <==> text == Some("/checkblock")
  {
    ExactCommandsAreNotWhitelist();
    match text
    case None => NotACommand
    case Some(t) =>
      if CommandArg("addwhite", t).Some? then WhitelistCommand(AddAction, CommandArg("addwhite", t).value)
      else if CommandArg("removewhite", t).Some? then WhitelistCommand(RemoveAction, CommandArg("removewhite", t).value)
      else if CommandArg("checkwhite", t).Some? then WhitelistCommand(CheckAction, CommandArg("checkwhite", t).value)
      else if t == "/listwhite" then ListWhitelist
      else if t == "/block" then BlockCommand
      else if t == "/unblock" then UnblockCommand
      else if t == "/checkblock" then CheckBlockCommand
      else NotACommand
  }

  /** None of the exact commands matches a whitelist pattern. */
  lemma ExactCommandsAreNotWhitelist()
    ensures forall t, a :: t in {"/listwhite", "/block", "/unblock", "/checkblock"} ==> CommandArg(WhitelistCommandName(a), t).None?
  {
    forall t, a | t in {"/listwhite", "/block", "/unblock", "/checkblock"}
      ensures CommandArg(WhitelistCommandName(a), t).None?
    {
      var p := "/" + WhitelistCommandName(a);
      if t == "/listwhite" && a == AddAction {
        DiffersAt(t, p, 4);
      } else if t == "/checkblock" && a != RemoveAction {
        DiffersAt(t, p, |p| - 5);
      }
    }
  }

  lemma DiffersAt(t: string, p: string, k: nat)
    requires k < |t| && k < |p| && t[k] != p[k]
    ensures !StartsWith(t, p)
  {
    if |p| <= |t| {
      assert t[..|p|][k] == t[k];
    }
  }

  /** `/\/\w+\s+(\d+)/` tried at position `i`. */
  function MatchAt(s: string, i: nat): Option<string>
    requires i < |s|
  {
    if s[i] != '/' then None
    else
      var w := Run(s, i + 1, Word);
      if w == 0 then None
      else
        var sp := Run(s, i + 1 + w, Space);
        if sp == 0 then None
        else
          var start := i + 1 + w + sp;
          var d := Run(s, start, Digit);
          if d == 0 then None else Some(s[start..start + d])
  }

  /** The capture of the leftmost match of `/\/\w+\s+(\d+)/` at or after
      position `i` (`String.prototype.match` without the g flag). */
  function FirstArgFrom(s: string, i: nat): Option<string>
    decreases |s| - i
  {
    if i >= |s| then None
    else if MatchAt(s, i).Some? then MatchAt(s, i)
    else FirstArgFrom(s, i + 1)
  }

  /** The search finds the leftmost match, and reports none only when no
      position matches. */
  lemma {:induction false} FirstArgIsLeftmost(s: string, i: nat)
    ensures Leftmost(s, i, FirstArgFrom(s, i))
    decreases |s| - i
  {
    if i < |s| && MatchAt(s, i).None? {
      FirstArgIsLeftmost(s, i + 1);
      var r := FirstArgFrom(s, i + 1);
      assert r == FirstArgFrom(s, i);
      if r.Some? {
        var p :| i + 1 <= p < |s| && MatchAt(s, p) == r && NoMatchBetween(s, i + 1, p);
        NoMatchExtend(s, i, p);
      } else {
        NoMatchExtend(s, i, |s|);
      }
    } else if i < |s| {
      assert NoMatchBetween(s, i, i);
    }
  }

  lemma NoMatchExtend(s: string, i: nat, p: nat)
    requires i < p <= |s| && MatchAt(s, i).None? && NoMatchBetween(s, i + 1, p)
    ensures NoMatchBetween(s, i, p)
  {
  }

  /** `r` is what the leftmost match at or after `i` captures: the match
      at some position with no match before it, or no match anywhere. */
  predicate Leftmost(s: string, i: nat, r: Option<string>) {
    && (r.Some? ==> exists p :: i <= p < |s| && MatchAt(s, p) == r && NoMatchBetween(s, i, p))
    && (r.None? ==> NoMatchBetween(s, i, |s|))
  }

  /** No position from `i` up to (not including) `p` matches. */
  predicate NoMatchBetween(s: string, i: nat, p: nat)
    requires p <= |s|
  {
    forall j :: i <= j < p ==> MatchAt(s, j).None?
  }

  /** getTargetUserId: a numeric argument in the text wins; otherwise the
      sender mapped to the replied-to message (`mapped`, `None` when the
      message replies to nothing or the mapping is missing). */
  function TargetUserId(text: string, mapped: Option<string>): (r: Option<string>)
    ensures FirstArgFrom(text, 0).Some? ==> r == FirstArgFrom(text, 0) && IsDigits(r.value) && r.value != ""
    ensures FirstArgFrom(text, 0).None? ==> r == mapped
  {
    match FirstArgFrom(text, 0)
    case Some(arg) =>
      FirstArgCaptures(text, 0);
      Some(arg)
    case None => mapped
  }

  lemma {:induction false} FirstArgCaptures(s: string, i: nat)
    requires FirstArgFrom(s, i).Some?
    ensures IsDigits(FirstArgFrom(s, i).value) && FirstArgFrom(s, i).value != ""
    decreases |s| - i
  {
    if MatchAt(s, i).None? {
      FirstArgCaptures(s, i + 1);
    } else {
      MatchCaptures(s, i);
    }
  }

  /** A match captures a non-empty run of digits. */
  lemma MatchCaptures(s: string, i: nat)
    requires i < |s| && MatchAt(s, i).Some?
    ensures IsDigits(MatchAt(s, i).value) && MatchAt(s, i).value != ""
  {
    var w := Run(s, i + 1, Word);
    var sp := Run(s, i + 1 + w, Space);
    var start := i + 1 + w + sp;
    var d := Run(s, start, Digit);
    var cap := s[start..start + d];
    assert forall k :: 0 <= k < |cap| ==> cap[k] == s[start + k];
  }

  lemma {:induction false} NoSlashNoMatch(s: string, i: nat)
    requires forall j :: i <= j < |s| ==> s[j] != '/'
    ensures FirstArgFrom(s, i).None?
    decreases |s| - i
  {
    if i < |s| {
      NoSlashNoMatch(s, i + 1);
    }
  }

  predicate IsCommandName(name: string) {
    |name| > 0 && forall k :: 0 <= k < |name| ==> IsWordChar(name[k])
  }

  lemma WordCharsAreNotSpaces(c: char)
    requires IsWordChar(c)
    ensures !IsWhitespace(c) && c != '/'
  {
  }

  /** On the texts the whitelist command patterns accept, the unanchored
      pattern of getTargetUserId captures the same digits (or nothing for
      the bare command). */
  lemma CommandArgAgrees(name: string, t: string)
    requires IsCommandName(name)
    requires CommandArg(name, t).Some?
    ensures FirstArgFrom(t, 0) == CommandArg(name, t).value
  {
    var n := |name| + 1;
    CommandPrefix(name, t);
    if |t| == n {
      BareCommandCapturesNothing(t, n);
    } else {
      var w := Run(t, n, Space);
      CommandDigits(name, t, n, w);
      CommandWithDigitsCaptures(t, n, w);
    }
  }

  lemma CommandDigits(name: string, t: string, n: nat, w: nat)
    requires CommandArg(name, t).Some? && n == |name| + 1 < |t| && w == Run(t, n, Space)
    ensures 0 < w && n + w < |t| && IsDigits(t[n + w..]) && CommandArg(name, t).value == Some(t[n + w..])
  {
  }

  /** A text the command pattern accepts opens with `/` and the command's
      word characters, and after them come either nothing or blanks and
      the captured digits. */
  lemma CommandPrefix(name: string, t: string)
    requires IsCommandName(name)
    requires CommandArg(name, t).Some?
    ensures |name| + 1 <= |t| && t[0] == '/'
    ensures forall j :: 1 <= j < |name| + 1 ==> IsWordChar(t[j]) && t[j] != '/'
    ensures |t| == |name| + 1 ==> CommandArg(name, t).value == None
  {
    var p := "/" + name;
    assert t[..|p|] == p;
    forall j | 1 <= j < |p|
      ensures IsWordChar(t[j]) && t[j] != '/'
    {
      assert t[j] == name[j - 1];
      WordCharsAreNotSpaces(name[j - 1]);
    }
  }


  lemma BareCommandCapturesNothing(t: string, n: nat)
    requires |t| == n >= 2 && t[0] == '/'
    requires forall j :: 1 <= j < n ==> IsWordChar(t[j]) && t[j] != '/'
    ensures FirstArgFrom(t, 0).None?
  {
    RunExact(t, 1, n - 1, Word);
    assert MatchAt(t, 0).None?;
    NoSlashNoMatch(t, 1);
  }

  lemma CommandWithDigitsCaptures(t: string, n: nat, w: nat)
    requires 2 <= n && 0 < w && n + w < |t| && t[0] == '/'
    requires forall j :: 1 <= j < n ==> IsWordChar(t[j])
    requires Run(t, n, Space) == w
    requires IsDigits(t[n + w..])
    ensures FirstArgFrom(t, 0) == Some(t[n + w..])
  {
    var digits := t[n + w..];
    assert IsWhitespace(t[n]);
    WhitespaceIsNotWord(t[n]);
    RunExact(t, 1, n - 1, Word);
    assert IsDigit(digits[0]);
    assert t[n + w] == digits[0];
    forall j | n + w <= j < |t|
      ensures IsDigit(t[j])
    {
      assert t[j] == digits[j - (n + w)];
    }
    RunExact(t, n + w, |t| - (n + w), Digit);
    assert t[n + w..|t|] == digits;
  }

  lemma WhitespaceIsNotWord(c: char)
    requires IsWhitespace(c)
    ensures !IsWordChar(c)
  {
  }

  // ---------------------------------------------------------------------
  // The fraud list
  // ---------------------------------------------------------------------

  /** `s.trim()`: drops the `\s` characters at both ends. The result is
      the part of `s` between blank ends, and a blank string trims to the
      empty one. */
  function Trim(s: string): (r: string)
    ensures |r| <= |s|
    ensures r != [] ==> !IsWhitespace(r[0]) && !IsWhitespace(r[|r| - 1])
    ensures AllWhitespace(s) ==> r == ""
    ensures (forall k :: 0 <= k < |s| ==> !IsWhitespace(s[k])) ==> r == s
    decreases |s|
  {
    if |s| > 0 && IsWhitespace(s[0]) then
      var r := Trim(s[1..]);
      var t := s[1..];
      assert AllWhitespace(s) ==> AllWhitespace(t);
      r
    else if |s| > 0 && IsWhitespace(s[|s| - 1]) then
      var r := Trim(s[..|s| - 1]);
      var t := s[..|s| - 1];
      r
    else s
  }

  /** What trim keeps is the part of the string between its blank ends. */
  lemma {:induction false} TrimBounds(s: string)
    ensures TrimmedFrom(s, Trim(s))
    decreases |s|
  {
    if |s| > 0 && IsWhitespace(s[0]) {
      TrimBounds(s[1..]);
      TrimmedAfterBlank(s, Trim(s));
    } else if |s| > 0 && IsWhitespace(s[|s| - 1]) {
      TrimBounds(s[..|s| - 1]);
      TrimmedBeforeBlank(s, Trim(s));
    } else {
      assert s == s[0..|s|] && s[..0] == [] && s[|s|..] == [];
    }
  }

  lemma BlanksAppend(a: string, b: string)
    requires AllWhitespace(a) && AllWhitespace(b)
    ensures AllWhitespace(a + b)
  {
    forall k | 0 <= k < |a + b|
      ensures IsWhitespace((a + b)[k])
    {
      if k >= |a| {
        assert (a + b)[k] == b[k - |a|];
      }
    }
  }

  /** `r` is `s` with some blank characters dropped from each end. */
  predicate TrimmedFrom(s: string, r: string) {
    exists i, j :: 0 <= i <= j <= |s| && r == s[i..j] && AllWhitespace(s[..i]) && AllWhitespace(s[j..])
  }

  lemma TrimmedAfterBlank(s: string, r: string)
    requires |s| > 0 && IsWhitespace(s[0]) && TrimmedFrom(s[1..], r)
    ensures TrimmedFrom(s, r)
  {
    var t := s[1..];
    var i, j :| 0 <= i <= j <= |t| && r == t[i..j] && AllWhitespace(t[..i]) && AllWhitespace(t[j..]);
    TrimmedAfterBlankAt(s, r, i, j);
  }

  /** `TrimmedAfterBlank` with the bounds in the tail given. */
  lemma TrimmedAfterBlankAt(s: string, r: string, i: nat, j: nat)
    requires |s| > 0 && IsWhitespace(s[0]) && i <= j <= |s| - 1
    requires r == s[1..][i..j] && AllWhitespace(s[1..][..i]) && AllWhitespace(s[1..][j..])
    ensures TrimmedFrom(s, r)
  {
    var t := s[1..];
    var a, b := i + 1, j + 1;
    assert r == s[a..b] by {
      assert t[i..j] == s[a..b];
    }
    assert AllWhitespace(s[..a]) by {
      assert s[..a] == [s[0]] + t[..i];
      BlanksAppend([s[0]], t[..i]);
    }
    assert AllWhitespace(s[b..]) by {
      assert s[b..] == t[j..];
    }
    assert 0 <= a <= b <= |s| && r == s[a..b] && AllWhitespace(s[..a]) && AllWhitespace(s[b..]);
  }

  lemma TrimmedBeforeBlank(s: string, r: string)
    requires |s| > 0 && IsWhitespace(s[|s| - 1]) && TrimmedFrom(s[..|s| - 1], r)
    ensures TrimmedFrom(s, r)
  {
    var t := s[..|s| - 1];
    var i, j :| 0 <= i <= j <= |t| && r == t[i..j] && AllWhitespace(t[..i]) && AllWhitespace(t[j..]);
    assert r == s[i..j];
    assert s[..i] == t[..i];
    assert s[j..] == t[j..] + [s[|s| - 1]];
    BlanksAppend(t[j..], [s[|s| - 1]]);
  }

  predicate AllWhitespace(s: string) {
    forall k :: 0 <= k < |s| ==> IsWhitespace(s[k])
  }

  /** Padding around an entry, such as the `\r` of a CRLF line ending, does
      not change what the entry reads as. */
  lemma TrimDropsPadding(pre: string, x: string, post: string)
    requires AllWhitespace(pre) && AllWhitespace(post)
    requires x != [] && !IsWhitespace(x[0]) && !IsWhitespace(x[|x| - 1])
    ensures Trim(pre + x + post) == x
  {
    assert pre + x + post == pre + (x + post);
    TrimDropsLeading(pre, x + post);
    TrimDropsTrailing(x, post);
  }

  /** Leading blanks before a non-blank character are dropped. */
  lemma {:induction false} TrimDropsLeading(pre: string, y: string)
    requires AllWhitespace(pre)
    requires y != [] && !IsWhitespace(y[0])
    ensures Trim(pre + y) == Trim(y)
    decreases |pre|
  {
    if |pre| > 0 {
      var s := pre + y;
      assert s[0] == pre[0];
      assert s[1..] == pre[1..] + y;
      assert AllWhitespace(pre[1..]) by {
        forall k | 0 <= k < |pre[1..]|
          ensures IsWhitespace(pre[1..][k])
        {
          assert pre[1..][k] == pre[k + 1];
        }
      }
      TrimDropsLeading(pre[1..], y);
    } else {
      assert pre + y == y;
    }
  }

  /** Trailing blanks after a clean string are dropped, and nothing else. */
  lemma {:induction false} TrimDropsTrailing(x: string, post: string)
    requires AllWhitespace(post)
    requires x != [] && !IsWhitespace(x[0]) && !IsWhitespace(x[|x| - 1])
    ensures Trim(x + post) == x
    decreases |post|
  {
    if |post| > 0 {
      var shorter := post[..|post| - 1];
      assert AllWhitespace(shorter) by {
        forall k | 0 <= k < |shorter|
          ensures IsWhitespace(shorter[k])
        {
          assert shorter[k] == post[k];
        }
      }
      TrimDropsTrailing(x, shorter);
      TrimDropsLast(x + post, x + shorter);
    } else {
      assert x + post == x;
    }
  }

  /** A string that starts with a non-blank and ends with a blank trims as
      the string without its last character. */
  lemma TrimDropsLast(s: string, shorter: string)
    requires |s| > 0 && !IsWhitespace(s[0]) && IsWhitespace(s[|s| - 1])
    requires shorter == s[..|s| - 1]
    ensures Trim(s) == Trim(shorter)
  {
  }


  /** isFraud: some non-blank line of the list, trimmed, is the id. A list
      that could not be fetched lists nobody. */
  predicate IsFraud(list: Option<string>, id: string): (r: bool)
    ensures r ==> list.Some? && id != "" && !IsWhitespace(id[0]) && !IsWhitespace(id[|id| - 1])
  {
    match list
    case None => false
    case Some(text) =>
      var lines := Split(text, '\n');
      exists k :: 0 <= k < |lines| && Trim(lines[k]) != "" && Trim(lines[k]) == id
  }

  lemma IdLikeIsClean(s: string)
    requires IdLike(s)
    ensures '\n' !in s
    ensures forall k :: 0 <= k < |s| ==> !IsWhitespace(s[k])
  {
    forall k | 0 <= k < |s|
      ensures s[k] != '\n' && !IsWhitespace(s[k])
    {
      assert IsIdChar(s[k]);
    }
  }

  /** A list written one id per line lists exactly those ids. */
  lemma FraudListMembership(ids: seq<string>, id: string)
    requires |ids| >= 1 && forall k :: 0 <= k < |ids| ==> IdLike(ids[k])
    requires IdLike(id)
    ensures IsFraud(Some(Join(ids, '\n')), id) <==> id in ids
  {
    forall k | 0 <= k < |ids|
      ensures '\n' !in ids[k]
    {
      IdLikeIsClean(ids[k]);
    }
    SplitOfJoin(ids, '\n');
    CleanLinesMembership(ids, id);
  }

  /** Over lines that trim to themselves, the non-blank trimmed lines are
      exactly the lines. */
  lemma CleanLinesMembership(lines: seq<string>, id: string)
    requires forall k :: 0 <= k < |lines| ==> IdLike(lines[k])
    requires IdLike(id)
    ensures (exists k :: 0 <= k < |lines| && Trim(lines[k]) != "" && Trim(lines[k]) == id) <==> id in lines
  {
    forall k | 0 <= k < |lines|
      ensures Trim(lines[k]) == lines[k]
    {
      IdLikeIsClean(lines[k]);
    }
    if id in lines {
      var k :| 0 <= k < |lines| && lines[k] == id;
      assert Trim(lines[k]) == id;
    }
  }

  /** An entry surrounded by blanks and followed by a CRLF line ending is
      still recognised. */
  lemma FraudEntryWithPadding(pre: string, id: string, post: string, rest: string)
    requires AllWhitespace(pre) && AllWhitespace(post) && '\n' !in pre + post
    requires IdLike(id)
    ensures IsFraud(Some(pre + id + post + "\r\n" + rest), id)
  {
    IdLikeIsClean(id);
    var line := pre + id + post + "\r";
    assert '\n' !in line;
    assert AllWhitespace(post + "\r");
    assert line == pre + id + (post + "\r");
    TrimDropsPadding(pre, id, post + "\r");
    assert pre + id + post + "\r\n" + rest == line + ['\n'] + rest;
    SplitAfterPiece(line, '\n', rest);
    assert Split(line + ['\n'] + rest, '\n')[0] == line;
  }

  /** The empty id is never on the list: blank lines are skipped. */
  lemma EmptyIdNeverListed(list: Option<string>)
    ensures !IsFraud(list, "")
  {
  }
}

=== FILE: d1_store.dfy ===
/** The SQL-backed store of the D1 worker (its `Database` class), as an
    immutable record of tables keyed by user id. Timestamps are
    milliseconds; `now` is the `Date.now()` of the call. Expired rows are
    not deleted: the queries filter them out. */
module D1Store {
  import opened Wrappers
  import opened Strings

  /** `getVerificationState` keeps rows younger than this many ms. */
  const ChallengeWindowMs := 300000
  /** `setVerified`'s default lifetime, in seconds. */
  const DefaultVerifiedTtl := 259200

  /** A row of the `verification` table. */
  datatype Challenge = Challenge(answer: string, attempts: int, createdAt: int)

  /** The tables `whitelist` (user → created_at), `verification`,
      `verified_users` (user → expiry_time), `blocked_users`
      (user → blocked_at) and `message_mappings` (key → value). */
  datatype Database = Database(
    whitelist: map<string, int>,
    verification: map<string, Challenge>,
    verified: map<string, int>,
    blocked: map<string, int>,
    mappings: map<string, string>)

  const Empty := Database(map[], map[], map[], map[], map[])

  // ---------------------------------------------------------------------
  // whitelist
  // ---------------------------------------------------------------------

  predicate IsWhitelisted(db: Database, id: string) {
    id in db.whitelist
  }

  /** INSERT OR IGNORE: a second insert keeps the first `created_at`. */
  function AddWhitelist(db: Database, id: string, now: int): (r: Database)
    ensures forall u :: IsWhitelisted(r, u) <==> IsWhitelisted(db, u) || u == id
    ensures IsWhitelisted(db, id) ==> r == db
    ensures r.(whitelist := db.whitelist) == db
  {
    if id in db.whitelist then db else db.(whitelist := db.whitelist[id := now])
  }

  function RemoveWhitelist(db: Database, id: string): (r: Database)
    ensures forall u :: IsWhitelisted(r, u) <==> IsWhitelisted(db, u) && u != id
    ensures r.(whitelist := db.whitelist) == db
  {
    db.(whitelist := db.whitelist - {id})
  }

  /** The user ids `getWhitelist` returns (the order is not modelled). */
  function Whitelist(db: Database): (ids: set<string>)
    ensures forall u :: u in ids <==> IsWhitelisted(db, u)
  {
    db.whitelist.Keys
  }

  lemma AddWhitelistIdempotent(db: Database, id: string, now: int, later: int)
    ensures AddWhitelist(AddWhitelist(db, id, now), id, later) == AddWhitelist(db, id, now)
  {
  }

  // ---------------------------------------------------------------------
  // verification
  // ---------------------------------------------------------------------

  /** The challenge row, only while `created_at > now - 300000`: a row is
      seen as stored for exactly the 300000 ms after its `created_at`. */
  function GetVerificationState(db: Database, id: string, now: int): (r: Option<Challenge>)
    ensures r.Some? <==> id in db.verification && now < db.verification[id].createdAt + ChallengeWindowMs
    ensures r.Some? ==> r.value == db.verification[id]
  {
    if id in db.verification && db.verification[id].createdAt > now - ChallengeWindowMs
    then Some(db.verification[id])
    else None
  }

  /** INSERT OR REPLACE with `created_at = now`: the new challenge is
      visible for exactly the next 300000 ms, whatever was there before. */
  function SetVerification(db: Database, id: string, answer: string, attempts: int, now: int): (r: Database)
    ensures forall t ::
              GetVerificationState(r, id, t) == (if t < now + ChallengeWindowMs then Some(Challenge(answer, attempts, now)) else None)
    ensures forall u, t :: u != id ==> GetVerificationState(r, u, t) == GetVerificationState(db, u, t)
    ensures r.(verification := db.verification) == db
  {
    db.(verification := db.verification[id := Challenge(answer, attempts, now)])
  }

  function WithAttempts(c: Option<Challenge>, attempts: int): Option<Challenge> {
    match c
    case Some(ch) => Some(ch.(attempts := attempts))
    case None => None
  }

  /** UPDATE of `attempts` only: the row keeps its answer and its
      `created_at`, so the update neither revives nor extends a challenge.
      A user without a row is left without one. */
  function UpdateVerificationAttempts(db: Database, id: string, attempts: int): (r: Database)
    ensures forall t ::
              GetVerificationState(r, id, t) == WithAttempts(GetVerificationState(db, id, t), attempts)
    ensures id in r.verification <==> id in db.verification
    ensures id in db.verification ==>
      r.verification[id].answer == db.verification[id].answer &&
      r.verification[id].createdAt == db.verification[id].createdAt &&
      r.verification[id].attempts == attempts
    ensures forall u, t :: u != id ==> GetVerificationState(r, u, t) == GetVerificationState(db, u, t)
    ensures r.(verification := db.verification) == db
  {
    if id in db.verification
    then db.(verification := db.verification[id := db.verification[id].(attempts := attempts)])
    else db
  }

  function DeleteVerification(db: Database, id: string): (r: Database)
    ensures forall t :: GetVerificationState(r, id, t).None?
    ensures id !in r.verification
    ensures forall u, t :: u != id ==> GetVerificationState(r, u, t) == GetVerificationState(db, u, t)
    ensures r.(verification := db.verification) == db
  {
    db.(verification := db.verification - {id})
  }

  /** `cleanupExpiredVerifications`: deletes rows with
      `created_at < now - 300000`. */
  function CleanupExpiredVerifications(db: Database, now: int): (r: Database)
    ensures forall u :: u in r.verification ==> u in db.verification && r.verification[u] == db.verification[u]
    ensures forall u :: u in r.verification ==> r.verification[u].createdAt >= now - ChallengeWindowMs
    ensures forall u :: u in db.verification && db.verification[u].createdAt >= now - ChallengeWindowMs ==> u in r.verification
    ensures r.(verification := db.verification) == db
  {
    db.(verification := map u | u in db.verification && db.verification[u].createdAt >= now - ChallengeWindowMs :: db.verification[u])
  }

  /** The cleanup only removes rows no query from `now` on can see. */
  lemma CleanupInvisible(db: Database, now: int, later: int, id: string)
    requires now <= later
    ensures GetVerificationState(CleanupExpiredVerifications(db, now), id, later) == GetVerificationState(db, id, later)
  {
  }

  // ---------------------------------------------------------------------
  // verified_users
  // ---------------------------------------------------------------------

  /** A user counts as verified only while `expiry_time > now`. */
  predicate IsVerified(db: Database, id: string, now: int): (r: bool)
    ensures r <==> id in db.verified && now < db.verified[id]
  {
    id in db.verified && db.verified[id] > now
  }

  /** INSERT OR REPLACE with `expiry_time = now + ttl * 1000`. */
  function SetVerified(db: Database, id: string, ttl: int, now: int): (r: Database)
    ensures forall t :: IsVerified(r, id, t) <==> t < now + ttl * 1000
    ensures forall u, t :: u != id ==> (IsVerified(r, u, t) <==> IsVerified(db, u, t))
    ensures r.(verified := db.verified) == db
  {
    db.(verified := db.verified[id := now + ttl * 1000])
  }

  // ---------------------------------------------------------------------
  // blocked_users
  // ---------------------------------------------------------------------

  predicate IsBlocked(db: Database, id: string) {
    id in db.blocked
  }

  /** INSERT OR IGNORE: blocking twice is blocking once. */
  function BlockUser(db: Database, id: string, now: int): (r: Database)
    ensures forall u :: IsBlocked(r, u) <==> IsBlocked(db, u) || u == id
    ensures IsBlocked(db, id) ==> r == db
    ensures r.(blocked := db.blocked) == db
  {
    if id in db.blocked then db else db.(blocked := db.blocked[id := now])
  }

  function UnblockUser(db: Database, id: string): (r: Database)
    ensures forall u :: IsBlocked(r, u) <==> IsBlocked(db, u) && u != id
    ensures r.(blocked := db.blocked) == db
  {
    db.(blocked := db.blocked - {id})
  }

  lemma BlockUserIdempotent(db: Database, id: string, now: int, later: int)
    ensures BlockUser(BlockUser(db, id, now), id, later) == BlockUser(db, id, now)
  {
  }

  // ---------------------------------------------------------------------
  // message_mappings
  // ---------------------------------------------------------------------

  /** `result?.mapped_value || null`: an empty stored value reads as null. */
  function GetMessageMap(db: Database, key: string): (r: Option<string>)
    ensures r.Some? ==> key in db.mappings && r.value == db.mappings[key] && r.value != ""
    ensures key in db.mappings && db.mappings[key] != "" ==> r == Some(db.mappings[key])
  {
    if key in db.mappings && db.mappings[key] != "" then Some(db.mappings[key]) else None
  }

  /** INSERT OR REPLACE: afterwards the key reads back the value (null for
      an empty value), every other key reads as before. */
  function SetMessageMap(db: Database, key: string, value: string): (r: Database)
    ensures GetMessageMap(r, key) == (if value == "" then None else Some(value))
    ensures forall k :: k != key ==> GetMessageMap(r, k) == GetMessageMap(db, k)
    ensures r.(mappings := db.mappings) == db
  {
    db.(mappings := db.mappings[key := value])
  }

  /** An unknown key reads as null, never as some default user. */
  lemma UnknownKeyIsNull(db: Database, key: string)
    requires key !in db.mappings
    ensures GetMessageMap(db, key).None?
  {
  }
}

=== FILE: d1_worker.dfy ===
/** The update handlers of the SQL-backed worker: how a guest's message is
    classified and relayed, what a button press does to the challenge,
    and the operator's commands. Each handler is a function from the store,
    the update, the time and what the outside world answers to the new
    store and the Telegram calls made. */
module D1Worker {
  import opened Wrappers
  import opened Strings
  import opened Puzzle
  import opened Bot
  import opened D1Store

  // ---------------------------------------------------------------------
  // Guest messages
  // ---------------------------------------------------------------------

  /** Forwarding to the operator; when the forward succeeds the copy's id
      is mapped back to the sender and handleNotify runs. */
  function Relay(cfg: Config, db: Database, msg: Message, o: Oracle): (r: Outcome<Database>)
    ensures |r.calls| >= 1 && r.calls[0] == Forward(cfg.adminUid, Sender(msg), msg.messageId)
    ensures o.forwarded.None? ==> r == Outcome(db, [Forward(cfg.adminUid, Sender(msg), msg.messageId)])
    ensures o.forwarded.Some? ==> GetMessageMap(r.store, MapKey(o.forwarded.value)) == Some(Sender(msg))
    ensures o.forwarded.Some? ==> r.calls[1..] == Notify(cfg, Sender(msg), o.fraudList)
    ensures forall k :: k !in MapKeys(o.forwarded) ==> GetMessageMap(r.store, k) == GetMessageMap(db, k)
    ensures r.store.(mappings := db.mappings) == db
  {
    var chat := Sender(msg);
    var fwd := Forward(cfg.adminUid, chat, msg.messageId);
    match o.forwarded
    case Some(f) => Outcome(SetMessageMap(db, MapKey(f), chat), [fwd] + Notify(cfg, chat, o.fraudList))
    case None => Outcome(db, [fwd])
  }

  /** The mapping key a successful forward writes, if any. */
  function MapKeys(forwarded: Option<nat>): set<string> {
    match forwarded
    case Some(f) => {MapKey(f)}
    case None => {}
  }

  /** A fresh challenge: the problem is stored with no attempts before the
      options are drawn, then the question goes out with its keyboard. */
  function IssueChallenge(db: Database, chat: string, d: Draw, now: int): (r: Outcome<Database>)
    requires ValidDraw(d)
    ensures GetVerificationState(r.store, chat, now).Some?
    ensures GetVerificationState(r.store, chat, now).value.attempts == 0
    ensures GetVerificationState(r.store, chat, now).value.createdAt == now
    ensures GetVerificationState(r.store, chat, now).value.answer == GenerateMathProblem(ShowWorking, d.time, d.pos1, d.pos2, d.addValue).answer
    ensures r.calls != [] <==>
              GenerateOptions(AnswerValue(GenerateMathProblem(ShowWorking, d.time, d.pos1, d.pos2, d.addValue).answer), d.decoys, d.order).Some?
    ensures r.calls != [] ==> r.calls[0].SendChallenge? && r.calls[0].chat == chat
    ensures r.calls != [] ==> Solve(r.calls[0].question) == Some(GetVerificationState(r.store, chat, now).value.answer)
    ensures r.calls != [] ==> Offers(r.calls[0].keyboard, AnswerValue(GetVerificationState(r.store, chat, now).value.answer))
    ensures r.calls != [] ==>
              var answer := GetVerificationState(r.store, chat, now).value.answer;
              && GenerateOptions(AnswerValue(answer), d.decoys, d.order).Some?
              && r.calls[0].keyboard == Keyboard(GenerateOptions(AnswerValue(answer), d.decoys, d.order).value, answer)
    ensures |r.calls| <= 1
    ensures r.store.(verification := db.verification) == db
  {
    var p := GenerateMathProblem(ShowWorking, d.time, d.pos1, d.pos2, d.addValue);
    Outcome(SetVerification(db, chat, p.answer, 0, now), ChallengeCalls(chat, p, d))
  }

  /** handleGuestMessage: whitelisted senders are forwarded, blocked ones
      told so, unverified ones challenged (or reminded of the pending
      challenge), verified ones checked against the fraud list and then
      forwarded. */
  function HandleGuestMessage(cfg: Config, db: Database, msg: Message, now: int, o: Oracle): (r: GuestOutcome<Database>)
    requires ValidOracle(o)
    ensures r.disposition == Whitelisted <==> IsWhitelisted(db, Sender(msg))
    ensures r.disposition == Blocked <==> !IsWhitelisted(db, Sender(msg)) && IsBlocked(db, Sender(msg))
    ensures r.disposition == NeedsChallenge <==>
              && !IsWhitelisted(db, Sender(msg)) && !IsBlocked(db, Sender(msg))
              && !IsVerified(db, Sender(msg), now) && GetVerificationState(db, Sender(msg), now).None?
    ensures r.disposition == AwaitingAnswer <==>
              && !IsWhitelisted(db, Sender(msg)) && !IsBlocked(db, Sender(msg))
              && !IsVerified(db, Sender(msg), now) && GetVerificationState(db, Sender(msg), now).Some?
    ensures r.disposition == FraudSuspected <==>
              && !IsWhitelisted(db, Sender(msg)) && !IsBlocked(db, Sender(msg))
              && IsVerified(db, Sender(msg), now) && IsFraud(o.fraudList, Sender(msg))
    // who is forwarded
    ensures Forward(cfg.adminUid, Sender(msg), msg.messageId) in r.calls <==> r.disposition in {Whitelisted, Verified}
    ensures r.disposition in {Whitelisted, Verified} ==> r == GuestOutcome(r.disposition, Relay(cfg, db, msg, o).store, Relay(cfg, db, msg, o).calls)
    // a verified sender reaching the forward was already found not to be a fraud
    ensures r.disposition == Verified ==> forall c :: c in r.calls ==> c == Forward(cfg.adminUid, Sender(msg), msg.messageId)
    // the other answers
    ensures r.disposition == Blocked ==> r == GuestOutcome(Blocked, db, [Send(Sender(msg), YouAreBlocked)])
    ensures r.disposition == AwaitingAnswer ==> r == GuestOutcome(AwaitingAnswer, db, [Send(Sender(msg), UseTheButtons)])
    ensures r.disposition == FraudSuspected ==> r == GuestOutcome(FraudSuspected, db, [Send(cfg.adminUid, FraudSuspect(Sender(msg)))])
    ensures r.disposition == NeedsChallenge ==> r == GuestOutcome(NeedsChallenge, IssueChallenge(db, Sender(msg), o.draw, now).store, IssueChallenge(db, Sender(msg), o.draw, now).calls)
  {
    var chat := Sender(msg);
    if IsWhitelisted(db, chat) then
      var f := Relay(cfg, db, msg, o);
      GuestOutcome(Whitelisted, f.store, f.calls)
    else if IsBlocked(db, chat) then
      GuestOutcome(Blocked, db, [Send(chat, YouAreBlocked)])
    else if !IsVerified(db, chat, now) then
      if GetVerificationState(db, chat, now).None? then
        var c := IssueChallenge(db, chat, o.draw, now);
        GuestOutcome(NeedsChallenge, c.store, c.calls)
      else
        GuestOutcome(AwaitingAnswer, db, [Send(chat, UseTheButtons)])
    else if IsFraud(o.fraudList, chat) then
      GuestOutcome(FraudSuspected, db, [Send(cfg.adminUid, FraudSuspect(chat))])
    else
      var f := Relay(cfg, db, msg, o);
      GuestOutcome(Verified, f.store, f.calls)
  }

  // ---------------------------------------------------------------------
  // Button presses
  // ---------------------------------------------------------------------

  /** `verState?.attempts || 0`: the wrong answers recorded on the visible
      challenge, none when there is no visible challenge. */
  function PriorAttempts(db: Database, user: string, now: int): (n: int)
    ensures user !in db.verification || db.verification[user].createdAt <= now - ChallengeWindowMs ==> n == 0
    ensures user in db.verification && db.verification[user].createdAt > now - ChallengeWindowMs ==>
              n == db.verification[user].attempts
  {
    match GetVerificationState(db, user, now)
    case Some(c) => c.attempts
    case None => 0
  }

  /** onCallbackQuery: payloads not starting with `verify_` are ignored; a
      matching pair verifies the presser for three days; a mismatch counts
      one more wrong answer and blocks the presser at the tenth. */
  function OnCallbackQuery(db: Database, q: CallbackQuery, now: int): (r: CallbackOutcome<Database>)
    ensures r.verdict == Ignored <==> !StartsWith(q.data, PayloadPrefix)
    ensures r.verdict == Passed <==> IsCorrectChoice(q.data)
    ensures r.verdict == AutoBlocked <==>
              StartsWith(q.data, PayloadPrefix) && !IsCorrectChoice(q.data) && PriorAttempts(db, IntToString(q.fromId), now) + 1 >= MaxVerifyAttempts
    ensures r.verdict.Retry? ==>
              && r.verdict.attempts == Some(PriorAttempts(db, IntToString(q.fromId), now) + 1)
              && PriorAttempts(db, IntToString(q.fromId), now) + 1 < MaxVerifyAttempts
              && r.calls == [AnswerAlert(q.id, WrongAnswer(RenderCount(r.verdict.attempts)))]
    ensures r.verdict == Ignored ==> r.store == db && r.calls == []
    // passing grants exactly three days and ends the challenge
    ensures r.verdict == Passed ==> forall t :: IsVerified(r.store, IntToString(q.fromId), t) <==> t < now + VerifiedTtl * MsPerSecond
    ensures r.verdict == Passed ==> IntToString(q.fromId) !in r.store.verification
    ensures r.verdict == Passed ==> r.calls == [Edit(IntToString(q.fromId), q.promptId, VerificationPassed)]
    // the tenth wrong answer blocks and ends the challenge
    ensures r.verdict == AutoBlocked ==> IsBlocked(r.store, IntToString(q.fromId)) && IntToString(q.fromId) !in r.store.verification
    ensures r.verdict == AutoBlocked ==> r.calls == [Edit(IntToString(q.fromId), q.promptId, TooManyFailures)]
    ensures r.verdict == AutoBlocked ==> r.store.verified == db.verified
    // a wrong answer below the ceiling only rewrites the counter
    ensures r.verdict.Retry? ==> r.store == UpdateVerificationAttempts(db, IntToString(q.fromId), r.verdict.attempts.value)
    // only the presser can become blocked, and only by the ceiling
    ensures forall u :: IsBlocked(r.store, u) <==> IsBlocked(db, u) || (r.verdict == AutoBlocked && u == IntToString(q.fromId))
    ensures r.store.whitelist == db.whitelist && r.store.mappings == db.mappings
    // other users' challenges and grants are left alone
    ensures forall u :: u != IntToString(q.fromId) ==>
              && (u in r.store.verification <==> u in db.verification)
              && (u in r.store.verification ==> r.store.verification[u] == db.verification[u])
    ensures forall u, t :: u != IntToString(q.fromId) ==> (IsVerified(r.store, u, t) <==> IsVerified(db, u, t))
  {
    var user := IntToString(q.fromId);
    if !StartsWith(q.data, PayloadPrefix) then
      CallbackOutcome(Ignored, db, [])
    else if IsCorrectChoice(q.data) then
      var passed := DeleteVerification(SetVerified(db, user, VerifiedTtl, now), user);
      CallbackOutcome(Passed, passed, [Edit(user, q.promptId, VerificationPassed)])
    else
      var attempts := PriorAttempts(db, user, now) + 1;
      if attempts >= MaxVerifyAttempts then
        var blocked := DeleteVerification(BlockUser(db, user, now), user);
        CallbackOutcome(AutoBlocked, blocked, [Edit(user, q.promptId, TooManyFailures)])
      else
        CallbackOutcome(Retry(Some(attempts)), UpdateVerificationAttempts(db, user, attempts),
                        [AnswerAlert(q.id, WrongAnswer(IntToString(attempts)))])
  }

  // ---------------------------------------------------------------------
  // Operator commands
  // ---------------------------------------------------------------------

  /** The sender mapped to the message the operator replies to. */
  function ReplyMapping(db: Database, msg: Message): Option<string> {
    match msg.replyTo
    case Some(m) => GetMessageMap(db, MapKey(m))
    case None => None
  }

  /** handleAddWhitelist, handleRemoveWhitelist and handleCheckWhitelist
      once getTargetUserId has run. */
  function WhitelistOutcome(cfg: Config, db: Database, action: WhitelistAction, target: Option<string>, now: int): (r: Outcome<Database>)
    ensures target.None? ==> r == Outcome(db, [Send(cfg.adminUid, Usage(action))])
    ensures target.Some? && action == AddAction ==>
              forall u :: IsWhitelisted(r.store, u) <==> IsWhitelisted(db, u) || u == target.value
    ensures target.Some? && action == RemoveAction ==>
              forall u :: IsWhitelisted(r.store, u) <==> IsWhitelisted(db, u) && u != target.value
    ensures target.Some? && action == CheckAction ==>
              r == Outcome(db, [Send(cfg.adminUid, WhitelistStatus(target.value, IsWhitelisted(db, target.value)))])
    ensures r.store.(whitelist := db.whitelist) == db
    ensures |r.calls| == 1 && r.calls[0].Send? && r.calls[0].chat == cfg.adminUid
  {
    match target
    case None => Outcome(db, [Send(cfg.adminUid, Usage(action))])
    case Some(t) =>
      match action
      case AddAction => Outcome(AddWhitelist(db, t, now), [Send(cfg.adminUid, WhitelistAdded(t))])
      case RemoveAction => Outcome(RemoveWhitelist(db, t), [Send(cfg.adminUid, WhitelistRemoved(t))])
      case CheckAction => Outcome(db, [Send(cfg.adminUid, WhitelistStatus(t, IsWhitelisted(db, t)))])
  }

  /** handleListWhitelist */
  function ListOutcome(cfg: Config, db: Database): (r: Outcome<Database>)
    ensures r.store == db && |r.calls| == 1
    ensures Whitelist(db) == {} <==> r.calls[0] == Send(cfg.adminUid, WhitelistEmpty)
    ensures Whitelist(db) != {} ==> r.calls[0] == Send(cfg.adminUid, WhitelistRows(Whitelist(db)))
  {
    if Whitelist(db) == {} then Outcome(db, [Send(cfg.adminUid, WhitelistEmpty)])
    else Outcome(db, [Send(cfg.adminUid, WhitelistRows(Whitelist(db)))])
  }

  /** handleBlock, handleUnBlock and checkBlock: the target is always the
      sender mapped to the replied-to message. */
  function BlockOutcome(cfg: Config, db: Database, cmd: Command, target: Option<string>, now: int): (r: Outcome<Database>)
    requires cmd in {BlockCommand, UnblockCommand, CheckBlockCommand}
    ensures target.None? ==> r == Outcome(db, [Send(cfg.adminUid, NoTargetUid)])
    ensures cmd == BlockCommand && target == Some(cfg.adminUid) ==> r == Outcome(db, [Send(cfg.adminUid, CannotBlockSelf)])
    ensures cmd == BlockCommand && target.Some? && target.value != cfg.adminUid ==>
              forall u :: IsBlocked(r.store, u) <==> IsBlocked(db, u) || u == target.value
    ensures cmd == UnblockCommand && target.Some? ==>
              forall u :: IsBlocked(r.store, u) <==> IsBlocked(db, u) && u != target.value
    ensures cmd == CheckBlockCommand && target.Some? ==>
              r == Outcome(db, [Send(cfg.adminUid, BlockStatus(target.value, IsBlocked(db, target.value)))])
    ensures r.store.(blocked := db.blocked) == db
    ensures |r.calls| == 1 && r.calls[0].Send? && r.calls[0].chat == cfg.adminUid
  {
    match target
    case None => Outcome(db, [Send(cfg.adminUid, NoTargetUid)])
    case Some(t) =>
      if cmd == BlockCommand then
        if t == cfg.adminUid then Outcome(db, [Send(cfg.adminUid, CannotBlockSelf)])
        else Outcome(BlockUser(db, t, now), [Send(cfg.adminUid, BlockDone(t))])
      else if cmd == UnblockCommand then
        Outcome(UnblockUser(db, t), [Send(cfg.adminUid, UnblockDone(t))])
      else
        Outcome(db, [Send(cfg.adminUid, BlockStatus(t, IsBlocked(db, t)))])
  }

  /** The operator branch of onMessage: the whitelist commands first, then
      the help text for a message that replies to nothing, then the block
      commands, and anything else is copied to the mapped sender. */
  function HandleAdmin(cfg: Config, db: Database, msg: Message, now: int): (r: Outcome<Database>)
    ensures ParseCommand(msg.text).WhitelistCommand? ==>
              r == WhitelistOutcome(cfg, db, ParseCommand(msg.text).action, TargetUserId(msg.text.GetOr(""), ReplyMapping(db, msg)), now)
    ensures ParseCommand(msg.text) == ListWhitelist ==> r == ListOutcome(cfg, db)
    ensures !ParseCommand(msg.text).WhitelistCommand? && ParseCommand(msg.text) != ListWhitelist && msg.replyTo.None? ==>
              r == Outcome(db, [Send(cfg.adminUid, AdminHelp)])
    ensures ParseCommand(msg.text) in {BlockCommand, UnblockCommand, CheckBlockCommand} && msg.replyTo.Some? ==>
              r == BlockOutcome(cfg, db, ParseCommand(msg.text), ReplyMapping(db, msg), now)
    ensures ParseCommand(msg.text) == NotACommand && msg.replyTo.Some? ==>
              r == Outcome(db, [Copy(ReplyMapping(db, msg), Sender(msg), msg.messageId)])
    ensures r.store.verification == db.verification && r.store.verified == db.verified && r.store.mappings == db.mappings
  {
    var cmd := ParseCommand(msg.text);
    match cmd
    case WhitelistCommand(action, _) =>
      WhitelistOutcome(cfg, db, action, TargetUserId(msg.text.GetOr(""), ReplyMapping(db, msg)), now)
    case ListWhitelist => ListOutcome(cfg, db)
    case NotACommand =>
      if msg.replyTo.None? then Outcome(db, [Send(cfg.adminUid, AdminHelp)])
      else Outcome(db, [Copy(ReplyMapping(db, msg), Sender(msg), msg.messageId)])
    case _ =>
      if msg.replyTo.None? then Outcome(db, [Send(cfg.adminUid, AdminHelp)])
      else BlockOutcome(cfg, db, cmd, ReplyMapping(db, msg), now)
  }

  /** onMessage: `/start` from anyone gets the greeting, then the operator's
      messages are commands or replies, and everyone else is a guest. */
  function OnMessage(cfg: Config, db: Database, msg: Message, now: int, o: Oracle): (r: Outcome<Database>)
    requires ValidOracle(o)
    ensures msg.text == Some("/start") ==> r == Outcome(db, [Send(Sender(msg), Greeting)])
    ensures msg.text != Some("/start") && Sender(msg) == cfg.adminUid ==> r == HandleAdmin(cfg, db, msg, now)
    ensures msg.text != Some("/start") && Sender(msg) != cfg.adminUid ==>
              r.store == HandleGuestMessage(cfg, db, msg, now, o).store && r.calls == HandleGuestMessage(cfg, db, msg, now, o).calls
  {
    if msg.text == Some("/start") then Outcome(db, [Send(Sender(msg), Greeting)])
    else if Sender(msg) == cfg.adminUid then HandleAdmin(cfg, db, msg, now)
    else
      var g := HandleGuestMessage(cfg, db, msg, now, o);
      Outcome(g.store, g.calls)
  }

  /** onUpdate: a message goes to onMessage, a button press to
      onCallbackQuery. A press never touches the whitelist or the message
      mappings, and blocks no one but the presser. */
  function OnUpdate(cfg: Config, db: Database, u: Update, now: int, o: Oracle): (r: Outcome<Database>)
    requires ValidOracle(o)
    ensures u.MessageUpdate? ==> r == OnMessage(cfg, db, u.message, now, o)
    ensures u.CallbackUpdate? ==>
              && r.store == OnCallbackQuery(db, u.query, now).store && r.calls == OnCallbackQuery(db, u.query, now).calls
              && r.store.whitelist == db.whitelist && r.store.mappings == db.mappings
              && forall v :: IsBlocked(r.store, v) ==> IsBlocked(db, v) || v == IntToString(u.query.fromId)
  {
    match u
    case MessageUpdate(msg) => OnMessage(cfg, db, msg, now, o)
    case CallbackUpdate(q) =>
      var c := OnCallbackQuery(db, q, now);
      Outcome(c.store, c.calls)
  }

  // ---------------------------------------------------------------------
  // Properties across updates
  // ---------------------------------------------------------------------

  /** A whitelisted sender's message is handled the same whatever else the
      store holds: the same calls, and only the message mapping written. */
  lemma WhitelistIgnoresOtherState(cfg: Config, db1: Database, db2: Database, msg: Message, now: int, o: Oracle)
    requires ValidOracle(o)
    requires IsWhitelisted(db1, Sender(msg)) && IsWhitelisted(db2, Sender(msg))
    ensures HandleGuestMessage(cfg, db1, msg, now, o).disposition == Whitelisted
    ensures HandleGuestMessage(cfg, db1, msg, now, o).calls == HandleGuestMessage(cfg, db2, msg, now, o).calls
    ensures HandleGuestMessage(cfg, db1, msg, now, o).store.(mappings := db1.mappings) == db1
  {
  }

  /** A guest who is neither whitelisted, blocked nor verified and has no
      live challenge: their next message is challenged. */
  predicate Unchallenged(db: Database, id: string, now: int) {
    !IsWhitelisted(db, id) && !IsBlocked(db, id) && !IsVerified(db, id, now) && GetVerificationState(db, id, now).None?
  }

  /** While a challenge is pending, further messages from the same guest
      are answered with a reminder and do not replace the challenge. */
  lemma ChallengeIsNotReissued(cfg: Config, db: Database, msg: Message, now: int, o: Oracle, later: Message, t: int, o2: Oracle)
    requires ValidOracle(o) && ValidOracle(o2)
    requires Unchallenged(db, Sender(msg), now)
    requires later.chatId == msg.chatId && now <= t < now + ChallengeWindowMs
    ensures HandleGuestMessage(cfg, HandleGuestMessage(cfg, db, msg, now, o).store, later, t, o2).disposition == AwaitingAnswer
  {
    var s := Sender(msg);
    var db1 := HandleGuestMessage(cfg, db, msg, now, o).store;
    assert db1.(verification := db.verification) == db;
    assert GetVerificationState(db1, s, t).Some?;
  }

  /** Applying a run of button presses in order, each at its own time. */
  function PressAll(db: Database, qs: seq<CallbackQuery>, times: seq<int>): Database
    requires |qs| == |times|
    decreases |qs|
  {
    if |qs| == 0 then db else PressAll(OnCallbackQuery(db, qs[0], times[0]).store, qs[1..], times[1..])
  }

  /** A press by `user` on a button whose two payload parts differ. */
  predicate WrongPress(q: CallbackQuery, user: int) {
    q.fromId == user && StartsWith(q.data, PayloadPrefix) && !IsCorrectChoice(q.data)
  }

  /** No button press unblocks anyone. */
  lemma {:induction false} PressesKeepBlocks(db: Database, qs: seq<CallbackQuery>, times: seq<int>, u: string)
    requires |qs| == |times|
    requires IsBlocked(db, u)
    ensures IsBlocked(PressAll(db, qs, times), u)
    decreases |qs|
  {
    if |qs| > 0 {
      PressesKeepBlocks(OnCallbackQuery(db, qs[0], times[0]).store, qs[1..], times[1..], u);
    }
  }

  /** Below the ceiling, wrong answers inside the challenge's window each
      add one to the counter and leave the presser's block status alone. */
  lemma {:induction false} WrongPressesCount(db: Database, user: int, qs: seq<CallbackQuery>, times: seq<int>)
    requires |qs| == |times|
    requires forall k :: 0 <= k < |qs| ==> WrongPress(qs[k], user)
    requires IntToString(user) in db.verification
    requires forall k :: 0 <= k < |times| ==> db.verification[IntToString(user)].createdAt > times[k] - ChallengeWindowMs
    requires 0 <= db.verification[IntToString(user)].attempts
    requires db.verification[IntToString(user)].attempts + |qs| < MaxVerifyAttempts
    ensures IntToString(user) in PressAll(db, qs, times).verification
    ensures PressAll(db, qs, times).verification[IntToString(user)] ==
              db.verification[IntToString(user)].(attempts := db.verification[IntToString(user)].attempts + |qs|)
    ensures IsBlocked(PressAll(db, qs, times), IntToString(user)) == IsBlocked(db, IntToString(user))
    decreases |qs|
  {
    if |qs| > 0 {
      var id := IntToString(user);
      var db1 := OnCallbackQuery(db, qs[0], times[0]).store;
      assert PriorAttempts(db, id, times[0]) == db.verification[id].attempts;
      WrongPressesCount(db1, user, qs[1..], times[1..]);
    }
  }

  /** The same presses block nobody: every user's block status is as
      before. */
  lemma {:induction false} WrongPressesBlockNobody(db: Database, user: int, qs: seq<CallbackQuery>, times: seq<int>)
    requires |qs| == |times|
    requires forall k :: 0 <= k < |qs| ==> WrongPress(qs[k], user)
    requires IntToString(user) in db.verification
    requires forall k :: 0 <= k < |times| ==> db.verification[IntToString(user)].createdAt > times[k] - ChallengeWindowMs
    requires 0 <= db.verification[IntToString(user)].attempts
    requires db.verification[IntToString(user)].attempts + |qs| < MaxVerifyAttempts
    ensures forall u :: IsBlocked(PressAll(db, qs, times), u) <==> IsBlocked(db, u)
    decreases |qs|
  {
    if |qs| > 0 {
      var id := IntToString(user);
      var db1 := OnCallbackQuery(db, qs[0], times[0]).store;
      assert PriorAttempts(db, id, times[0]) == db.verification[id].attempts;
      WrongPressesBlockNobody(db1, user, qs[1..], times[1..]);
    }
  }

  /** The wrong answer that brings the counter to ten blocks the presser,
      who stays blocked through any further presses. */
  lemma {:induction false} CeilingBlocks(db: Database, user: int, qs: seq<CallbackQuery>, times: seq<int>)
    requires |qs| == |times|
    requires forall k :: 0 <= k < |qs| ==> WrongPress(qs[k], user)
    requires IntToString(user) in db.verification
    requires forall k :: 0 <= k < |times| ==> db.verification[IntToString(user)].createdAt > times[k] - ChallengeWindowMs
    requires 0 <= db.verification[IntToString(user)].attempts < MaxVerifyAttempts <= db.verification[IntToString(user)].attempts + |qs|
    ensures IsBlocked(PressAll(db, qs, times), IntToString(user))
    decreases |qs|
  {
    var id := IntToString(user);
    var db1 := OnCallbackQuery(db, qs[0], times[0]).store;
    assert PriorAttempts(db, id, times[0]) == db.verification[id].attempts;
    if db.verification[id].attempts + 1 >= MaxVerifyAttempts {
      PressesKeepBlocks(db1, qs[1..], times[1..], id);
    } else {
      CeilingBlocks(db1, user, qs[1..], times[1..]);
    }
  }

  /** From a fresh challenge, wrong answers given inside its five minutes
      block the guest exactly when there are ten or more of them. */
  lemma FreshChallengeCeiling(cfg: Config, db: Database, msg: Message, now: int, o: Oracle,
                              qs: seq<CallbackQuery>, times: seq<int>)
    requires ValidOracle(o)
    requires Unchallenged(db, Sender(msg), now)
    requires |qs| == |times|
    requires forall k :: 0 <= k < |qs| ==> WrongPress(qs[k], msg.chatId)
    requires forall k :: 0 <= k < |times| ==> now <= times[k] < now + ChallengeWindowMs
    ensures (IsBlocked(PressAll(HandleGuestMessage(cfg, db, msg, now, o).store, qs, times), Sender(msg))
             <==> |qs| >= MaxVerifyAttempts)
  {
    var db1 := HandleGuestMessage(cfg, db, msg, now, o).store;
    var s := Sender(msg);
    assert db1.(verification := db.verification) == db;
    assert GetVerificationState(db1, s, now).Some?;
    assert s in db1.verification;
    if |qs| >= MaxVerifyAttempts {
      CeilingBlocks(db1, msg.chatId, qs, times);
    } else {
      WrongPressesCount(db1, msg.chatId, qs, times);
    }
  }

  /** After a successful answer the guest's messages are no longer held
      back for three days: they are forwarded or flagged as fraud. */
  lemma PassedUnlocksRelay(cfg: Config, db: Database, q: CallbackQuery, now: int, msg: Message, t: int, o: Oracle)
    requires ValidOracle(o)
    requires OnCallbackQuery(db, q, now).verdict == Passed
    requires msg.chatId == q.fromId && !IsBlocked(db, Sender(msg))
    requires t < now + VerifiedTtl * MsPerSecond
    ensures HandleGuestMessage(cfg, OnCallbackQuery(db, q, now).store, msg, t, o).disposition in {Whitelisted, FraudSuspected, Verified}
  {
    var db1 := OnCallbackQuery(db, q, now).store;
    assert IsVerified(db1, Sender(msg), t);
    assert !IsBlocked(db1, Sender(msg));
  }

  /** The only way out of the block list is the operator's `/unblock` in
      reply to a message mapped to the blocked user. */
  predicate UnblocksVia(cfg: Config, db: Database, u: Update, id: string) {
    && u.MessageUpdate?
    && u.message.text != Some("/start")
    && Sender(u.message) == cfg.adminUid
    && ParseCommand(u.message.text) == UnblockCommand
    && u.message.replyTo.Some?
    && ReplyMapping(db, u.message) == Some(id)
  }

  lemma BlockIsSticky(cfg: Config, db: Database, u: Update, now: int, o: Oracle, id: string)
    requires ValidOracle(o)
    requires IsBlocked(db, id)
    ensures !IsBlocked(OnUpdate(cfg, db, u, now, o).store, id) ==> UnblocksVia(cfg, db, u, id)
  {
    if u.MessageUpdate? {
      var msg := u.message;
      if msg.text != Some("/start") && Sender(msg) != cfg.adminUid {
        var g := HandleGuestMessage(cfg, db, msg, now, o);
        assert g.disposition in {Whitelisted, Verified} ==> g.store.blocked == db.blocked;
        assert g.disposition == NeedsChallenge ==> g.store.blocked == db.blocked;
      }
    }
  }

  /** A reply to a forwarded message reaches the guest who sent it. */
  lemma ReplyReachesSender(cfg: Config, db: Database, msg: Message, now: int, o: Oracle, reply: Message)
    requires ValidOracle(o)
    requires msg.text != Some("/start") && Sender(msg) != cfg.adminUid
    requires HandleGuestMessage(cfg, db, msg, now, o).disposition in {Whitelisted, Verified}
    requires o.forwarded.Some?
    requires Sender(reply) == cfg.adminUid && reply.replyTo == o.forwarded
    requires reply.text != Some("/start") && ParseCommand(reply.text) == NotACommand
    ensures OnMessage(cfg, OnMessage(cfg, db, msg, now, o).store, reply, now, o).calls ==
              [Copy(Some(Sender(msg)), cfg.adminUid, reply.messageId)]
  {
    var db1 := OnMessage(cfg, db, msg, now, o).store;
    assert db1 == Relay(cfg, db, msg, o).store;
    assert ReplyMapping(db1, reply) == Some(Sender(msg));
  }

  /** `/block` in reply to a forwarded message blocks its sender, whose
      next message (unless whitelisted) is refused. */
  lemma BlockByReply(cfg: Config, db: Database, cmd: Message, now: int, o: Oracle, later: Message, t: int, o2: Oracle)
    requires ValidOracle(o) && ValidOracle(o2)
    requires Sender(cmd) == cfg.adminUid && cmd.text == Some("/block") && cmd.replyTo.Some?
    requires ReplyMapping(db, cmd) == Some(Sender(later)) && Sender(later) != cfg.adminUid
    requires !IsWhitelisted(db, Sender(later))
    ensures HandleGuestMessage(cfg, OnMessage(cfg, db, cmd, now, o).store, later, t, o2).disposition == Blocked
  {
    assert ParseCommand(cmd.text) == BlockCommand;
    var db1 := OnMessage(cfg, db, cmd, now, o).store;
    assert IsBlocked(db1, Sender(later));
    assert db1.whitelist == db.whitelist;
  }

  /** `/addwhite <uid>` whitelists the uid in the command, whatever the
      message replies to. */
  lemma AddWhiteByArgument(cfg: Config, db: Database, cmd: Message, now: int, o: Oracle, uid: string)
    requires ValidOracle(o)
    requires Sender(cmd) == cfg.adminUid
    requires cmd.text.Some? && ParseCommand(cmd.text) == WhitelistCommand(AddAction, Some(uid))
    ensures IsWhitelisted(OnMessage(cfg, db, cmd, now, o).store, uid)
    ensures OnMessage(cfg, db, cmd, now, o).calls == [Send(cfg.adminUid, WhitelistAdded(uid))]
  {
    var t := cmd.text.value;
    assert CommandArg("addwhite", t) == Some(Some(uid));
    assert IsCommandName("addwhite");
    CommandArgAgrees("addwhite", t);
  }
}

=== FILE: kv_store.dfy ===
/** The key-value store of the KV worker: string keys, string values and
    an optional expiry (`expirationTtl` seconds after the write), with the
    key families the worker uses and the comma-joined whitelist list kept
    under `whitelist-data`. Times are milliseconds. */
module KvStore {
  import opened Wrappers
  import opened Strings
  import opened Bot

  /** A stored value and the instant it stops being readable, if any. */
  datatype Entry = Entry(value: string, expiresAt: Option<int>)

  datatype Kv = Kv(data: map<string, Entry>)

  const EmptyKv := Kv(map[])

  /** `get`: the value while it has not expired, `null` otherwise. */
  function Get(kv: Kv, key: string, now: int): (r: Option<string>)
    ensures r.Some? <==> key in kv.data && (kv.data[key].expiresAt.None? || now < kv.data[key].expiresAt.value)
    ensures r.Some? ==> r.value == kv.data[key].value
  {
    if key in kv.data && (kv.data[key].expiresAt.None? || now < kv.data[key].expiresAt.value)
    then Some(kv.data[key].value)
    else None
  }

  /** `put`, with `ttl` seconds of life when given: the key reads the new
      value until the expiry (forever without one), every other key reads
      as before. */
  function Put(kv: Kv, key: string, value: string, ttl: Option<int>, now: int): (r: Kv)
    ensures forall t ::
              Get(r, key, t) == (if ttl.None? || t < now + ttl.value * MsPerSecond then Some(value) else None)
    ensures forall k, t :: k != key ==> Get(r, k, t) == Get(kv, k, t)
  {
    var expiry := match ttl case Some(s) => Some(now + s * MsPerSecond) case None => None;
    Kv(kv.data[key := Entry(value, expiry)])
  }

  /** `delete`: the key reads as `null` from now on, others as before. */
  function Delete(kv: Kv, key: string): (r: Kv)
    ensures forall t :: Get(r, key, t).None?
    ensures forall k, t :: k != key ==> Get(r, k, t) == Get(kv, k, t)
  {
    Kv(kv.data - {key})
  }

  /** Expiry only ever hides a value: what is unreadable or different from
      `v` now stays so later. */
  lemma GetLater(kv: Kv, key: string, now: int, later: int, v: string)
    requires now <= later
    requires Get(kv, key, now) != Some(v)
    ensures Get(kv, key, later) != Some(v)
  {
  }

  // ---------------------------------------------------------------------
  // Key families
  // ---------------------------------------------------------------------

  /** The per-user key families: `whitelist-`, `isblocked-`, `verified-`,
      `verify-` and `verify-attempts-`. */
  datatype Family = WhitelistFlag | BlockedFlag | VerifiedFlag | ChallengeAnswer | ChallengeAttempts

  function Prefix(f: Family): string {
    match f
    case WhitelistFlag => "whitelist-"
    case BlockedFlag => "isblocked-"
    case VerifiedFlag => "verified-"
    case ChallengeAnswer => "verify-"
    case ChallengeAttempts => "verify-attempts-"
  }

  function UserKey(f: Family, id: string): string {
    Prefix(f) + id
  }

  const WhitelistDataKey := "whitelist-data"

  /** A position where the keys of two different families for ids shaped
      like Telegram ids always differ. */
  function DifferAt(f: Family, g: Family): (i: nat)
    requires f != g
    ensures i < |Prefix(f)| || i < |Prefix(g)|
    ensures forall a, b :: IdLike(a) && IdLike(b) ==>
              i < |UserKey(f, a)| && i < |UserKey(g, b)| && UserKey(f, a)[i] != UserKey(g, b)[i]
  {
    var i := if Prefix(f)[0] != Prefix(g)[0] then 0
             else if f == VerifiedFlag || g == VerifiedFlag then 5
             else 7;
    forall a, b | IdLike(a) && IdLike(b)
      ensures i < |UserKey(f, a)| && i < |UserKey(g, b)| && UserKey(f, a)[i] != UserKey(g, b)[i]
    {
      assert IsIdChar(a[0]) && IsIdChar(b[0]);
    }
    i
  }

  /** No two keys the worker builds for users collide: a key names one
      family and one user, and none of them is the list key or a message
      mapping key. This is what lets each key be read and written on its
      own. */
  lemma UserKeysDistinct(f: Family, a: string, g: Family, b: string)
    requires IdLike(a) && IdLike(b)
    ensures UserKey(f, a) == UserKey(g, b) <==> f == g && a == b
  {
    if f == g && UserKey(f, a) == UserKey(g, b) {
      assert a == UserKey(f, a)[|Prefix(f)|..];
      assert b == UserKey(g, b)[|Prefix(g)|..];
    } else if f != g {
      var i := DifferAt(f, g);
      assert UserKey(f, a)[i] != UserKey(g, b)[i];
    }
  }

  lemma UserKeyIsNotListKey(f: Family, a: string)
    requires IdLike(a)
    ensures UserKey(f, a) != WhitelistDataKey
  {
    if f == WhitelistFlag {
      assert IsIdChar(a[0]);
      assert UserKey(f, a)[10] != WhitelistDataKey[10];
    } else {
      assert UserKey(f, a)[0] != WhitelistDataKey[0];
    }
  }

  lemma UserKeyIsNotMapKey(f: Family, a: string, m: nat)
    ensures UserKey(f, a) != MapKey(m)
  {
    assert UserKey(f, a)[0] != MapKey(m)[0];
  }

  // ---------------------------------------------------------------------
  // Flags
  // ---------------------------------------------------------------------

  /** isWhitelisted: the flag holds only for the exact value `'true'`. */
  predicate IsWhitelisted(kv: Kv, id: string, now: int) {
    Get(kv, UserKey(WhitelistFlag, id), now) == Some("true")
  }

  /** The blocked flag, likewise only for `'true'`. */
  predicate IsBlocked(kv: Kv, id: string, now: int) {
    Get(kv, UserKey(BlockedFlag, id), now) == Some("true")
  }

  /** The verified grant counts when it reads as a non-empty string. */
  predicate IsVerified(kv: Kv, id: string, now: int) {
    Present(Get(kv, UserKey(VerifiedFlag, id), now)).Some?
  }

  // ---------------------------------------------------------------------
  // The whitelist-data list
  // ---------------------------------------------------------------------

  /** The ids in `whitelist-data`: its comma-separated non-empty entries,
      in order; none when the key is missing or empty. */
  function Entries(kv: Kv, now: int): (ids: seq<string>)
    ensures forall k :: 0 <= k < |ids| ==> ids[k] != "" && ',' !in ids[k]
    ensures forall x :: x in ids <==> x != "" && x in Split(Present(Get(kv, WhitelistDataKey, now)).GetOr(""), ',')
  {
    var data := Present(Get(kv, WhitelistDataKey, now)).GetOr("");
    if data == "" then []
    else
      SplitPiecesFiltered(data, "");
      NonEmpty(Split(data, ','))
  }

  /** The entries kept from a split are pieces of it, so none holds a comma. */
  lemma SplitPiecesFiltered(data: string, drop: string)
    ensures forall k :: 0 <= k < |Filtered(Split(data, ','), drop)| ==> ',' !in Filtered(Split(data, ','), drop)[k]
  {
    var parts := Split(data, ',');
    var kept := Filtered(parts, drop);
    forall k | 0 <= k < |kept|
      ensures ',' !in kept[k]
    {
      assert kept[k] in parts;
    }
  }

  /** handleAddWhitelist's list update: append the id when it is absent. */
  function AddEntry(kv: Kv, id: string, now: int): (r: Kv)
    ensures id != "" && ',' !in id ==> Entries(r, now) == Entries(kv, now) + (if id in Entries(kv, now) then [] else [id])
    ensures forall k, t :: k != WhitelistDataKey ==> Get(r, k, t) == Get(kv, k, t)
  {
    var ids := Entries(kv, now);
    if id in ids then kv
    else
      var r := Put(kv, WhitelistDataKey, Join(ids + [id], ','), None, now);
      if id != "" && ',' !in id then
        EntriesOfJoin(r, ids + [id], now);
        r
      else r
  }

  /** handleRemoveWhitelist's list update: keep the non-empty entries other
      than the id, in order, and write them back. */
  function RemoveEntry(kv: Kv, id: string, now: int): (r: Kv)
    ensures Entries(r, now) == Filtered(Entries(kv, now), id)
    ensures forall k, t :: k != WhitelistDataKey ==> Get(r, k, t) == Get(kv, k, t)
  {
    var data := Present(Get(kv, WhitelistDataKey, now)).GetOr("");
    var kept := Filtered(Split(data, ','), id);
    var r := Put(kv, WhitelistDataKey, Join(kept, ','), None, now);
    RemoveEntryKeeps(kv, id, now, r);
    r
  }

  lemma RemoveEntryKeeps(kv: Kv, id: string, now: int, r: Kv)
    requires r == Put(kv, WhitelistDataKey, Join(Filtered(Split(Present(Get(kv, WhitelistDataKey, now)).GetOr(""), ','), id), ','), None, now)
    ensures Entries(r, now) == Filtered(Entries(kv, now), id)
  {
    var data := Present(Get(kv, WhitelistDataKey, now)).GetOr("");
    var kept := Filtered(Split(data, ','), id);
    if kept == [] {
      if data != "" {
        FilteredAfterNonEmpty(Split(data, ','), id);
      }
    } else {
      SplitPiecesFiltered(data, id);
      EntriesOfJoin(r, kept, now);
      FilteredAfterNonEmpty(Split(data, ','), id);
    }
  }

  /** Reading back a list written as a join of clean entries. */
  lemma EntriesOfJoin(r: Kv, ids: seq<string>, now: int)
    requires |ids| >= 1 && forall k :: 0 <= k < |ids| ==> ids[k] != "" && ',' !in ids[k]
    requires Get(r, WhitelistDataKey, now) == Some(Join(ids, ','))
    ensures Entries(r, now) == ids
  {
    SplitOfJoin(ids, ',');
    FilteredOfClean(ids, "");
    assert Join(ids, ',') != "" by {
      if Join(ids, ',') == "" {
        JoinNonEmpty(ids);
      }
    }
  }

  lemma JoinNonEmpty(ids: seq<string>)
    requires |ids| >= 1 && ids[0] != ""
    ensures Join(ids, ',') != ""
  {
    if |ids| > 1 {
      assert Join(ids, ',') == ids[0] + [','] + Join(ids[1..], ',');
    }
  }

  predicate NoDuplicates(ids: seq<string>) {
    forall i, j :: 0 <= i < j < |ids| ==> ids[i] != ids[j]
  }

  /** Adding never creates a duplicate entry. */
  lemma AddEntryKeepsDistinct(kv: Kv, id: string, now: int)
    requires id != "" && ',' !in id && NoDuplicates(Entries(kv, now))
    ensures NoDuplicates(Entries(AddEntry(kv, id, now), now))
  {
  }

  /** Removing keeps entries distinct, and no entry equals the removed id. */
  lemma {:induction false} FilteredKeepsDistinct(ids: seq<string>, drop: string)
    requires NoDuplicates(ids)
    ensures NoDuplicates(Filtered(ids, drop))
    decreases |ids|
  {
    if |ids| > 0 {
      FilteredKeepsDistinct(ids[1..], drop);
      assert ids[0] !in ids[1..] by {
        forall j | 0 <= j < |ids[1..]|
          ensures ids[1..][j] != ids[0]
        {
          assert ids[1..][j] == ids[j + 1];
        }
      }
    }
  }

  /** Removing from a list without duplicates shortens it by one exactly
      when the id was listed. */
  lemma RemoveEntryCount(kv: Kv, id: string, now: int)
    requires NoDuplicates(Entries(kv, now))
    ensures |Entries(RemoveEntry(kv, id, now), now)| == |Entries(kv, now)| - (if id in Entries(kv, now) then 1 else 0)
  {
    FilteredCount(Entries(kv, now), id);
  }

  lemma {:induction false} FilteredCount(ids: seq<string>, drop: string)
    requires NoDuplicates(ids) && forall k :: 0 <= k < |ids| ==> ids[k] != ""
    ensures |Filtered(ids, drop)| == |ids| - (if drop in ids then 1 else 0)
    decreases |ids|
  {
    if |ids| > 0 {
      FilteredCount(ids[1..], drop);
      assert ids[0] !in ids[1..] by {
        forall j | 0 <= j < |ids[1..]|
          ensures ids[1..][j] != ids[0]
        {
          assert ids[1..][j] == ids[j + 1];
        }
      }
      assert drop in ids <==> drop == ids[0] || drop in ids[1..] by {
        assert ids == [ids[0]] + ids[1..];
      }
    }
  }

  /** Adding an unlisted id and removing it again gives back the list. */
  lemma AddThenRemoveRestores(kv: Kv, id: string, now: int)
    requires id != "" && ',' !in id && id !in Entries(kv, now)
    ensures Entries(RemoveEntry(AddEntry(kv, id, now), id, now), now) == Entries(kv, now)
  {
    var ids := Entries(kv, now);
    FilteredAppend(ids, [id], id);
    FilteredOfClean(ids, id);
    assert Filtered([id], id) == [];
  }
}

=== FILE: kv_worker.dfy ===
/** The update handlers of the key-value worker. They follow the same
    order as the SQL-backed worker's, but keep their state in per-user
    keys with expiry times, and keep the whitelist twice: as per-user
    `'true'` flags and as the comma-joined `whitelist-data` list. */
module KvWorker {
  import opened Wrappers
  import opened Strings
  import opened Puzzle
  import opened Bot
  import opened KvStore

  function AnswerKey(id: string): string { UserKey(ChallengeAnswer, id) }
  function AttemptsKey(id: string): string { UserKey(ChallengeAttempts, id) }
  function BlockedKey(id: string): string { UserKey(BlockedFlag, id) }
  function VerifiedKey(id: string): string { UserKey(VerifiedFlag, id) }
  function WhitelistKey(id: string): string { UserKey(WhitelistFlag, id) }

  /** The keys a button press by `id` may write. */
  function PressKeys(id: string): set<string> {
    {AnswerKey(id), AttemptsKey(id), BlockedKey(id), VerifiedKey(id)}
  }

  /** The blocked flags live under their own prefix: no other key the
      worker writes can be a blocked flag, whatever the ids. */
  lemma BlockedKeyIsOwnFamily(u: string, f: Family, id: string)
    requires f != BlockedFlag
    ensures BlockedKey(u) != UserKey(f, id) && BlockedKey(u) != WhitelistDataKey
  {
    assert BlockedKey(u)[0] != UserKey(f, id)[0];
    assert BlockedKey(u)[0] != WhitelistDataKey[0];
  }

  lemma BlockedKeyInjective(u: string, v: string)
    ensures BlockedKey(u) == BlockedKey(v) <==> u == v
  {
    if BlockedKey(u) == BlockedKey(v) {
      assert u == BlockedKey(u)[10..];
      assert v == BlockedKey(v)[10..];
    }
  }

  // ---------------------------------------------------------------------
  // Guest messages
  // ---------------------------------------------------------------------

  /** Forwarding to the operator; when the forward succeeds the copy's id
      is mapped back to the sender (without expiry) and handleNotify runs. */
  function Relay(cfg: Config, kv: Kv, msg: Message, now: int, o: Oracle): (r: Outcome<Kv>)
    ensures |r.calls| >= 1 && r.calls[0] == Forward(cfg.adminUid, Sender(msg), msg.messageId)
    ensures o.forwarded.None? ==> r == Outcome(kv, [Forward(cfg.adminUid, Sender(msg), msg.messageId)])
    ensures o.forwarded.Some? ==> forall t :: Get(r.store, MapKey(o.forwarded.value), t) == Some(Sender(msg))
    ensures o.forwarded.Some? ==> r.calls[1..] == Notify(cfg, Sender(msg), o.fraudList)
    ensures forall k, t :: (o.forwarded.None? || k != MapKey(o.forwarded.value)) ==> Get(r.store, k, t) == Get(kv, k, t)
  {
    var chat := Sender(msg);
    var fwd := Forward(cfg.adminUid, chat, msg.messageId);
    match o.forwarded
    case Some(f) => Outcome(Put(kv, MapKey(f), chat, None, now), [fwd] + Notify(cfg, chat, o.fraudList))
    case None => Outcome(kv, [fwd])
  }

  /** A fresh challenge: `verify-<id>` holds the answer and
      `verify-attempts-<id>` is reset to `'0'`, both for five minutes; then
      the question (without the worked results) goes out with its keyboard. */
  function IssueChallenge(kv: Kv, chat: string, d: Draw, now: int): (r: Outcome<Kv>)
    requires IdLike(chat) && ValidDraw(d)
    ensures var answer := GenerateMathProblem(HideWorking, d.time, d.pos1, d.pos2, d.addValue).answer;
            forall t :: Get(r.store, AnswerKey(chat), t) == (if t < now + VerificationTtl * MsPerSecond then Some(answer) else None)
    ensures forall t :: Get(r.store, AttemptsKey(chat), t) == (if t < now + VerificationTtl * MsPerSecond then Some("0") else None)
    ensures forall k, t :: k != AnswerKey(chat) && k != AttemptsKey(chat) ==> Get(r.store, k, t) == Get(kv, k, t)
    ensures r.calls != [] <==>
              GenerateOptions(AnswerValue(GenerateMathProblem(HideWorking, d.time, d.pos1, d.pos2, d.addValue).answer), d.decoys, d.order).Some?
    ensures r.calls != [] ==> r.calls[0].SendChallenge? && r.calls[0].chat == chat
    ensures r.calls != [] ==>
              var q := r.calls[0].question;
              Solve(q) == Some(GenerateMathProblem(HideWorking, d.time, d.pos1, d.pos2, d.addValue).answer)
              && q.first.working.None? && q.second.working.None?
    ensures r.calls != [] ==>
              var answer := GenerateMathProblem(HideWorking, d.time, d.pos1, d.pos2, d.addValue).answer;
              && GenerateOptions(AnswerValue(answer), d.decoys, d.order).Some?
              && r.calls[0].keyboard == Keyboard(GenerateOptions(AnswerValue(answer), d.decoys, d.order).value, answer)
    ensures |r.calls| <= 1
  {
    var p := GenerateMathProblem(HideWorking, d.time, d.pos1, d.pos2, d.addValue);
    UserKeysDistinct(ChallengeAnswer, chat, ChallengeAttempts, chat);
    var kv1 := Put(kv, AnswerKey(chat), p.answer, Some(VerificationTtl), now);
    var kv2 := Put(kv1, AttemptsKey(chat), "0", Some(VerificationTtl), now);
    Outcome(kv2, ChallengeCalls(chat, p, d))
  }

  /** handleGuestMessage over the keys: the whitelist flag first, then the
      blocked flag, then the verified grant, then the pending answer, then
      the fraud list and the forward. */
  function HandleGuestMessage(cfg: Config, kv: Kv, msg: Message, now: int, o: Oracle): (r: GuestOutcome<Kv>)
    requires ValidOracle(o)
    ensures r.disposition == Whitelisted <==> IsWhitelisted(kv, Sender(msg), now)
    ensures r.disposition == Blocked <==> !IsWhitelisted(kv, Sender(msg), now) && IsBlocked(kv, Sender(msg), now)
    ensures r.disposition == NeedsChallenge <==>
              && !IsWhitelisted(kv, Sender(msg), now) && !IsBlocked(kv, Sender(msg), now)
              && !IsVerified(kv, Sender(msg), now) && Present(Get(kv, AnswerKey(Sender(msg)), now)).None?
    ensures r.disposition == AwaitingAnswer <==>
              && !IsWhitelisted(kv, Sender(msg), now) && !IsBlocked(kv, Sender(msg), now)
              && !IsVerified(kv, Sender(msg), now) && Present(Get(kv, AnswerKey(Sender(msg)), now)).Some?
    ensures r.disposition == FraudSuspected <==>
              && !IsWhitelisted(kv, Sender(msg), now) && !IsBlocked(kv, Sender(msg), now)
              && IsVerified(kv, Sender(msg), now) && IsFraud(o.fraudList, Sender(msg))
    ensures Forward(cfg.adminUid, Sender(msg), msg.messageId) in r.calls <==> r.disposition in {Whitelisted, Verified}
    ensures r.disposition in {Whitelisted, Verified} ==>
              r == GuestOutcome(r.disposition, Relay(cfg, kv, msg, now, o).store, Relay(cfg, kv, msg, now, o).calls)
    ensures r.disposition == Verified ==> forall c :: c in r.calls ==> c == Forward(cfg.adminUid, Sender(msg), msg.messageId)
    ensures r.disposition == Blocked ==> r == GuestOutcome(Blocked, kv, [Send(Sender(msg), YouAreBlocked)])
    ensures r.disposition == AwaitingAnswer ==> r == GuestOutcome(AwaitingAnswer, kv, [Send(Sender(msg), UseTheButtons)])
    ensures r.disposition == FraudSuspected ==> r == GuestOutcome(FraudSuspected, kv, [Send(cfg.adminUid, FraudSuspect(Sender(msg)))])
    ensures r.disposition == NeedsChallenge ==>
              r == GuestOutcome(NeedsChallenge, IssueChallenge(kv, Sender(msg), o.draw, now).store, IssueChallenge(kv, Sender(msg), o.draw, now).calls)
  {
    var chat := Sender(msg);
    if IsWhitelisted(kv, chat, now) then
      var f := Relay(cfg, kv, msg, now, o);
      GuestOutcome(Whitelisted, f.store, f.calls)
    else if IsBlocked(kv, chat, now) then
      GuestOutcome(Blocked, kv, [Send(chat, YouAreBlocked)])
    else if !IsVerified(kv, chat, now) then
      if Present(Get(kv, AnswerKey(chat), now)).None? then
        var c := IssueChallenge(kv, chat, o.draw, now);
        GuestOutcome(NeedsChallenge, c.store, c.calls)
      else
        GuestOutcome(AwaitingAnswer, kv, [Send(chat, UseTheButtons)])
    else if IsFraud(o.fraudList, chat) then
      GuestOutcome(FraudSuspected, kv, [Send(cfg.adminUid, FraudSuspect(chat))])
    else
      var f := Relay(cfg, kv, msg, now, o);
      GuestOutcome(Verified, f.store, f.calls)
  }

  // ---------------------------------------------------------------------
  // Button presses
  // ---------------------------------------------------------------------

  /** `parseInt(stored || '0') + 1`, `None` standing for NaN: a missing
      counter counts as none so far, a decimal one as its value, and one
      that does not start with a digit stays NaN. */
  function NextAttempts(kv: Kv, user: string, now: int): (r: Option<int>)
    ensures Present(Get(kv, AttemptsKey(user), now)).None? ==> r == Some(1)
    ensures var stored := Present(Get(kv, AttemptsKey(user), now));
            stored.Some? ==> (r.None? <==> !IsDigit(stored.value[0]))
    ensures var stored := Present(Get(kv, AttemptsKey(user), now));
            stored.Some? && IsDigits(stored.value) ==> r == Some(DigitsValue(stored.value) + 1)
  {
    match ParseInt(Present(Get(kv, AttemptsKey(user), now)).GetOr("0"))
    case Some(n) => Some(n + 1)
    case None => None
  }

  /** onCallbackQuery over the keys. A counter that reads as NaN stays NaN
      and never reaches the ceiling. */
  function OnCallbackQuery(kv: Kv, q: CallbackQuery, now: int): (r: CallbackOutcome<Kv>)
    ensures r.verdict == Ignored <==> !StartsWith(q.data, PayloadPrefix)
    ensures r.verdict == Passed <==> IsCorrectChoice(q.data)
    ensures r.verdict == AutoBlocked <==>
              && StartsWith(q.data, PayloadPrefix) && !IsCorrectChoice(q.data)
              && NextAttempts(kv, IntToString(q.fromId), now).Some?
              && NextAttempts(kv, IntToString(q.fromId), now).value >= MaxVerifyAttempts
    ensures r.verdict == Ignored ==> r.store == kv && r.calls == []
    // passing: a three-day grant, and both challenge keys gone
    ensures r.verdict == Passed ==>
              forall t :: IsVerified(r.store, IntToString(q.fromId), t) <==> t < now + VerifiedTtl * MsPerSecond
    ensures r.verdict == Passed ==>
              forall t :: Get(r.store, AnswerKey(IntToString(q.fromId)), t).None? && Get(r.store, AttemptsKey(IntToString(q.fromId)), t).None?
    ensures r.verdict == Passed ==> r.calls == [Edit(IntToString(q.fromId), q.promptId, VerificationPassed)]
    // the ceiling: blocked for good, the answer gone, the counter left in place
    ensures r.verdict == AutoBlocked ==> forall t :: IsBlocked(r.store, IntToString(q.fromId), t)
    ensures r.verdict == AutoBlocked ==>
              forall t :: Get(r.store, AnswerKey(IntToString(q.fromId)), t).None?
                          && Get(r.store, AttemptsKey(IntToString(q.fromId)), t) == Get(kv, AttemptsKey(IntToString(q.fromId)), t)
    ensures r.verdict == AutoBlocked ==> r.calls == [Edit(IntToString(q.fromId), q.promptId, TooManyFailures)]
    ensures r.verdict == AutoBlocked ==>
              forall t :: Get(r.store, VerifiedKey(IntToString(q.fromId)), t) == Get(kv, VerifiedKey(IntToString(q.fromId)), t)
    // below the ceiling: the counter is rewritten with a fresh five minutes
    ensures r.verdict.Retry? ==>
              && r.verdict.attempts == NextAttempts(kv, IntToString(q.fromId), now)
              && (r.verdict.attempts.Some? ==> r.verdict.attempts.value < MaxVerifyAttempts)
              && r.calls == [AnswerAlert(q.id, WrongAnswer(RenderCount(r.verdict.attempts)))]
    ensures r.verdict.Retry? ==>
              forall t :: Get(r.store, AttemptsKey(IntToString(q.fromId)), t) ==
                            (if t < now + VerificationTtl * MsPerSecond then Some(RenderCount(r.verdict.attempts)) else None)
    ensures r.verdict.Retry? ==>
              forall k, t :: k != AttemptsKey(IntToString(q.fromId)) ==> Get(r.store, k, t) == Get(kv, k, t)
    // nothing else is touched, and only the presser can become blocked
    ensures forall k, t :: k !in PressKeys(IntToString(q.fromId)) ==> Get(r.store, k, t) == Get(kv, k, t)
    ensures forall u, t :: IsBlocked(r.store, u, t) <==> IsBlocked(kv, u, t) || (r.verdict == AutoBlocked && u == IntToString(q.fromId))
  {
    var user := IntToString(q.fromId);
    UserKeysDistinct(VerifiedFlag, user, ChallengeAnswer, user);
    UserKeysDistinct(VerifiedFlag, user, ChallengeAttempts, user);
    UserKeysDistinct(ChallengeAnswer, user, ChallengeAttempts, user);
    BlockedKeyFacts(user);
    if !StartsWith(q.data, PayloadPrefix) then
      CallbackOutcome(Ignored, kv, [])
    else if IsCorrectChoice(q.data) then
      var granted := Put(kv, VerifiedKey(user), "true", Some(VerifiedTtl), now);
      var passed := Delete(Delete(granted, AnswerKey(user)), AttemptsKey(user));
      PutKeepsBlocks(kv, VerifiedKey(user), "true", Some(VerifiedTtl), now);
      DeleteKeepsBlocks(granted, AnswerKey(user));
      DeleteKeepsBlocks(Delete(granted, AnswerKey(user)), AttemptsKey(user));
      CallbackOutcome(Passed, passed, [Edit(user, q.promptId, VerificationPassed)])
    else
      var attempts := NextAttempts(kv, user, now);
      if attempts.Some? && attempts.value >= MaxVerifyAttempts then
        var blocked := Put(Delete(kv, AnswerKey(user)), BlockedKey(user), "true", None, now);
        DeleteKeepsBlocks(kv, AnswerKey(user));
        BlockAdds(Delete(kv, AnswerKey(user)), user, now);
        CallbackOutcome(AutoBlocked, blocked, [Edit(user, q.promptId, TooManyFailures)])
      else
        var counted := Put(kv, AttemptsKey(user), RenderCount(attempts), Some(VerificationTtl), now);
        PutKeepsBlocks(kv, AttemptsKey(user), RenderCount(attempts), Some(VerificationTtl), now);
        CallbackOutcome(Retry(attempts), counted, [AnswerAlert(q.id, WrongAnswer(RenderCount(attempts)))])
  }

  /** Writing or deleting a key outside the `isblocked-` family leaves
      every blocked flag as it was. */
  lemma PutKeepsBlocks(kv: Kv, key: string, v: string, ttl: Option<int>, now: int)
    requires key != "" && key[0] != 'i'
    ensures forall u, t :: IsBlocked(Put(kv, key, v, ttl, now), u, t) == IsBlocked(kv, u, t)
  {
    forall u, t
      ensures IsBlocked(Put(kv, key, v, ttl, now), u, t) == IsBlocked(kv, u, t)
    {
      assert BlockedKey(u)[0] == 'i';
    }
  }

  lemma DeleteKeepsBlocks(kv: Kv, key: string)
    requires key != "" && key[0] != 'i'
    ensures forall u, t :: IsBlocked(Delete(kv, key), u, t) == IsBlocked(kv, u, t)
  {
    forall u, t
      ensures IsBlocked(Delete(kv, key), u, t) == IsBlocked(kv, u, t)
    {
      assert BlockedKey(u)[0] == 'i';
    }
  }

  /** Setting one user's flag to `'true'` blocks that user and no other. */
  lemma BlockAdds(kv: Kv, id: string, now: int)
    ensures forall u, t :: IsBlocked(Put(kv, BlockedKey(id), "true", None, now), u, t) <==> IsBlocked(kv, u, t) || u == id
  {
    forall u, t
      ensures IsBlocked(Put(kv, BlockedKey(id), "true", None, now), u, t) <==> IsBlocked(kv, u, t) || u == id
    {
      BlockedKeyInjective(u, id);
    }
  }

  /** What the callback handler needs about blocked-flag keys. */
  lemma BlockedKeyFacts(user: string)
    ensures forall u :: BlockedKey(u) != AnswerKey(user) && BlockedKey(u) != AttemptsKey(user) && BlockedKey(u) != VerifiedKey(user)
    ensures forall u :: BlockedKey(u) == BlockedKey(user) <==> u == user
  {
    forall u
      ensures BlockedKey(u) != AnswerKey(user) && BlockedKey(u) != AttemptsKey(user) && BlockedKey(u) != VerifiedKey(user)
      ensures BlockedKey(u) == BlockedKey(user) <==> u == user
    {
      BlockedKeyIsOwnFamily(u, ChallengeAnswer, user);
      BlockedKeyIsOwnFamily(u, ChallengeAttempts, user);
      BlockedKeyIsOwnFamily(u, VerifiedFlag, user);
      BlockedKeyInjective(u, user);
    }
  }

  // ---------------------------------------------------------------------
  // Operator commands
  // ---------------------------------------------------------------------

  /** The value stored for the replied-to message, as read. */
  function ReplyValue(kv: Kv, msg: Message, now: int): Option<string> {
    match msg.replyTo
    case Some(m) => Get(kv, MapKey(m), now)
    case None => None
  }

  /** handleAddWhitelist, handleRemoveWhitelist and handleCheckWhitelist
      once getTargetUserId has run: the flag and the list are updated
      together. */
  function WhitelistOutcome(cfg: Config, kv: Kv, action: WhitelistAction, target: Option<string>, now: int): (r: Outcome<Kv>)
    ensures target.None? ==> r == Outcome(kv, [Send(cfg.adminUid, Usage(action))])
    ensures target.Some? && action == AddAction && IdLike(target.value) ==>
              && (forall t :: IsWhitelisted(r.store, target.value, t))
              && Entries(r.store, now) == Entries(kv, now) + (if target.value in Entries(kv, now) then [] else [target.value])
    ensures target.Some? && action == RemoveAction && IdLike(target.value) ==>
              && (forall t :: !IsWhitelisted(r.store, target.value, t))
              && Entries(r.store, now) == Filtered(Entries(kv, now), target.value)
    ensures target.Some? && action == CheckAction ==>
              r == Outcome(kv, [Send(cfg.adminUid, WhitelistStatus(target.value, IsWhitelisted(kv, target.value, now)))])
    ensures target.Some? && IdLike(target.value) ==>
              forall k, t :: k != WhitelistKey(target.value) && k != WhitelistDataKey ==> Get(r.store, k, t) == Get(kv, k, t)
    ensures |r.calls| == 1 && r.calls[0].Send? && r.calls[0].chat == cfg.adminUid
  {
    match target
    case None => Outcome(kv, [Send(cfg.adminUid, Usage(action))])
    case Some(id) =>
      match action
      case AddAction =>
        var flagged := Put(kv, WhitelistKey(id), "true", None, now);
        if IdLike(id) then
          UserKeyIsNotListKey(WhitelistFlag, id);
          IdLikeHasNoSeparators(id);
          Outcome(AddEntry(flagged, id, now), [Send(cfg.adminUid, WhitelistAdded(id))])
        else
          Outcome(AddEntry(flagged, id, now), [Send(cfg.adminUid, WhitelistAdded(id))])
      case RemoveAction =>
        var unflagged := Delete(kv, WhitelistKey(id));
        if IdLike(id) then
          UserKeyIsNotListKey(WhitelistFlag, id);
          Outcome(RemoveEntry(unflagged, id, now), [Send(cfg.adminUid, WhitelistRemoved(id))])
        else
          Outcome(RemoveEntry(unflagged, id, now), [Send(cfg.adminUid, WhitelistRemoved(id))])
      case CheckAction =>
        Outcome(kv, [Send(cfg.adminUid, WhitelistStatus(id, IsWhitelisted(kv, id, now)))])
  }

  /** handleListWhitelist: the entries of the list, in their order. */
  function ListOutcome(cfg: Config, kv: Kv, now: int): (r: Outcome<Kv>)
    ensures r.store == kv && |r.calls| == 1
    ensures Entries(kv, now) == [] <==> r.calls[0] == Send(cfg.adminUid, WhitelistEmpty)
    ensures Entries(kv, now) != [] ==> r.calls[0] == Send(cfg.adminUid, WhitelistListing(Entries(kv, now)))
  {
    var ids := Entries(kv, now);
    if ids == [] then Outcome(kv, [Send(cfg.adminUid, WhitelistEmpty)])
    else Outcome(kv, [Send(cfg.adminUid, WhitelistListing(ids))])
  }

  /** handleBlock, handleUnBlock and checkBlock: the target is the sender
      mapped to the replied-to message; `/unblock` deletes only the flag. */
  function BlockOutcome(cfg: Config, kv: Kv, cmd: Command, target: Option<string>, now: int): (r: Outcome<Kv>)
    requires cmd in {BlockCommand, UnblockCommand, CheckBlockCommand}
    ensures target.None? ==> r == Outcome(kv, [Send(cfg.adminUid, NoTargetUid)])
    ensures cmd == BlockCommand && target == Some(cfg.adminUid) ==> r == Outcome(kv, [Send(cfg.adminUid, CannotBlockSelf)])
    ensures cmd == BlockCommand && target.Some? && target.value != cfg.adminUid ==>
              forall t :: IsBlocked(r.store, target.value, t)
    ensures cmd == UnblockCommand && target.Some? ==> forall t :: !IsBlocked(r.store, target.value, t)
    ensures cmd == CheckBlockCommand && target.Some? ==>
              r == Outcome(kv, [Send(cfg.adminUid, BlockStatus(target.value, IsBlocked(kv, target.value, now)))])
    ensures target.Some? ==> forall k, t :: k != BlockedKey(target.value) ==> Get(r.store, k, t) == Get(kv, k, t)
    ensures |r.calls| == 1 && r.calls[0].Send? && r.calls[0].chat == cfg.adminUid
  {
    match target
    case None => Outcome(kv, [Send(cfg.adminUid, NoTargetUid)])
    case Some(id) =>
      if cmd == BlockCommand then
        if id == cfg.adminUid then Outcome(kv, [Send(cfg.adminUid, CannotBlockSelf)])
        else Outcome(Put(kv, BlockedKey(id), "true", None, now), [Send(cfg.adminUid, BlockDone(id))])
      else if cmd == UnblockCommand then
        Outcome(Delete(kv, BlockedKey(id)), [Send(cfg.adminUid, UnblockDone(id))])
      else
        Outcome(kv, [Send(cfg.adminUid, BlockStatus(id, IsBlocked(kv, id, now)))])
  }

  /** The operator branch of onMessage, as in the SQL-backed worker; an
      empty stored mapping counts as missing for the commands but is passed
      on as is by the reply copy. */
  function HandleAdmin(cfg: Config, kv: Kv, msg: Message, now: int): (r: Outcome<Kv>)
    ensures ParseCommand(msg.text).WhitelistCommand? ==>
              r == WhitelistOutcome(cfg, kv, ParseCommand(msg.text).action,
                                    TargetUserId(msg.text.GetOr(""), Present(ReplyValue(kv, msg, now))), now)
    ensures ParseCommand(msg.text) == ListWhitelist ==> r == ListOutcome(cfg, kv, now)
    ensures !ParseCommand(msg.text).WhitelistCommand? && ParseCommand(msg.text) != ListWhitelist && msg.replyTo.None? ==>
              r == Outcome(kv, [Send(cfg.adminUid, AdminHelp)])
    ensures ParseCommand(msg.text) in {BlockCommand, UnblockCommand, CheckBlockCommand} && msg.replyTo.Some? ==>
              r == BlockOutcome(cfg, kv, ParseCommand(msg.text), Present(ReplyValue(kv, msg, now)), now)
    ensures ParseCommand(msg.text) == NotACommand && msg.replyTo.Some? ==>
              r == Outcome(kv, [Copy(ReplyValue(kv, msg, now), Sender(msg), msg.messageId)])
  {
    var cmd := ParseCommand(msg.text);
    match cmd
    case WhitelistCommand(action, _) =>
      WhitelistOutcome(cfg, kv, action, TargetUserId(msg.text.GetOr(""), Present(ReplyValue(kv, msg, now))), now)
    case ListWhitelist => ListOutcome(cfg, kv, now)
    case NotACommand =>
      if msg.replyTo.None? then Outcome(kv, [Send(cfg.adminUid, AdminHelp)])
      else Outcome(kv, [Copy(ReplyValue(kv, msg, now), Sender(msg), msg.messageId)])
    case _ =>
      if msg.replyTo.None? then Outcome(kv, [Send(cfg.adminUid, AdminHelp)])
      else BlockOutcome(cfg, kv, cmd, Present(ReplyValue(kv, msg, now)), now)
  }

  /** onMessage */
  function OnMessage(cfg: Config, kv: Kv, msg: Message, now: int, o: Oracle): (r: Outcome<Kv>)
    requires ValidOracle(o)
    ensures msg.text == Some("/start") ==> r == Outcome(kv, [Send(Sender(msg), Greeting)])
    ensures msg.text != Some("/start") && Sender(msg) == cfg.adminUid ==> r == HandleAdmin(cfg, kv, msg, now)
    ensures msg.text != Some("/start") && Sender(msg) != cfg.adminUid ==>
              r.store == HandleGuestMessage(cfg, kv, msg, now, o).store && r.calls == HandleGuestMessage(cfg, kv, msg, now, o).calls
  {
    if msg.text == Some("/start") then Outcome(kv, [Send(Sender(msg), Greeting)])
    else if Sender(msg) == cfg.adminUid then HandleAdmin(cfg, kv, msg, now)
    else
      var g := HandleGuestMessage(cfg, kv, msg, now, o);
      Outcome(g.store, g.calls)
  }

  /** onUpdate: a message goes to onMessage, a button press to
      onCallbackQuery. A press writes only the presser's own keys, and
      blocks no one but the presser. */
  function OnUpdate(cfg: Config, kv: Kv, u: Update, now: int, o: Oracle): (r: Outcome<Kv>)
    requires ValidOracle(o)
    ensures u.MessageUpdate? ==> r == OnMessage(cfg, kv, u.message, now, o)
    ensures u.CallbackUpdate? ==>
              && r.store == OnCallbackQuery(kv, u.query, now).store && r.calls == OnCallbackQuery(kv, u.query, now).calls
              && (forall k, t :: k !in PressKeys(IntToString(u.query.fromId)) ==> Get(r.store, k, t) == Get(kv, k, t))
              && (forall v, t :: IsBlocked(r.store, v, t) ==> IsBlocked(kv, v, t) || v == IntToString(u.query.fromId))
  {
    match u
    case MessageUpdate(msg) => OnMessage(cfg, kv, msg, now, o)
    case CallbackUpdate(q) =>
      var c := OnCallbackQuery(kv, q, now);
      Outcome(c.store, c.calls)
  }

  // ---------------------------------------------------------------------
  // Properties across updates
  // ---------------------------------------------------------------------

  /** A whitelisted sender's message is handled the same whatever else the
      store holds: the same calls, and only the message mapping written. */
  lemma WhitelistIgnoresOtherState(cfg: Config, kv1: Kv, kv2: Kv, msg: Message, now: int, o: Oracle)
    requires ValidOracle(o)
    requires IsWhitelisted(kv1, Sender(msg), now) && IsWhitelisted(kv2, Sender(msg), now)
    ensures HandleGuestMessage(cfg, kv1, msg, now, o).disposition == Whitelisted
    ensures HandleGuestMessage(cfg, kv1, msg, now, o).calls == HandleGuestMessage(cfg, kv2, msg, now, o).calls
    ensures forall k, t :: (o.forwarded.None? || k != MapKey(o.forwarded.value)) ==>
              Get(HandleGuestMessage(cfg, kv1, msg, now, o).store, k, t) == Get(kv1, k, t)
  {
  }

  /** A guest who is neither whitelisted, blocked nor verified and has no
      pending answer: their next message is challenged. */
  predicate Unchallenged(kv: Kv, id: string, now: int) {
    && !IsWhitelisted(kv, id, now) && !IsBlocked(kv, id, now)
    && !IsVerified(kv, id, now) && Present(Get(kv, AnswerKey(id), now)).None?
  }

  /** While the answer key lives, further messages only get the reminder. */
  lemma ChallengeIsNotReissued(cfg: Config, kv: Kv, msg: Message, now: int, o: Oracle, later: Message, t: int, o2: Oracle)
    requires ValidOracle(o) && ValidOracle(o2)
    requires Unchallenged(kv, Sender(msg), now)
    requires later.chatId == msg.chatId && now <= t < now + VerificationTtl * MsPerSecond
    ensures HandleGuestMessage(cfg, HandleGuestMessage(cfg, kv, msg, now, o).store, later, t, o2).disposition == AwaitingAnswer
  {
    var s := Sender(msg);
    var kv1 := HandleGuestMessage(cfg, kv, msg, now, o).store;
    var answer := GenerateMathProblem(HideWorking, o.draw.time, o.draw.pos1, o.draw.pos2, o.draw.addValue).answer;
    assert Get(kv1, AnswerKey(s), t) == Some(answer);
    UserKeysDistinct(WhitelistFlag, s, ChallengeAnswer, s);
    UserKeysDistinct(WhitelistFlag, s, ChallengeAttempts, s);
    UserKeysDistinct(BlockedFlag, s, ChallengeAnswer, s);
    UserKeysDistinct(BlockedFlag, s, ChallengeAttempts, s);
    UserKeysDistinct(VerifiedFlag, s, ChallengeAnswer, s);
    UserKeysDistinct(VerifiedFlag, s, ChallengeAttempts, s);
    GetLater(kv, WhitelistKey(s), now, t, "true");
    GetLater(kv, BlockedKey(s), now, t, "true");
  }

  /** One button press, as a transition of the store at a given time. */
  type Step = (Kv, CallbackQuery, int) -> Kv

  /** The store transition of `onCallbackQuery`. */
  const Press: Step := (kv: Kv, q: CallbackQuery, now: int) => OnCallbackQuery(kv, q, now).store

  /** Applying a run of presses in order, each at its own time. */
  function RunWith(step: Step, kv: Kv, qs: seq<CallbackQuery>, times: seq<int>): Kv
    requires |qs| == |times|
    decreases |qs|
  {
    if |qs| == 0 then kv else RunWith(step, step(kv, qs[0], times[0]), qs[1..], times[1..])
  }

  /** Applying a run of button presses in order, each at its own time. */
  function PressAll(kv: Kv, qs: seq<CallbackQuery>, times: seq<int>): Kv
    requires |qs| == |times|
  {
    RunWith(Press, kv, qs, times)
  }

  predicate WrongPress(q: CallbackQuery, user: int) {
    q.fromId == user && StartsWith(q.data, PayloadPrefix) && !IsCorrectChoice(q.data)
  }

  /** Each press comes within five minutes of the one before it. */
  predicate Paced(times: seq<int>)
    decreases |times|
  {
    |times| <= 1 || (times[1] < times[0] + VerificationTtl * MsPerSecond && Paced(times[1..]))
  }

  /** `u` is blocked at every time. */
  ghost predicate BlockedForGood(kv: Kv, u: string) {
    forall t :: IsBlocked(kv, u, t)
  }

  /** A press never lifts a permanent block of `u`. */
  ghost predicate KeepsBlocks(step: Step, u: string) {
    forall s: Kv, q: CallbackQuery, now: int {:trigger step(s, q, now)} ::
      BlockedForGood(s, u) ==> BlockedForGood(step(s, q, now), u)
  }

  /** After the press `q` at `now` on `s`, the counter reads `b + 1` for
      the next five minutes and every user's blocked flag is the old one. */
  ghost predicate CountedPress(step: Step, user: int, s: Kv, q: CallbackQuery, now: int, b: nat) {
    && (forall u, t :: Get(step(s, q, now), BlockedKey(u), t) == Get(s, BlockedKey(u), t))
    && (forall t :: t < now + VerificationTtl * MsPerSecond ==>
          Get(step(s, q, now), AttemptsKey(IntToString(user)), t) == Some(NatToString(b + 1)))
  }

  /** A wrong answer by `user` below the ceiling adds one to the counter
      for the next five minutes and leaves every blocked flag alone. */
  ghost predicate CountsWrongPresses(step: Step, user: int) {
    forall s: Kv, q: CallbackQuery, now: int, b: nat {:trigger CountedPress(step, user, s, q, now, b)} ::
      WrongPress(q, user) && Get(s, AttemptsKey(IntToString(user)), now) == Some(NatToString(b)) && b + 1 < MaxVerifyAttempts ==>
        CountedPress(step, user, s, q, now, b)
  }

  /** The wrong answer by `user` that brings the counter to ten blocks
      them for good. */
  ghost predicate BlocksAtCeiling(step: Step, user: int) {
    forall s: Kv, q: CallbackQuery, now: int {:trigger BlockedForGood(step(s, q, now), IntToString(user))} ::
      WrongPress(q, user) && Get(s, AttemptsKey(IntToString(user)), now) == Some(NatToString(MaxVerifyAttempts - 1)) ==>
        BlockedForGood(step(s, q, now), IntToString(user))
  }

  /** `onCallbackQuery` has the three properties the run lemmas rest on. */
  lemma PressSteps(user: int, u: string)
    ensures KeepsBlocks(Press, u)
    ensures CountsWrongPresses(Press, user)
    ensures BlocksAtCeiling(Press, user)
  {
    forall s: Kv, q: CallbackQuery, now: int, b: nat |
      WrongPress(q, user) && Get(s, AttemptsKey(IntToString(user)), now) == Some(NatToString(b)) && b + 1 < MaxVerifyAttempts
      ensures CountedPress(Press, user, s, q, now, b)
    {
      WrongPressStep(s, user, q, now, b);
    }
    forall s: Kv, q: CallbackQuery, now: int |
      WrongPress(q, user) && Get(s, AttemptsKey(IntToString(user)), now) == Some(NatToString(MaxVerifyAttempts - 1))
      ensures BlockedForGood(Press(s, q, now), IntToString(user))
    {
      CeilingPress(s, user, q, now, MaxVerifyAttempts - 1);
    }
  }

  lemma KeptBlock(step: Step, u: string, s: Kv, q: CallbackQuery, now: int)
    requires KeepsBlocks(step, u) && BlockedForGood(s, u)
    ensures BlockedForGood(step(s, q, now), u)
  {
  }

  lemma {:induction false} RunKeepsBlocks(step: Step, kv: Kv, qs: seq<CallbackQuery>, times: seq<int>, u: string)
    requires |qs| == |times| && KeepsBlocks(step, u)
    requires BlockedForGood(kv, u)
    ensures BlockedForGood(RunWith(step, kv, qs, times), u)
    decreases |qs|
  {
    if |qs| > 0 {
      KeptBlock(step, u, kv, qs[0], times[0]);
      RunKeepsBlocks(step, step(kv, qs[0], times[0]), qs[1..], times[1..], u);
    }
  }

  lemma PressesKeepBlocks(kv: Kv, qs: seq<CallbackQuery>, times: seq<int>, u: string)
    requires |qs| == |times|
    requires forall t :: IsBlocked(kv, u, t)
    ensures forall t :: IsBlocked(PressAll(kv, qs, times), u, t)
  {
    PressSteps(0, u);
    RunKeepsBlocks(Press, kv, qs, times, u);
  }

  /** One wrong answer below the ceiling: the counter reads one more for
      the next five minutes, and no blocked flag is touched. */
  lemma WrongPressStep(kv: Kv, user: int, q: CallbackQuery, now: int, a: nat)
    requires WrongPress(q, user)
    requires Get(kv, AttemptsKey(IntToString(user)), now) == Some(NatToString(a))
    requires a + 1 < MaxVerifyAttempts
    ensures forall u, t :: Get(OnCallbackQuery(kv, q, now).store, BlockedKey(u), t) == Get(kv, BlockedKey(u), t)
    ensures forall t :: t < now + VerificationTtl * MsPerSecond ==>
              Get(OnCallbackQuery(kv, q, now).store, AttemptsKey(IntToString(user)), t) == Some(NatToString(a + 1))
  {
    var id := IntToString(user);
    NextAttemptsAfter(kv, id, now, a);
    BlockedKeyFacts(id);
  }

  /** A stored count `a` reads back as `a`, so the next count is `a + 1`. */
  lemma NextAttemptsAfter(kv: Kv, id: string, now: int, a: nat)
    requires Get(kv, AttemptsKey(id), now) == Some(NatToString(a))
    ensures NextAttempts(kv, id, now) == Some(a + 1)
  {
    ParseIntOfNatToString(a);
    assert Present(Get(kv, AttemptsKey(id), now)).GetOr("0") == NatToString(a);
  }

  /** Below the ceiling, paced wrong answers each add one to the counter,
      which therefore never expires, and leave the presser's blocked flag
      alone. */
  lemma WrongPressesCount(kv: Kv, user: int, qs: seq<CallbackQuery>, times: seq<int>, a: nat)
    requires |qs| == |times| && Paced(times)
    requires forall k :: 0 <= k < |qs| ==> WrongPress(qs[k], user)
    requires |qs| > 0 ==> Get(kv, AttemptsKey(IntToString(user)), times[0]) == Some(NatToString(a))
    requires a + |qs| < MaxVerifyAttempts
    ensures forall t :: Get(PressAll(kv, qs, times), BlockedKey(IntToString(user)), t) == Get(kv, BlockedKey(IntToString(user)), t)
    ensures |qs| > 0 ==>
              forall t :: t < times[|times| - 1] + VerificationTtl * MsPerSecond ==>
                Get(PressAll(kv, qs, times), AttemptsKey(IntToString(user)), t) == Some(NatToString(a + |qs|))
  {
    AllWrongOf(qs, user);
    PressSteps(user, IntToString(user));
    RunCounts(Press, kv, user, qs, times, a);
  }

  /** The same presses block nobody: every user's blocked flag, and so
      every user's block status, is as before at every time. */
  lemma WrongPressesBlockNobody(kv: Kv, user: int, qs: seq<CallbackQuery>, times: seq<int>, a: nat)
    requires |qs| == |times| && Paced(times)
    requires forall k :: 0 <= k < |qs| ==> WrongPress(qs[k], user)
    requires |qs| > 0 ==> Get(kv, AttemptsKey(IntToString(user)), times[0]) == Some(NatToString(a))
    requires a + |qs| < MaxVerifyAttempts
    ensures forall u, t :: IsBlocked(PressAll(kv, qs, times), u, t) <==> IsBlocked(kv, u, t)
  {
    AllWrongOf(qs, user);
    PressSteps(user, IntToString(user));
    RunCounts(Press, kv, user, qs, times, a);
    forall u, t ensures IsBlocked(PressAll(kv, qs, times), u, t) <==> IsBlocked(kv, u, t) {
      assert Get(PressAll(kv, qs, times), BlockedKey(u), t) == Get(kv, BlockedKey(u), t);
    }
  }

  /** Every press of the run is a wrong answer by `user`. */
  predicate AllWrong(qs: seq<CallbackQuery>, user: int)
    decreases |qs|
  {
    |qs| == 0 || (WrongPress(qs[0], user) && AllWrong(qs[1..], user))
  }

  lemma {:induction false} AllWrongOf(qs: seq<CallbackQuery>, user: int)
    requires forall k :: 0 <= k < |qs| ==> WrongPress(qs[k], user)
    ensures AllWrong(qs, user)
    decreases |qs|
  {
    if |qs| > 0 {
      assert forall k :: 0 <= k < |qs[1..]| ==> qs[1..][k] == qs[k + 1];
      AllWrongOf(qs[1..], user);
    }
  }

  /** A paced run of wrong answers by `user`, the first of which finds the
      counter at `a`. */
  predicate WrongRun(kv: Kv, user: int, qs: seq<CallbackQuery>, times: seq<int>, a: nat) {
    && |qs| == |times| && Paced(times) && AllWrong(qs, user)
    && (|qs| > 0 ==> Get(kv, AttemptsKey(IntToString(user)), times[0]) == Some(NatToString(a)))
  }

  /** The rest of a run ends where the whole run ends. */
  lemma LastOfTail(times: seq<int>)
    requires |times| > 1
    ensures times[1..][|times[1..]| - 1] == times[|times| - 1]
  {
  }

  /** `WrongPressesCount` for any step with the per-press property, by
      induction on the run. */
  lemma {:induction false} RunCounts(step: Step, kv: Kv, user: int, qs: seq<CallbackQuery>, times: seq<int>, a: nat)
    requires CountsWrongPresses(step, user)
    requires WrongRun(kv, user, qs, times, a) && a + |qs| < MaxVerifyAttempts
    ensures forall u, t :: Get(RunWith(step, kv, qs, times), BlockedKey(u), t) == Get(kv, BlockedKey(u), t)
    ensures |qs| > 0 ==>
              forall t :: t < times[|times| - 1] + VerificationTtl * MsPerSecond ==>
                Get(RunWith(step, kv, qs, times), AttemptsKey(IntToString(user)), t) == Some(NatToString(a + |qs|))
    decreases |qs|
  {
    if |qs| > 0 {
      var next := step(kv, qs[0], times[0]);
      assert CountedPress(step, user, kv, qs[0], times[0], a);
      if |qs| > 1 {
        LastOfTail(times);
      }
      RunCounts(step, next, user, qs[1..], times[1..], a + 1);
    }
  }

  /** The wrong answer that brings the counter to ten blocks the presser
      for good. */
  lemma CeilingPress(kv: Kv, user: int, q: CallbackQuery, now: int, a: nat)
    requires WrongPress(q, user)
    requires Get(kv, AttemptsKey(IntToString(user)), now) == Some(NatToString(a))
    requires a < MaxVerifyAttempts <= a + 1
    ensures forall t :: IsBlocked(OnCallbackQuery(kv, q, now).store, IntToString(user), t)
  {
    var id := IntToString(user);
    ParseIntOfNatToString(a);
    assert Present(Get(kv, AttemptsKey(id), now)).GetOr("0") == NatToString(a);
    assert NextAttempts(kv, id, now) == Some(a + 1);
  }

  /** The paced wrong answer that brings the counter to ten blocks the
      presser for good. */
  lemma CeilingBlocks(kv: Kv, user: int, qs: seq<CallbackQuery>, times: seq<int>, a: nat)
    requires |qs| == |times| && Paced(times)
    requires forall k :: 0 <= k < |qs| ==> WrongPress(qs[k], user)
    requires |qs| > 0 && Get(kv, AttemptsKey(IntToString(user)), times[0]) == Some(NatToString(a))
    requires a < MaxVerifyAttempts <= a + |qs|
    ensures forall t :: IsBlocked(PressAll(kv, qs, times), IntToString(user), t)
  {
    AllWrongOf(qs, user);
    PressSteps(user, IntToString(user));
    RunBlocks(Press, kv, user, qs, times, a);
  }

  /** `CeilingBlocks` for any step with the per-press properties, by
      induction on the run. */
  lemma {:induction false} RunBlocks(step: Step, kv: Kv, user: int, qs: seq<CallbackQuery>, times: seq<int>, a: nat)
    requires CountsWrongPresses(step, user) && BlocksAtCeiling(step, user) && KeepsBlocks(step, IntToString(user))
    requires WrongRun(kv, user, qs, times, a) && |qs| > 0
    requires a < MaxVerifyAttempts <= a + |qs|
    ensures BlockedForGood(RunWith(step, kv, qs, times), IntToString(user))
    decreases |qs|
  {
    var next := step(kv, qs[0], times[0]);
    if a + 1 >= MaxVerifyAttempts {
      assert BlockedForGood(next, IntToString(user));
      RunKeepsBlocks(step, next, qs[1..], times[1..], IntToString(user));
    } else {
      assert CountedPress(step, user, kv, qs[0], times[0], a);
      RunBlocks(step, next, user, qs[1..], times[1..], a + 1);
    }
  }

  /** From a fresh challenge, paced wrong answers starting inside its five
      minutes block the guest exactly when there are ten or more of them. */
  lemma FreshChallengeCeiling(cfg: Config, kv: Kv, msg: Message, now: int, o: Oracle,
                              qs: seq<CallbackQuery>, times: seq<int>, t: int)
    requires ValidOracle(o)
    requires Unchallenged(kv, Sender(msg), now)
    requires |qs| == |times| && Paced(times)
    requires forall k :: 0 <= k < |qs| ==> WrongPress(qs[k], msg.chatId)
    requires |times| > 0 ==> now <= times[0] < now + VerificationTtl * MsPerSecond
    requires now <= t
    ensures (IsBlocked(PressAll(HandleGuestMessage(cfg, kv, msg, now, o).store, qs, times), Sender(msg), t)
             <==> |qs| >= MaxVerifyAttempts)
  {
    var kv1 := HandleGuestMessage(cfg, kv, msg, now, o).store;
    var s := Sender(msg);
    assert |qs| > 0 ==> Get(kv1, AttemptsKey(s), times[0]) == Some(NatToString(0));
    if |qs| >= MaxVerifyAttempts {
      CeilingBlocks(kv1, msg.chatId, qs, times, 0);
    } else {
      WrongPressesCount(kv1, msg.chatId, qs, times, 0);
      UserKeysDistinct(BlockedFlag, s, ChallengeAnswer, s);
      UserKeysDistinct(BlockedFlag, s, ChallengeAttempts, s);
      assert Get(kv1, BlockedKey(s), t) == Get(kv, BlockedKey(s), t);
      GetLater(kv, BlockedKey(s), now, t, "true");
    }
  }

  /** After a successful answer the guest's messages are no longer held
      back for three days: they are forwarded or flagged as fraud. */
  lemma PassedUnlocksRelay(cfg: Config, kv: Kv, q: CallbackQuery, now: int, msg: Message, t: int, o: Oracle)
    requires ValidOracle(o)
    requires IsCorrectChoice(q.data)
    requires msg.chatId == q.fromId && !IsBlocked(kv, Sender(msg), t)
    requires t < now + VerifiedTtl * MsPerSecond
    ensures HandleGuestMessage(cfg, OnCallbackQuery(kv, q, now).store, msg, t, o).disposition in {Whitelisted, FraudSuspected, Verified}
  {
    var kv1 := OnCallbackQuery(kv, q, now).store;
    assert IsVerified(kv1, Sender(msg), t);
    assert !IsBlocked(kv1, Sender(msg), t);
  }

  /** The only way out of the block list is the operator's `/unblock` in
      reply to a message mapped to the blocked user. */
  predicate UnblocksVia(cfg: Config, kv: Kv, u: Update, id: string, now: int) {
    && u.MessageUpdate?
    && u.message.text != Some("/start")
    && Sender(u.message) == cfg.adminUid
    && ParseCommand(u.message.text) == UnblockCommand
    && u.message.replyTo.Some?
    && Present(ReplyValue(kv, u.message, now)) == Some(id)
  }

  lemma BlockIsSticky(cfg: Config, kv: Kv, u: Update, now: int, o: Oracle, id: string)
    requires ValidOracle(o) && IdLike(id)
    requires IsBlocked(kv, id, now)
    ensures !IsBlocked(OnUpdate(cfg, kv, u, now, o).store, id, now) ==> UnblocksVia(cfg, kv, u, id, now)
  {
    if u.MessageUpdate? {
      var msg := u.message;
      if msg.text != Some("/start") {
        if Sender(msg) != cfg.adminUid {
          var g := HandleGuestMessage(cfg, kv, msg, now, o);
          if o.forwarded.Some? {
            UserKeyIsNotMapKey(BlockedFlag, id, o.forwarded.value);
          }
          if g.disposition == NeedsChallenge {
            UserKeysDistinct(BlockedFlag, id, ChallengeAnswer, Sender(msg));
            UserKeysDistinct(BlockedFlag, id, ChallengeAttempts, Sender(msg));
          }
        } else {
          var cmd := ParseCommand(msg.text);
          var target := TargetUserId(msg.text.GetOr(""), Present(ReplyValue(kv, msg, now)));
          if cmd.WhitelistCommand? && target.Some? {
            BlockedKeyIsOwnFamily(id, WhitelistFlag, target.value);
            assert Get(WhitelistOutcome(cfg, kv, cmd.action, target, now).store, BlockedKey(id), now) == Get(kv, BlockedKey(id), now) by {
              WhitelistKeepsBlocks(cfg, kv, cmd.action, target, now, id);
            }
          }
          if cmd in {BlockCommand, UnblockCommand, CheckBlockCommand} && msg.replyTo.Some? {
            var bt := Present(ReplyValue(kv, msg, now));
            if bt.Some? && bt.value != id {
              BlockedKeyInjective(bt.value, id);
            }
          }
        }
      }
    }
  }

  /** The whitelist commands touch only the flag and list keys. */
  lemma WhitelistKeepsBlocks(cfg: Config, kv: Kv, action: WhitelistAction, target: Option<string>, now: int, id: string)
    ensures forall t :: Get(WhitelistOutcome(cfg, kv, action, target, now).store, BlockedKey(id), t) == Get(kv, BlockedKey(id), t)
  {
    if target.Some? {
      var w := target.value;
      BlockedKeyIsOwnFamily(id, WhitelistFlag, w);
      match action
      case AddAction =>
        var flagged := Put(kv, WhitelistKey(w), "true", None, now);
        assert forall t :: Get(AddEntry(flagged, w, now), BlockedKey(id), t) == Get(flagged, BlockedKey(id), t);
      case RemoveAction =>
        var unflagged := Delete(kv, WhitelistKey(w));
        assert forall t :: Get(RemoveEntry(unflagged, w, now), BlockedKey(id), t) == Get(unflagged, BlockedKey(id), t);
      case CheckAction =>
    }
  }

  /** `/block` in reply to a forwarded message blocks its sender, whose
      next message (unless whitelisted) is refused. */
  lemma BlockByReply(cfg: Config, kv: Kv, cmd: Message, now: int, o: Oracle, later: Message, t: int, o2: Oracle)
    requires ValidOracle(o) && ValidOracle(o2)
    requires Sender(cmd) == cfg.adminUid && cmd.text == Some("/block") && cmd.replyTo.Some?
    requires Present(ReplyValue(kv, cmd, now)) == Some(Sender(later)) && Sender(later) != cfg.adminUid
    requires !IsWhitelisted(kv, Sender(later), t)
    ensures HandleGuestMessage(cfg, OnMessage(cfg, kv, cmd, now, o).store, later, t, o2).disposition == Blocked
  {
    assert ParseCommand(cmd.text) == BlockCommand;
    var s := Sender(later);
    var kv1 := OnMessage(cfg, kv, cmd, now, o).store;
    assert IsBlocked(kv1, s, t);
    UserKeysDistinct(BlockedFlag, s, WhitelistFlag, s);
    assert !IsWhitelisted(kv1, s, t);
  }

  /** A reply to a forwarded message reaches the guest who sent it. */
  lemma ReplyReachesSender(cfg: Config, kv: Kv, msg: Message, now: int, o: Oracle, reply: Message, t: int)
    requires ValidOracle(o)
    requires msg.text != Some("/start") && Sender(msg) != cfg.adminUid
    requires HandleGuestMessage(cfg, kv, msg, now, o).disposition in {Whitelisted, Verified}
    requires o.forwarded.Some?
    requires Sender(reply) == cfg.adminUid && reply.replyTo == o.forwarded
    requires reply.text != Some("/start") && ParseCommand(reply.text) == NotACommand
    ensures OnMessage(cfg, OnMessage(cfg, kv, msg, now, o).store, reply, t, o).calls ==
              [Copy(Some(Sender(msg)), cfg.adminUid, reply.messageId)]
  {
    var kv1 := OnMessage(cfg, kv, msg, now, o).store;
    assert kv1 == Relay(cfg, kv, msg, now, o).store;
    assert ReplyValue(kv1, reply, t) == Some(Sender(msg));
  }

  /** `/addwhite <uid>` sets the flag and lists the uid exactly once. */
  lemma AddWhiteByArgument(cfg: Config, kv: Kv, cmd: Message, now: int, o: Oracle, uid: string)
    requires ValidOracle(o)
    requires Sender(cmd) == cfg.adminUid
    requires cmd.text.Some? && ParseCommand(cmd.text) == WhitelistCommand(AddAction, Some(uid))
    ensures IsWhitelisted(OnMessage(cfg, kv, cmd, now, o).store, uid, now)
    ensures uid in Entries(OnMessage(cfg, kv, cmd, now, o).store, now)
    ensures NoDuplicates(Entries(kv, now)) ==> NoDuplicates(Entries(OnMessage(cfg, kv, cmd, now, o).store, now))
  {
    AddWhiteDispatch(cfg, kv, cmd, now, o, uid);
  }

  /** `/addwhite <uid>` from the operator reaches the whitelist handler with
      that uid as its target. */
  lemma AddWhiteDispatch(cfg: Config, kv: Kv, cmd: Message, now: int, o: Oracle, uid: string)
    requires ValidOracle(o)
    requires Sender(cmd) == cfg.adminUid
    requires cmd.text.Some? && ParseCommand(cmd.text) == WhitelistCommand(AddAction, Some(uid))
    ensures IdLike(uid)
    ensures OnMessage(cfg, kv, cmd, now, o) == WhitelistOutcome(cfg, kv, AddAction, Some(uid), now)
  {
    var t := cmd.text.value;
    assert CommandArg("addwhite", t) == Some(Some(uid));
    assert IsCommandName("addwhite");
    CommandArgAgrees("addwhite", t);
    CommandArgIsIdLike("addwhite", t);
    assert TargetUserId(t, Present(ReplyValue(kv, cmd, now))) == Some(uid);
    assert cmd.text != Some("/start");
  }

  /** The argument the whitelist commands capture is a non-empty string of
      digits, so it has the shape of an id. */
  lemma CommandArgIsIdLike(name: string, t: string)
    requires CommandArg(name, t).Some? && CommandArg(name, t).value.Some?
    ensures IdLike(CommandArg(name, t).value.value)
  {
  }
}

=== FILE: puzzle.dfy ===
/** The human-verification puzzle: a two-digit answer derived from the
    clock, six multiple-choice options around it, and the inline keyboard
    whose callback payloads carry `verify_<option>_<answer>`.

    The clock reading, the two digit positions, the add value, the decoy
    draws and the order of the final shuffle are all injected: they are the
    values `Intl.DateTimeFormat` and `Math.random` would have produced. */
module Puzzle {
  import opened Wrappers
  import opened Strings

  const TimeDigitCount := 6
  const AddValueMin := 1
  const AddValueMax := 9
  const OptionCount := 6
  /** A decoy is `correct + floor(random * 20) - 10`. */
  const DecoyDrawRange := 20
  const DecoyOffset := 10
  const PayloadPrefix := "verify_"

  // ---------------------------------------------------------------------
  // The injected random choices
  // ---------------------------------------------------------------------

  /** The clock as `HHMMSS`, the two positions, the add value, the decoy
      draws `floor(random * 20)` in the order they are made, and the order
      the final shuffle puts the six options in. */
  datatype Draw = Draw(time: string, pos1: nat, pos2: nat, addValue: nat,
                       decoys: seq<int>, order: seq<nat>)

  predicate ValidTime(time: string) {
    |time| == TimeDigitCount && IsDigits(time)
  }

  predicate ValidPositions(pos1: nat, pos2: nat) {
    pos1 < TimeDigitCount && pos2 < TimeDigitCount && pos1 != pos2
  }

  predicate ValidAddValue(v: nat) {
    AddValueMin <= v <= AddValueMax
  }

  predicate ValidDecoyDraws(draws: seq<int>) {
    forall k :: 0 <= k < |draws| ==> 0 <= draws[k] < DecoyDrawRange
  }

  /** `order` lists every index below `n` exactly once. */
  predicate IsPermutation(order: seq<nat>, n: nat) {
    && |order| == n
    && (forall k :: 0 <= k < n ==> order[k] < n)
    && (forall i, j :: 0 <= i < j < n ==> order[i] != order[j])
    && (forall v :: 0 <= v < n ==> v in order)
  }

  predicate ValidDraw(d: Draw) {
    && ValidTime(d.time)
    && ValidPositions(d.pos1, d.pos2)
    && ValidAddValue(d.addValue)
    && ValidDecoyDraws(d.decoys)
    && IsPermutation(d.order, OptionCount)
  }

  // ---------------------------------------------------------------------
  // generateMathProblem
  // ---------------------------------------------------------------------

  /** How much of the computation a question line shows. The SQL-backed
      worker prints each digit, the sum and the result; the key-value
      worker prints only the position and the add value. */
  datatype Style = ShowWorking | HideWorking

  datatype Working = Working(digit: nat, sum: nat, result: nat)

  /** One line of the question: the 1-indexed digit position and, in the
      `ShowWorking` style, the worked computation. */
  datatype Line = Line(position: nat, working: Option<Working>)

  /** The question text as data: the clock `HH:MM:SS`, the add value and
      the two lines. */
  datatype Question = Question(clock: string, addValue: nat, first: Line, second: Line)

  datatype Problem = Problem(question: Question, answer: string)

  /** `(digit + addValue) % 10` for the digit at `pos`. */
  function ShiftedDigit(time: string, pos: nat, v: nat): (r: nat)
    requires ValidTime(time) && pos < TimeDigitCount
    ensures r < 10
  {
    (DigitValue(time[pos]) + v) % 10
  }

  function Clock(time: string): string
    requires ValidTime(time)
  {
    time[..2] + ":" + time[2..4] + ":" + time[4..]
  }

  function QuestionLine(style: Style, time: string, pos: nat, v: nat): Line
    requires ValidTime(time) && pos < TimeDigitCount
  {
    var digit := DigitValue(time[pos]);
    Line(pos + 1, if style == ShowWorking then Some(Working(digit, digit + v, ShiftedDigit(time, pos, v))) else None)
  }

  /** What a reader of the question works out: take the digits of the
      clock, pick the two 1-indexed positions, add the add value modulo 10.
      `None` when the question is not readable that way. */
  function Solve(q: Question): Option<string> {
    var c := q.clock;
    if |c| == 8 && c[2] == ':' && c[5] == ':' then
      var t := c[..2] + c[3..5] + c[6..];
      if IsDigits(t) && 1 <= q.first.position <= 6 && 1 <= q.second.position <= 6 then
        Some([DigitChar((DigitValue(t[q.first.position - 1]) + q.addValue) % 10),
              DigitChar((DigitValue(t[q.second.position - 1]) + q.addValue) % 10)])
      else None
    else None
  }

  /** The answer a question gives away outright: the two printed results,
      when both lines show their working. */
  function Revealed(q: Question): Option<string> {
    match (q.first.working, q.second.working)
    case (Some(w1), Some(w2)) =>
      if w1.result < 10 && w2.result < 10 then Some([DigitChar(w1.result), DigitChar(w2.result)]) else None
    case _ => None
  }

  /** generateMathProblem: the answer is the two shifted digits side by
      side (a leading zero kept); the question carries everything needed to
      solve it; only the `ShowWorking` style prints the answer itself. */
  function GenerateMathProblem(style: Style, time: string, pos1: nat, pos2: nat, v: nat): (p: Problem)
    requires ValidTime(time) && ValidPositions(pos1, pos2) && ValidAddValue(v)
    ensures |p.answer| == 2 && IsDigits(p.answer)
    ensures DigitValue(p.answer[0]) == (DigitValue(time[pos1]) + v) % 10
    ensures DigitValue(p.answer[1]) == (DigitValue(time[pos2]) + v) % 10
    ensures Solve(p.question) == Some(p.answer)
    ensures p.question.first.position == pos1 + 1 && p.question.second.position == pos2 + 1
    ensures p.question.addValue == v
    ensures style == ShowWorking ==> Revealed(p.question) == Some(p.answer)
    ensures style == HideWorking ==> p.question.first.working.None? && p.question.second.working.None?
  {
    var clock := Clock(time);
    assert clock[..2] + clock[3..5] + clock[6..] == time;
    var q := Question(clock, v, QuestionLine(style, time, pos1, v), QuestionLine(style, time, pos2, v));
    Problem(q, [DigitChar(ShiftedDigit(time, pos1, v)), DigitChar(ShiftedDigit(time, pos2, v))])
  }

  /** The worked example: 14:05:09, indices 0 and 5 (the question shows
      them as digits 1 and 6, counting from one), add value 7. */
  lemma ExampleAnswer()
    ensures GenerateMathProblem(HideWorking, "140509", 0, 5, 7).answer == "86"
  {
  }

  // ---------------------------------------------------------------------
  // parseInt(answer)
  // ---------------------------------------------------------------------

  /** `parseInt(answer)` for a two-digit answer. Rendering it back gives
      the answer only when the answer has no leading zero. */
  function AnswerValue(a: string): (r: nat)
    requires |a| == 2 && IsDigits(a)
    ensures r < 100
    ensures ParseInt(a) == Some(r)
    ensures NatToString(r) == a <==> a[0] != '0'
  {
    TwoDigitValue(a);
    DigitValue(a[0]) * 10 + DigitValue(a[1])
  }

  lemma TwoDigitValue(a: string)
    requires |a| == 2 && IsDigits(a)
    ensures ParseInt(a) == Some(DigitValue(a[0]) * 10 + DigitValue(a[1]))
    ensures NatToString(DigitValue(a[0]) * 10 + DigitValue(a[1])) == a <==> a[0] != '0'
  {
    var r := DigitValue(a[0]) * 10 + DigitValue(a[1]);
    LeadingDigitsOfDigits(a);
    assert a[..2] == a && a[..|a| - 1] == [a[0]] && [a[0]][..0] == [];
    assert DigitsValue([a[0]]) == DigitValue(a[0]);
    assert DigitsValue(a) == DigitValue(a[0]) * 10 + DigitValue(a[1]);
    if a[0] != '0' {
      assert r / 10 == DigitValue(a[0]) && r % 10 == DigitValue(a[1]);
      DigitCharOfValue(a[0]);
      DigitCharOfValue(a[1]);
      assert NatToString(r) == [a[0]] + [a[1]];
    }
  }

  // ---------------------------------------------------------------------
  // generateOptions
  // ---------------------------------------------------------------------

  predicate Distinct(xs: seq<int>) {
    forall i, j :: 0 <= i < j < |xs| ==> xs[i] != xs[j]
  }

  /** A value generateOptions accepts next to the correct answer `c`. */
  predicate IsDecoy(c: int, x: int) {
    x != c && c - DecoyOffset <= x <= c - DecoyOffset + DecoyDrawRange - 1 && x > 0
  }

  /** The option list while it is being built: `c` first, then distinct
      decoys, at most six in all. */
  predicate PartialOptions(c: int, opts: seq<int>) {
    && 1 <= |opts| <= OptionCount
    && opts[0] == c
    && Distinct(opts)
    && forall k :: 1 <= k < |opts| ==> IsDecoy(c, opts[k])
  }

  /** The `while (options.length < 6)` loop of generateOptions, fed with
      the draws in order: a candidate is kept when it differs from the
      answer, is not already an option and is positive. Stops at six
      options or when the draws run out. */
  function CollectOptions(c: int, opts: seq<int>, draws: seq<int>): (r: seq<int>)
    requires PartialOptions(c, opts)
    requires ValidDecoyDraws(draws)
    ensures PartialOptions(c, r)
    ensures opts <= r
    ensures |r| - |opts| <= |draws|
    // the next acceptable candidate is kept, right after the options so far
    ensures |opts| < OptionCount && |draws| > 0 && IsDecoy(c, c + draws[0] - DecoyOffset)
            && c + draws[0] - DecoyOffset !in opts ==>
              |r| > |opts| && r[|opts|] == c + draws[0] - DecoyOffset
    // a loop that ran out of draws kept every acceptable candidate
    ensures |r| < OptionCount ==>
              forall k :: 0 <= k < |draws| && IsDecoy(c, c + draws[k] - DecoyOffset) ==> c + draws[k] - DecoyOffset in r
    decreases |draws|
  {
    if |opts| == OptionCount || |draws| == 0 then opts
    else
      var w := c + draws[0] - DecoyOffset;
      var next := if w != c && w !in opts && w > 0 then opts + [w] else opts;
      assert Distinct(next);
      var r := CollectOptions(c, next, draws[1..]);
      KeptCandidates(c, opts, draws, next, r);
      r
  }

  /** One step of the loop: what the rest of the draws keep, together
      with the first draw's fate, accounts for every acceptable candidate. */
  lemma KeptCandidates(c: int, opts: seq<int>, draws: seq<int>, next: seq<int>, r: seq<int>)
    requires |draws| > 0
    requires next == if IsDecoy(c, c + draws[0] - DecoyOffset) && c + draws[0] - DecoyOffset !in opts
                     then opts + [c + draws[0] - DecoyOffset] else opts
    requires next <= r
    requires |r| < OptionCount ==>
               forall k :: 0 <= k < |draws[1..]| && IsDecoy(c, c + draws[1..][k] - DecoyOffset) ==> c + draws[1..][k] - DecoyOffset in r
    ensures |r| < OptionCount ==>
              forall k :: 0 <= k < |draws| && IsDecoy(c, c + draws[k] - DecoyOffset) ==> c + draws[k] - DecoyOffset in r
  {
    var w := c + draws[0] - DecoyOffset;
    if IsDecoy(c, w) {
      assert w in next;
      var i :| 0 <= i < |next| && next[i] == w;
      assert r[i] == w;
    }
    if |r| < OptionCount {
      forall k | 0 <= k < |draws| && IsDecoy(c, c + draws[k] - DecoyOffset)
        ensures c + draws[k] - DecoyOffset in r
      {
        if k > 0 {
          assert draws[k] == draws[1..][k - 1];
        }
      }
    }
  }

  /** The options rearranged by the injected shuffle order. */
  function Permute(xs: seq<int>, order: seq<nat>): (r: seq<int>)
    requires forall k :: 0 <= k < |order| ==> order[k] < |xs|
    ensures |r| == |order|
    ensures forall k :: 0 <= k < |r| ==> r[k] == xs[order[k]]
  {
    seq(|order|, k requires 0 <= k < |order| => xs[order[k]])
  }

  lemma PermutePreserves(xs: seq<int>, order: seq<nat>)
    requires Distinct(xs) && IsPermutation(order, |xs|)
    ensures Distinct(Permute(xs, order))
    ensures forall x :: x in Permute(xs, order) <==> x in xs
  {
    var r := Permute(xs, order);
    forall i, j | 0 <= i < j < |r|
      ensures r[i] != r[j]
    {
      var a, b := order[i], order[j];
      if a < b {
        assert xs[a] != xs[b];
      } else {
        assert xs[b] != xs[a];
      }
    }
    forall x | x in xs
      ensures x in r
    {
      var i :| 0 <= i < |xs| && xs[i] == x;
      assert i in order;
      var k :| 0 <= k < |order| && order[k] == i;
      assert r[k] == x;
    }
  }

  /** generateOptions(c): when the draws supply five decoys, six distinct
      options holding `c` once, every other one a positive value in
      [c-10, c+9], in the injected order; `None` while the loop would still
      be drawing. */
  function GenerateOptions(c: int, draws: seq<int>, order: seq<nat>): (r: Option<seq<int>>)
    requires ValidDecoyDraws(draws)
    requires IsPermutation(order, OptionCount)
    ensures r.Some? <==> |CollectOptions(c, [c], draws)| == OptionCount
    ensures r.Some? ==> |r.value| == OptionCount && Distinct(r.value)
    ensures r.Some? ==> c in r.value
    ensures r.Some? ==> forall x :: x in r.value && x != c ==> IsDecoy(c, x)
    ensures r.Some? ==> forall x :: x in r.value <==> x in CollectOptions(c, [c], draws)
  {
    assert PartialOptions(c, [c]);
    var opts := CollectOptions(c, [c], draws);
    if |opts| < OptionCount then None
    else
      PermutePreserves(opts, order);
      assert forall x :: x in opts && x != c ==> IsDecoy(c, x) by {
        forall x | x in opts && x != c
          ensures IsDecoy(c, x)
        {
          var k :| 0 <= k < |opts| && opts[k] == x;
        }
      }
      Some(Permute(opts, order))
  }

  // ---------------------------------------------------------------------
  // The inline keyboard and the callback payload
  // ---------------------------------------------------------------------

  datatype Button = Button(text: int, data: string)

  /** `verify_${option}_${answer}`: the option rendered as a number, the
      answer as the raw two-character string. */
  function ButtonData(option: int, answer: string): string {
    PayloadPrefix + IntToString(option) + "_" + answer
  }

  /** A button's payload destructures back to its rendered option and the
      raw answer. */
  lemma ParseButtonData(option: int, answer: string)
    requires '_' !in answer
    ensures ParsePayload(ButtonData(option, answer)) == Some(Choice(IntToString(option), Some(answer)))
  {
    IdLikeHasNoSeparators(IntToString(option));
    ParseTriple(IntToString(option), answer);
  }

  /** Two rows of three buttons, in option order. */
  function Keyboard(options: seq<int>, answer: string): (rows: seq<seq<Button>>)
    requires |options| == OptionCount
    ensures |rows| == 2 && |rows[0]| == 3 && |rows[1]| == 3
    ensures forall k :: 0 <= k < OptionCount ==>
      rows[k / 3][k % 3] == Button(options[k], ButtonData(options[k], answer))
  {
    Grid(seq(OptionCount, k requires 0 <= k < OptionCount => Button(options[k], ButtonData(options[k], answer))))
  }

  /** Six buttons laid out as two rows of three, in order. */
  function Grid(cells: seq<Button>): (rows: seq<seq<Button>>)
    requires |cells| == OptionCount
    ensures |rows| == 2 && |rows[0]| == 3 && |rows[1]| == 3
    ensures forall k :: 0 <= k < OptionCount ==> rows[k / 3][k % 3] == cells[k]
  {
    assert forall k :: 0 <= k < 3 ==> k / 3 == 0 && k % 3 == k;
    assert forall k :: 3 <= k < 6 ==> k / 3 == 1 && k % 3 == k - 3;
    [cells[..3], cells[3..]]
  }

  /** The `[, userAnswer, correctAnswer]` destructuring of `data.split('_')`:
      the chosen part always exists, the correct part may be `undefined`. */
  datatype Choice = Choice(chosen: string, correct: Option<string>)

  /** `None` for data not starting with `verify_`. Otherwise the chosen
      part runs from after `verify_` to the next `_`, and the correct part,
      present only when such a `_` follows, runs up to the one after. */
  function ParsePayload(data: string): (r: Option<Choice>)
    ensures r.Some? <==> StartsWith(data, PayloadPrefix)
    ensures r.Some? ==> '_' !in r.value.chosen && StartsWith(data, PayloadPrefix + r.value.chosen)
    ensures r.Some? ==> (r.value.correct.Some? <==> '_' in data[|PayloadPrefix|..])
    ensures r.Some? && r.value.correct.Some? ==>
              '_' !in r.value.correct.value && StartsWith(data, PayloadPrefix + r.value.chosen + "_" + r.value.correct.value)
    ensures r.Some? ==> var n := |PayloadPrefix + r.value.chosen|; n == |data| || data[n] == '_'
    ensures r.Some? && r.value.correct.Some? ==>
              var m := |PayloadPrefix + r.value.chosen + "_" + r.value.correct.value|; m == |data| || data[m] == '_'
  {
    if !StartsWith(data, PayloadPrefix) then None
    else
      PayloadPieces(data);
      var parts := Split(data, '_');
      Some(Choice(parts[1], if |parts| > 2 then Some(parts[2]) else None))
  }

  /** How `split('_')` cuts a payload that starts with `verify_`. */
  lemma PayloadPieces(data: string)
    requires StartsWith(data, PayloadPrefix)
    ensures |Split(data, '_')| >= 2
    ensures StartsWith(data, PayloadPrefix + Split(data, '_')[1])
    ensures |Split(data, '_')| > 2 <==> '_' in data[|PayloadPrefix|..]
    ensures |Split(data, '_')| > 2 ==>
              StartsWith(data, PayloadPrefix + Split(data, '_')[1] + "_" + Split(data, '_')[2])
    ensures var n := |PayloadPrefix + Split(data, '_')[1]|; n == |data| || data[n] == '_'
    ensures |Split(data, '_')| > 2 ==>
              var m := |PayloadPrefix + Split(data, '_')[1] + "_" + Split(data, '_')[2]|; m == |data| || data[m] == '_'
  {
    PayloadFirstPiece(data);
    if |Split(data, '_')| > 2 {
      PayloadSecondPiece(data);
    }
  }

  lemma PayloadFirstPiece(data: string)
    requires StartsWith(data, PayloadPrefix)
    ensures |Split(data, '_')| >= 2
    ensures StartsWith(data, PayloadPrefix + Split(data, '_')[1])
    ensures |Split(data, '_')| > 2 <==> '_' in data[|PayloadPrefix|..]
    ensures var n := |PayloadPrefix + Split(data, '_')[1]|; n == |data| || data[n] == '_'
  {
    PayloadSplit(data);
    var rest := data[|PayloadPrefix|..];
    var pieces := Split(rest, '_');
    assert Split(data, '_')[1] == pieces[0];
    StartsWithAppend(data, PayloadPrefix, pieces[0]);
    if |pieces| >= 2 {
      assert data[|PayloadPrefix| + |pieces[0]|] == rest[|pieces[0]|];
    }
  }

  lemma PayloadSecondPiece(data: string)
    requires StartsWith(data, PayloadPrefix)
    requires |Split(data, '_')| > 2
    ensures StartsWith(data, PayloadPrefix + Split(data, '_')[1] + "_" + Split(data, '_')[2])
    ensures var m := |PayloadPrefix + Split(data, '_')[1] + "_" + Split(data, '_')[2]|; m == |data| || data[m] == '_'
  {
    var rest := data[|PayloadPrefix|..];
    var a, b := Split(data, '_')[1], Split(data, '_')[2];
    assert |Split(rest, '_')| >= 2 && a == Split(rest, '_')[0] && b == Split(rest, '_')[1] by {
      PayloadSplit(data);
    }
    SecondPiece(rest, a, b);
    PrefixedPiece(data, PayloadPrefix, a + "_" + b, '_');
    AppendPieces(PayloadPrefix, a, "_", b);
  }

  /** The first piece of a payload's split is the "verify" of its prefix. */
  lemma PayloadSplit(data: string)
    requires StartsWith(data, PayloadPrefix)
    ensures Split(data, '_') == ["verify"] + Split(data[|PayloadPrefix|..], '_')
  {
    var rest := data[|PayloadPrefix|..];
    assert data == "verify" + ['_'] + rest;
    SplitAfterPiece("verify", '_', rest);
  }

  lemma SecondPiece(rest: string, a: string, b: string)
    requires |Split(rest, '_')| >= 2 && a == Split(rest, '_')[0] && b == Split(rest, '_')[1]
    ensures StartsWith(rest, a + "_" + b)
    ensures |a + "_" + b| == |rest| || rest[|a + "_" + b|] == '_'
  {
    var tail := rest[|a| + 1..];
    assert StartsWith(rest, a + "_") by {
      assert rest[..|a| + 1] == rest[..|a|] + [rest[|a|]];
    }
    assert StartsWith(tail, b) && (|b| == |tail| || tail[|b|] == '_') by {
      SplitRest(rest, '_');
      assert Split(rest, '_')[1..][0] == b;
    }
    PrefixedPiece(rest, a + "_", b, '_');
  }


  /** `userAnswer === correctAnswer`: the payload starts with
      `verify_x_x` for the chosen part `x`; a payload with no second part
      never passes. */
  predicate IsCorrectChoice(data: string): (r: bool)
    ensures r ==> ParsePayload(data).Some? &&
                  StartsWith(data, PayloadPrefix + ParsePayload(data).value.chosen + "_" + ParsePayload(data).value.chosen)
    ensures StartsWith(data, PayloadPrefix) && '_' !in data[|PayloadPrefix|..] ==> !r
  {
    match ParsePayload(data)
    case Some(ch) => ch.correct == Some(ch.chosen)
    case None => false
  }

  /** The payload reads `verify_x_x`, alone or followed by further
      `_`-separated pieces. */
  predicate CorrectShape(data: string, x: string) {
    data == PayloadPrefix + x + "_" + x || StartsWith(data, PayloadPrefix + x + "_" + x + "_")
  }

  /** A press passes exactly when the payload's first two pieces after
      `verify` are one and the same '_'-free text. */
  lemma CorrectChoiceShape(data: string)
    ensures IsCorrectChoice(data) <==> exists x :: '_' !in x && CorrectShape(data, x)
  {
    if IsCorrectChoice(data) {
      var x := ParsePayload(data).value.chosen;
      var p := PayloadPrefix + x + "_" + x;
      if |p| < |data| {
        assert data[..|p + "_"|] == data[..|p|] + [data[|p|]];
      }
      assert CorrectShape(data, x);
    }
    if exists x :: '_' !in x && CorrectShape(data, x) {
      var x :| '_' !in x && CorrectShape(data, x);
      ShapedIsCorrect(data, x);
    }
  }

  lemma ShapedIsCorrect(data: string, x: string)
    requires '_' !in x && CorrectShape(data, x)
    ensures ParsePayload(data) == Some(Choice(x, Some(x)))
  {
    var i := |PayloadPrefix|;
    ShapeAt(data, x);
    var c := ParsePayload(data).value.chosen;
    ChosenAt(data, c);
    DelimitedPieceUnique(data, i, c, x, '_');
    assert ParsePayload(data).value.correct.Some? by {
      assert data[i..][|x|] == '_';
    }
    var d := ParsePayload(data).value.correct.value;
    CorrectAt(data, x, d);
    DelimitedPieceUnique(data, i + |x| + 1, d, x, '_');
  }


  /** Where the two copies of `x` sit in a payload of that shape, by index. */
  lemma ShapeAt(data: string, x: string)
    requires CorrectShape(data, x)
    ensures var i, j := |PayloadPrefix|, |PayloadPrefix| + |x| + 1;
      && StartsWith(data, PayloadPrefix) && i + |x| < |data| && data[i..i + |x|] == x && data[i + |x|] == '_'
      && j + |x| <= |data| && data[j..j + |x|] == x && (j + |x| == |data| || data[j + |x|] == '_')
  {
    var p := PayloadPrefix + x + "_" + x;
    if data != p {
      StartsWithShorter(data, p, "_");
      StartsWithAt(data, p, "_");
    }
    StartsWithShorter(data, PayloadPrefix + x + "_", x);
    StartsWithAt(data, PayloadPrefix + x + "_", x);
    StartsWithShorter(data, PayloadPrefix + x, "_");
    StartsWithAt(data, PayloadPrefix + x, "_");
    StartsWithShorter(data, PayloadPrefix, x);
    StartsWithAt(data, PayloadPrefix, x);
  }


  /** Where the parsed chosen part sits in the payload, by index. */
  lemma ChosenAt(data: string, c: string)
    requires ParsePayload(data).Some? && c == ParsePayload(data).value.chosen
    ensures var i := |PayloadPrefix|;
      && i + |c| <= |data| && data[i..i + |c|] == c && '_' !in c
      && (i + |c| == |data| || data[i + |c|] == '_')
  {
    StartsWithAt(data, PayloadPrefix, c);
  }

  /** Where the parsed correct part sits in the payload, by index. */
  lemma CorrectAt(data: string, c: string, d: string)
    requires ParsePayload(data) == Some(Choice(c, Some(d)))
    ensures var j := |PayloadPrefix| + |c| + 1;
      && j + |d| <= |data| && data[j..j + |d|] == d && '_' !in d
      && (j + |d| == |data| || data[j + |d|] == '_')
  {
    StartsWithAt(data, PayloadPrefix + c + "_", d);
  }



  lemma IdLikeHasNoSeparators(s: string)
    requires IdLike(s)
    ensures '_' !in s && ',' !in s
  {
    forall k | 0 <= k < |s|
      ensures s[k] != '_' && s[k] != ','
    {
      assert IsIdChar(s[k]);
    }
  }

  lemma ParseTriple(x: string, a: string)
    requires '_' !in x && '_' !in a
    ensures ParsePayload(PayloadPrefix + x + "_" + a) == Some(Choice(x, Some(a)))
  {
    var data := PayloadPrefix + x + "_" + a;
    assert data[..7] == PayloadPrefix;
    assert data == "verify" + ['_'] + (x + ['_'] + a);
    SplitAfterPiece("verify", '_', x + ['_'] + a);
    SplitAfterPiece(x, '_', a);
    SplitWithoutSeparator(a, '_');
  }

  /** A button of the keyboard verifies exactly when it carries the correct
      option and the answer has no leading zero. */
  lemma ButtonAcceptedIff(o: int, a: string)
    requires |a| == 2 && IsDigits(a)
    ensures IsCorrectChoice(ButtonData(o, a)) <==> o == AnswerValue(a) && a[0] != '0'
  {
    assert '_' !in a by {
      assert IsDigit(a[0]) && IsDigit(a[1]);
      assert a == [a[0], a[1]];
    }
    ParseButtonData(o, a);
    if IntToString(o) == a {
      assert o >= 0 by {
        assert IsDigit(a[0]);
      }
      ParseIntOfNatToString(o);
    }
  }

  /** As written, a challenge whose answer starts with '0' cannot be
      passed: no button of its keyboard carries matching parts. */
  lemma LeadingZeroAnswerUnsolvable(options: seq<int>, a: string)
    requires |options| == OptionCount
    requires |a| == 2 && IsDigits(a) && a[0] == '0'
    ensures forall k :: 0 <= k < OptionCount ==> !IsCorrectChoice(Keyboard(options, a)[k / 3][k % 3].data)
  {
    forall k | 0 <= k < OptionCount
      ensures !IsCorrectChoice(ButtonData(options[k], a))
    {
      ButtonAcceptedIff(options[k], a);
    }
  }

  /** The clock 14:05:09 with indices 1 and 0 (shown as digits 2 and 1,
      counting from one) and add value 6 gives the answer "07", which no
      button can match. */
  lemma LeadingZeroExample(o: int)
    ensures GenerateMathProblem(HideWorking, "140509", 1, 0, 6).answer == "07"
    ensures !IsCorrectChoice(ButtonData(o, "07"))
  {
    assert GenerateMathProblem(HideWorking, "140509", 1, 0, 6).answer == "07";
    ButtonAcceptedIff(o, "07");
  }

  /** The payload with the correct part rendered the same way as the
      option: `verify_${option}_${parseInt(answer)}`. */
  function FixedButtonData(option: int, correct: int): string {
    PayloadPrefix + IntToString(option) + "_" + IntToString(correct)
  }

  function FixedKeyboard(options: seq<int>, correct: int): (rows: seq<seq<Button>>)
    requires |options| == OptionCount
    ensures |rows| == 2 && |rows[0]| == 3 && |rows[1]| == 3
    ensures forall k :: 0 <= k < OptionCount ==>
      rows[k / 3][k % 3] == Button(options[k], FixedButtonData(options[k], correct))
  {
    Grid(seq(OptionCount, k requires 0 <= k < OptionCount => Button(options[k], FixedButtonData(options[k], correct))))
  }

  lemma FixedButtonAcceptedIff(o: int, c: int)
    ensures IsCorrectChoice(FixedButtonData(o, c)) <==> o == c
  {
    IdLikeHasNoSeparators(IntToString(o));
    IdLikeHasNoSeparators(IntToString(c));
    ParseTriple(IntToString(o), IntToString(c));
    IntToStringInjective(o, c);
  }

  /** With the corrected payload, of the six generated options exactly the
      button carrying the answer verifies, leading zero or not. */
  lemma FixedKeyboardAcceptsOnlyCorrect(time: string, pos1: nat, pos2: nat, v: nat, draws: seq<int>, order: seq<nat>)
    requires ValidTime(time) && ValidPositions(pos1, pos2) && ValidAddValue(v)
    requires ValidDecoyDraws(draws) && IsPermutation(order, OptionCount)
    requires GenerateOptions(AnswerValue(GenerateMathProblem(HideWorking, time, pos1, pos2, v).answer), draws, order).Some?
    ensures
      var c := AnswerValue(GenerateMathProblem(HideWorking, time, pos1, pos2, v).answer);
      var options := GenerateOptions(c, draws, order).value;
      && (exists k :: 0 <= k < OptionCount && options[k] == c)
      && |options| == OptionCount && AcceptsExactly(FixedKeyboard(options, c), c)
  {
    var c := AnswerValue(GenerateMathProblem(HideWorking, time, pos1, pos2, v).answer);
    FixedKeyboardAccepts(GenerateOptions(c, draws, order).value, c);
  }

  /** With the corrected payload, whatever the six options, exactly the
      buttons showing `c` pass. */
  lemma FixedKeyboardAccepts(options: seq<int>, c: int)
    requires |options| == OptionCount
    ensures AcceptsExactly(FixedKeyboard(options, c), c)
  {
    var rows: seq<seq<Button>> := FixedKeyboard(options, c);
    forall i, j | 0 <= i < 2 && 0 <= j < 3
      ensures IsCorrectChoice(rows[i][j].data) <==> rows[i][j].text == c
    {
      var k := 3 * i + j;
      assert k / 3 == i && k % 3 == j by {
        if i == 0 {
          assert k == j;
        } else {
          assert k == 3 + j;
        }
      }
      FixedButtonAcceptedIff(options[k], c);
    }
  }

  /** Of the six buttons, exactly those showing `c` pass. */
  predicate AcceptsExactly(rows: seq<seq<Button>>, c: int)
    requires |rows| == 2 && |rows[0]| == 3 && |rows[1]| == 3
  {
    forall i, j :: 0 <= i < 2 && 0 <= j < 3 ==> (IsCorrectChoice(rows[i][j].data) <==> rows[i][j].text == c)
  }
}

=== FILE: strings.dfy ===
/** The JavaScript string behaviour the relay leans on: decimal rendering of
    numbers (`n.toString()`, template literals), `parseInt` on decimal
    strings, `String.prototype.split` and `Array.prototype.join` with a
    one-character separator, and the character classes `\d`, `\w` and `\s`
    of its regular expressions. */
module Strings {
  import opened Wrappers

  // ---------------------------------------------------------------------
  // Character classes
  // ---------------------------------------------------------------------

  /** `\d` */
  predicate IsDigit(c: char) {
    '0' <= c <= '9'
  }

  predicate IsDigits(s: string) {
    forall k :: 0 <= k < |s| ==> IsDigit(s[k])
  }

  /** `\w`: ASCII letters, digits and the underscore. */
  predicate IsWordChar(c: char) {
    ('a' <= c <= 'z') || ('A' <= c <= 'Z') || IsDigit(c) || c == '_'
  }

  /** `\s`: the white space and line terminators of ECMAScript. */
  predicate IsWhitespace(c: char) {
    || ('\U{9}' <= c <= '\U{D}')
    || c == ' '
    || c == '\U{A0}'
    || c == '\U{1680}'
    || ('\U{2000}' <= c <= '\U{200A}')
    || c == '\U{2028}'
    || c == '\U{2029}'
    || c == '\U{202F}'
    || c == '\U{205F}'
    || c == '\U{3000}'
    || c == '\U{FEFF}'
  }

  /** The characters of a rendered Telegram id: decimal digits and the
      minus sign of a negative (group) chat id. None of them is a letter,
      a comma or an underscore. */
  predicate IsIdChar(c: char) {
    IsDigit(c) || c == '-'
  }

  /** A string shaped like a Telegram id as the relay renders or captures
      it: non-empty, made of digits and minus signs only. */
  predicate IdLike(s: string) {
    |s| > 0 && forall k :: 0 <= k < |s| ==> IsIdChar(s[k])
  }

  function DigitValue(c: char): (d: nat)
    requires IsDigit(c)
    ensures d < 10
  {
    c as int - '0' as int
  }

  function DigitChar(d: nat): (c: char)
    requires d < 10
    ensures IsDigit(c) && DigitValue(c) == d
  {
    ('0' as int + d) as char
  }

  lemma DigitCharOfValue(c: char)
    requires IsDigit(c)
    ensures DigitChar(DigitValue(c)) == c
  {
  }

  // ---------------------------------------------------------------------
  // Decimal rendering and parseInt
  // ---------------------------------------------------------------------

  /** `n.toString()` for a non-negative integer: the shortest decimal
      rendering, so it starts with '0' only when it is "0". */
  function NatToString(n: nat): (s: string)
    ensures |s| >= 1 && IsDigits(s)
    ensures s[0] == '0' <==> n == 0
    ensures n < 10 <==> |s| == 1
    decreases n
  {
    if n < 10 then [DigitChar(n)]
    else NatToString(n / 10) + [DigitChar(n % 10)]
  }

  /** `i.toString()` for any integer (the ids and counters of the relay are
      all within the range JavaScript numbers render exactly). */
  function IntToString(i: int): (s: string)
    ensures IdLike(s)
    ensures i < 0 <==> s[0] == '-'
  {
    if i < 0 then "-" + NatToString(-i) else NatToString(i)
  }

  /** The value of a string of decimal digits, most significant first. */
  function DigitsValue(s: string): nat
    requires IsDigits(s)
    decreases |s|
  {
    if |s| == 0 then 0
    else DigitsValue(s[..|s| - 1]) * 10 + DigitValue(s[|s| - 1])
  }

  /** The length of the run of decimal digits at the start of `s`. */
  function LeadingDigits(s: string): (k: nat)
    ensures k <= |s| && IsDigits(s[..k])
    ensures k < |s| ==> !IsDigit(s[k])
    decreases |s|
  {
    if |s| == 0 || !IsDigit(s[0]) then 0
    else
      var k := 1 + LeadingDigits(s[1..]);
      assert s[..k] == [s[0]] + s[1..][..k - 1];
      k
  }

  /** `parseInt(s)` for the strings the relay parses: the value of the
      leading run of decimal digits, `None` (NaN) when there is none. */
  function ParseInt(s: string): (r: Option<nat>)
    ensures r.Some? <==> |s| > 0 && IsDigit(s[0])
    ensures |s| > 0 && IsDigits(s) ==> r == Some(DigitsValue(s))
  {
    var k := LeadingDigits(s);
    LeadingDigitsOfDigits(s);
    assert s[..|s|] == s;
    if k == 0 then None else Some(DigitsValue(s[..k]))
  }

  lemma {:induction false} DigitsValueOfNatToString(n: nat)
    ensures DigitsValue(NatToString(n)) == n
    decreases n
  {
    if n >= 10 {
      var prefix := NatToString(n / 10);
      var s := prefix + [DigitChar(n % 10)];
      assert s[..|s| - 1] == prefix;
      DigitsValueOfNatToString(n / 10);
    }
  }

  lemma LeadingDigitsOfDigits(s: string)
    ensures IsDigits(s) ==> LeadingDigits(s) == |s|
    decreases |s|
  {
    if |s| > 0 {
      LeadingDigitsOfDigits(s[1..]);
    }
  }

  /** Parsing a rendered counter gives the counter back. */
  lemma ParseIntOfNatToString(n: nat)
    ensures ParseInt(NatToString(n)) == Some(n)
  {
    var s := NatToString(n);
    LeadingDigitsOfDigits(s);
    assert s[..|s|] == s;
    DigitsValueOfNatToString(n);
  }

  lemma NatToStringInjective(m: nat, n: nat)
    ensures NatToString(m) == NatToString(n) <==> m == n
  {
    if NatToString(m) == NatToString(n) {
      ParseIntOfNatToString(m);
      ParseIntOfNatToString(n);
    }
  }

  lemma IntToStringInjective(i: int, j: int)
    ensures IntToString(i) == IntToString(j) <==> i == j
  {
    if IntToString(i) == IntToString(j) && i < 0 && j < 0 {
      assert IntToString(i)[1..] == NatToString(-i);
      assert IntToString(j)[1..] == NatToString(-j);
      NatToStringInjective(-i, -j);
    } else if IntToString(i) == IntToString(j) && i >= 0 && j >= 0 {
      NatToStringInjective(i, j);
    }
  }

  // ---------------------------------------------------------------------
  // Prefixes, split and join
  // ---------------------------------------------------------------------

  /** `s.startsWith(p)` */
  predicate StartsWith(s: string, p: string) {
    |p| <= |s| && s[..|p|] == p
  }

  /** A prefix followed by a prefix of what remains is a prefix. */
  lemma StartsWithAppend(s: string, a: string, b: string)
    requires StartsWith(s, a) && StartsWith(s[|a|..], b)
    ensures StartsWith(s, a + b)
  {
    assert s[..|a + b|] == s[..|a|] + s[|a|..][..|b|];
  }

  /** A piece `q` read right after a prefix `p`, and running up to a
      separator or the end, does so in the whole string too. */
  lemma PrefixedPiece(s: string, p: string, q: string, sep: char)
    requires StartsWith(s, p) && StartsWith(s[|p|..], q)
    requires |q| == |s| - |p| || s[|p|..][|q|] == sep
    ensures StartsWith(s, p + q)
    ensures |p + q| == |s| || s[|p + q|] == sep
  {
    StartsWithAppend(s, p, q);
  }

  lemma AppendPieces(p: string, a: string, sep: string, b: string)
    ensures p + (a + sep + b) == p + a + sep + b
  {
  }

  /** A string starting with `p + q` starts with `p`. */
  lemma StartsWithShorter(s: string, p: string, q: string)
    requires StartsWith(s, p + q)
    ensures StartsWith(s, p)
  {
    assert s[..|p|] == s[..|p + q|][..|p|];
  }

  /** What follows a prefix `p` in a string starting with `p + a` is `a`. */
  lemma StartsWithAt(s: string, p: string, a: string)
    requires StartsWith(s, p + a)
    ensures s[|p|..|p| + |a|] == a
  {
    assert s[|p|..|p| + |a|] == s[..|p + a|][|p|..];
  }

  /** Where the piece starting at `i` ends: the first separator at or
      after `i`, or the end of the string. */
  function PieceEnd(s: string, i: nat, sep: char): nat
    decreases |s| - i
  {
    if i >= |s| || s[i] == sep then i else PieceEnd(s, i + 1, sep)
  }

  /** A separator-free stretch of `n` characters from `i` that reaches a
      separator or the end ends where the piece ends. */
  lemma {:induction false} PieceEndAt(s: string, i: nat, n: nat, sep: char)
    requires i + n <= |s|
    requires forall k :: i <= k < i + n ==> s[k] != sep
    requires i + n == |s| || s[i + n] == sep
    ensures PieceEnd(s, i, sep) == i + n
    decreases n
  {
    if n > 0 {
      PieceEndAt(s, i + 1, n - 1, sep);
    }
  }

  /** Two separator-free pieces read at the same place, each running up to
      a separator or to the end, are the same piece. */
  lemma DelimitedPieceUnique(s: string, i: nat, a: string, b: string, sep: char)
    requires i + |a| <= |s| && s[i..i + |a|] == a && sep !in a
    requires i + |b| <= |s| && s[i..i + |b|] == b && sep !in b
    requires i + |a| == |s| || s[i + |a|] == sep
    requires i + |b| == |s| || s[i + |b|] == sep
    ensures a == b
  {
    assert forall k :: i <= k < i + |a| ==> s[k] == a[k - i];
    assert forall k :: i <= k < i + |b| ==> s[k] == b[k - i];
    PieceEndAt(s, i, |a|, sep);
    PieceEndAt(s, i, |b|, sep);
  }

  /** `s.split(sep)` for a one-character separator: the pieces between
      separators, in order; the empty string splits into one empty piece. */
  function Split(s: string, sep: char): (parts: seq<string>)
    ensures |parts| >= 1
    ensures forall k :: 0 <= k < |parts| ==> sep !in parts[k]
    ensures sep in s <==> |parts| >= 2
    ensures StartsWith(s, parts[0])
    ensures |parts| == 1 ==> parts[0] == s
    ensures |parts| >= 2 ==> |parts[0]| < |s| && s[|parts[0]|] == sep
    decreases |s|
  {
    if |s| == 0 then [""]
    else
      var rest := Split(s[1..], sep);
      if s[0] == sep then [""] + rest
      else
        assert sep in s ==> sep in s[1..] by {
          if sep in s {
            var k :| 0 <= k < |s| && s[k] == sep;
            assert s[1..][k - 1] == sep;
          }
        }
        assert s[..1 + |rest[0]|] == [s[0]] + s[1..][..|rest[0]|];
        assert s == [s[0]] + s[1..];
        [[s[0]] + rest[0]] + rest[1..]
  }

  /** After the first piece and its separator, the rest of the string
      splits into the remaining pieces. */
  lemma {:induction false} SplitRest(s: string, sep: char)
    requires |Split(s, sep)| >= 2
    ensures Split(s, sep)[1..] == Split(s[|Split(s, sep)[0]| + 1..], sep)
    decreases |s|
  {
    var parts := Split(s, sep);
    var rest := Split(s[1..], sep);
    if s[0] == sep {
      assert parts == [""] + rest;
      assert parts[1..] == rest;
    } else {
      assert parts == [[s[0]] + rest[0]] + rest[1..];
      assert |parts[0]| == |rest[0]| + 1;
      SplitRest(s[1..], sep);
      assert s[1..][|rest[0]| + 1..] == s[|rest[0]| + 2..];
    }
  }

  /** `parts.join(sep)` */
  function Join(parts: seq<string>, sep: char): (r: string)
    ensures |parts| == 0 ==> r == ""
    ensures |parts| >= 1 ==> StartsWith(r, parts[0])
    ensures (forall k :: 0 <= k < |parts| ==> sep !in parts[k]) ==> (sep in r <==> |parts| >= 2)
    decreases |parts|
  {
    if |parts| == 0 then ""
    else if |parts| == 1 then parts[0]
    else
      var r := parts[0] + [sep] + Join(parts[1..], sep);
      assert r[|parts[0]|] == sep;
      r
  }

  /** Joining the pieces of a split gives the original string back. */
  lemma {:induction false} JoinOfSplit(s: string, sep: char)
    ensures Join(Split(s, sep), sep) == s
    decreases |s|
  {
    if |s| > 0 {
      JoinOfSplit(s[1..], sep);
      JoinOfSplitStep(s, sep);
    }
  }

  /** One character more: the join of the split of `s` is `s` once that of
      its tail is. */
  lemma JoinOfSplitStep(s: string, sep: char)
    requires |s| > 0 && Join(Split(s[1..], sep), sep) == s[1..]
    ensures Join(Split(s, sep), sep) == s
  {
    var rest := Split(s[1..], sep);
    assert Join(Split(s, sep), sep) == [s[0]] + Join(rest, sep) by {
      if s[0] == sep {
        assert Split(s, sep) == [""] + rest;
        JoinAfterEmpty(rest, sep);
      } else {
        assert Split(s, sep) == [[s[0]] + rest[0]] + rest[1..];
        JoinWithLonger(s[0], rest, sep);
      }
    }
    assert s == [s[0]] + s[1..];
  }

  lemma JoinAfterEmpty(rest: seq<string>, sep: char)
    requires |rest| >= 1
    ensures Join([""] + rest, sep) == [sep] + Join(rest, sep)
  {
    assert ([""] + rest)[1..] == rest;
  }

  lemma JoinWithLonger(c: char, rest: seq<string>, sep: char)
    requires |rest| >= 1
    ensures Join([[c] + rest[0]] + rest[1..], sep) == [c] + Join(rest, sep)
  {
    var parts := [[c] + rest[0]] + rest[1..];
    if |rest| > 1 {
      assert parts[1..] == rest[1..];
    }
  }




  lemma {:induction false} SplitWithoutSeparator(a: string, sep: char)
    requires sep !in a
    ensures Split(a, sep) == [a]
    decreases |a|
  {
    if |a| > 0 {
      assert sep !in a[1..];
      SplitWithoutSeparator(a[1..], sep);
      assert [a[0]] + a[1..] == a;
    }
  }

  /** A separator-free piece followed by the separator splits off as the
      first piece. */
  lemma {:induction false} SplitAfterPiece(a: string, sep: char, b: string)
    requires sep !in a
    ensures Split(a + [sep] + b, sep) == [a] + Split(b, sep)
    decreases |a|
  {
    var s := a + [sep] + b;
    if |a| == 0 {
      assert s[1..] == b;
    } else {
      assert s[1..] == a[1..] + [sep] + b;
      assert sep !in a[1..];
      SplitAfterPiece(a[1..], sep, b);
      assert [a[0]] + a[1..] == a;
    }
  }

  /** Splitting a join of separator-free pieces gives the pieces back. */
  lemma {:induction false} SplitOfJoin(parts: seq<string>, sep: char)
    requires |parts| >= 1
    requires forall k :: 0 <= k < |parts| ==> sep !in parts[k]
    ensures Split(Join(parts, sep), sep) == parts
    decreases |parts|
  {
    if |parts| == 1 {
      SplitWithoutSeparator(parts[0], sep);
    } else {
      SplitOfJoin(parts[1..], sep);
      SplitAfterPiece(parts[0], sep, Join(parts[1..], sep));
      assert [parts[0]] + parts[1..] == parts;
    }
  }

  /** `xs.filter(v => v && v !== drop)`: the non-empty entries other than
      `drop`, in their original order. */
  function Filtered(xs: seq<string>, drop: string): (r: seq<string>)
    ensures forall k :: 0 <= k < |r| ==> r[k] != "" && r[k] != drop
    ensures forall x :: x in r <==> x in xs && x != "" && x != drop
    ensures |r| <= |xs|
    decreases |xs|
  {
    if |xs| == 0 then []
    else if xs[0] != "" && xs[0] != drop then [xs[0]] + Filtered(xs[1..], drop)
    else Filtered(xs[1..], drop)
  }

  /** `xs.filter(v => v)`: the non-empty entries, in order. */
  function NonEmpty(xs: seq<string>): seq<string> {
    Filtered(xs, "")
  }

  lemma {:induction false} FilteredOfClean(xs: seq<string>, drop: string)
    requires forall k :: 0 <= k < |xs| ==> xs[k] != "" && xs[k] != drop
    ensures Filtered(xs, drop) == xs
    decreases |xs|
  {
    if |xs| > 0 {
      FilteredOfClean(xs[1..], drop);
      assert [xs[0]] + xs[1..] == xs;
    }
  }

  /** Dropping empty entries first does not change a later filter. */
  lemma {:induction false} FilteredAfterNonEmpty(xs: seq<string>, drop: string)
    ensures Filtered(NonEmpty(xs), drop) == Filtered(xs, drop)
    decreases |xs|
  {
    if |xs| > 0 {
      FilteredAfterNonEmpty(xs[1..], drop);
    }
  }

  /** Filtering distributes over concatenation. */
  lemma {:induction false} FilteredAppend(xs: seq<string>, ys: seq<string>, drop: string)
    ensures Filtered(xs + ys, drop) == Filtered(xs, drop) + Filtered(ys, drop)
    decreases |xs|
  {
    if |xs| > 0 {
      assert (xs + ys)[1..] == xs[1..] + ys;
      FilteredAppend(xs[1..], ys, drop);
    } else {
      assert xs + ys == ys;
    }
  }
}

=== FILE: wrappers.dfy ===
/** The optional value used wherever the relay reads something that may be
    absent: a store lookup that finds nothing, a JavaScript `null` or
    `undefined`, a `parseInt` that yields `NaN`. */
module Wrappers {

  datatype Option<+T> = None | Some(value: T) {

    /** Returns the value in Some, or `default` for None. */
    function GetOr(default: T): T {
      match this
      case Some(v) => v
      case None => default
    }
  }
}
